=== FILE: README.md ===
# Gridlock Arena, modelled in Dafny

This project models the simulation core of Gridlock Arena, a grid-based survival game written in
C. The player walks an unbounded world made of 32x32 chunks. The world holds fixed-capacity arrays
of monsters, power-ups, landmines and projectiles, each with a live count. Every tick the player
moves and uses abilities, monsters move and shoot, collisions and pickups are applied, projectiles
fly, chunks are loaded around the player, and the neighbourhood is topped up with new entities.
The project also models the separate 5x5 prototype arena of the root `main.c`. There, five
creatures take random steps, and every crowded cell is settled by a battle with one survivor.

The modules follow the C files:

| module | file | what it holds |
|---|---|---|
| `Types` | `types.dfy` | the records of `src/types.h`, C's truncating `/` and `%`, integer square root, the random draw |
| `Dense` | `dense.dfy` | counting loops and the forward and backward swap-remove passes, generic in the element type |
| `Terrain` | `terrain.dfy` | the terrain threshold ladder over the noise value, and the terrain grid of a chunk |
| `State` | `state.dfy` | the global state of `src/globals.c` as class `GameState`, with its invariants |
| `World` | `world.dfy` | `worldToChunk`, `getChunkIndex`, `loadChunk` with LRU eviction, `unloadChunkEntities`, `generateChunkTerrain`, `generateChunkContent`, `updateChunks` |
| `Nearby` | `nearby.dfy` | `ensureNearbyMonsters`, `ensureNearbyPowerups`, `ensureNearbyLandmines` |
| `Game` | `game.dfy` | `checkCollisions`, `updatePowerups`, `updateLandmines`, `initGame`, `restartGame` |
| `Projectiles` | `projectiles.dfy` | `spawnProjectile`, `updateProjectiles` |
| `Monsters` | `monsters.dfy` | `updateMonsters` |
| `Player` | `player.dfy` | `updatePlayer`, with the keyboard as a parameter record |
| `Gridlock` | `arena.dfy` | the prototype arena: `moveCreature`, `resolveBattles`, `resetCreatures` and one turn of its loop |

Each C function that changes the global state is a method on the `GameState` object. Where a
loop body has a meaning of its own, the method is proved equal to a fold of a pure function over
the entity array. For example, `Game.CheckCollisions` equals `Game.Collide`, and
`Projectiles.UpdateProjectiles` is the backward fold `Projectiles.FlightFrom` followed by a
compaction. The properties the game promises are then lemmas about those functions.

## Model

| member | source | states |
|---|---|---|
| Types.IntSqrt | src/projectiles.c:52-54 | the truncated square root r of n: r*r <= n < (r+1)*(r+1) |
| Types.RandMod | src/world.c:226 | `rand() % n` is some value below n; every property holds for every draw |
| Dense.CountWhere | src/monsters.c:106-120 | a counting loop over the live prefix returns the number of elements passing the test |
| Dense.NoneWhere | src/world.c:359-368 | the "position free" scan answers true iff no live element blocks |
| Dense.SwapRemoveForward | src/world.c:113-128 | the forward swap-remove with `i--`: the count only drops, no survivor fails the test, and the survivors are, as a multiset, exactly the old elements that pass it |
| Dense.SwapRemoveBackward | src/game.c:285-297 | the backward swap-remove: the same three facts |
| Terrain.Classify | src/world.c:192-201 | the ladder always yields a terrain kind between grass (0) and sea (4) |
| Terrain.ClassifyBands | src/world.c:192-201 | mountain iff noise > 0.8, tree iff 0.3 < noise <= 0.8, grass iff -0.2 < noise <= 0.3, lake iff -0.8 < noise <= -0.2, sea iff noise <= -0.8 |
| Terrain.ClassifyMonotone | src/world.c:192-201 | more noise never gives a lower kind on the sea < lake < grass < tree < mountain scale |
| Terrain.TerrainGridKinds | src/world.c:176-203 | every cell of a generated grid is a kind 0..4 |
| State.GameState.constructor | src/globals.c:4-14 | all counts 0, a zeroed player, arrays of the capacities of `src/types.h`, state invariant established |
| World.AxisToChunk | src/world.c:20-29 | for every integer w, negatives included: chunk*32 + local == w and 0 <= local < 32 |
| World.WorldToChunk | src/world.c:13-43 | keeps the world coordinates, and decomposes both axes as above |
| World.WorldToChunkIsFloor | src/world.c:20-40 | the chunk is floor division by 32 and the local part the non-negative remainder |
| World.TruncatedChunk | src/world.c:287-288 | C's truncating `x / 32` agrees with the floor chunk iff x >= 0 or x is a multiple of 32 |
| World.TruncatedChunkMinusOne | src/world.c:310-311 | for x = -1 the floor chunk is -1 but the truncating chunk used by the top-up loops is 0 |
| World.FindChunk | src/world.c:46-56 | the first loaded slot with the given coordinates, or -1 exactly when no slot has them |
| World.FindChunkOnly | src/world.c:46-56 | with distinct keys, a slot holding the coordinates is the one found |
| World.GetChunkIndex | src/world.c:46-56 | the linear scan returns `FindChunk` of the loaded prefix |
| World.OldestSlot | src/world.c:67-77 | the eviction scan returns the slot with the least `lastAccess`, the lowest such index on ties (strict `<`) |
| World.IsOldestUnique | src/world.c:67-77 | that slot is unique |
| World.UnloadChunkEntities | src/world.c:107-165 | for each entity kind: the count only drops, no survivor is in the chunk and farther than 200, and the survivors are exactly the old entities not in that case, as a multiset |
| World.Capped | src/world.c:228-278 | a count after pushes that each need room stays between the old count and the capacity, and reaches the capacity exactly when old count plus pushes does |
| World.CellTally | src/world.c:221-279 | a cell asks for at most one entity: a monster iff its draw is below 2 on grass or trees, a power-up iff below 2 on a mountain, a landmine iff below 2 on a lake or the sea |
| World.ColumnTallyCountsCell | src/world.c:219-280 | every cell's request is counted in its column's tally |
| World.ChunkTallyCountsCell | src/world.c:217-281 | every cell's request is counted in its chunk's tally, so a grass or tree cell that draws below 2 makes the chunk ask for at least one monster |
| World.GenerateColumn | src/world.c:178-202 | the inner terrain loop produces `TerrainColumn` |
| World.GenerateGrid | src/world.c:176-203 | the nested terrain loop produces `TerrainGrid` |
| World.GenerateChunkTerrain | src/world.c:167-204 | only the slot holding the chunk gets the new terrain; keys, liveness and stamps of all slots stay; nothing happens when the chunk is not loaded |
| World.PushChunkMonster | src/world.c:228-255 | on a grass or tree cell of the chunk: one fresh monster standing on that cell is appended when the count is below 2000, otherwise nothing changes; fresh means alive, health 20..49 = maxHealth, power 3..7, texture 1..5, speed and both multipliers 1, level 1, XP 0 of 100, and power-up timer, cooldown, invulnerability, combat flag, stun, damage-over-time, speed-boost and death timers all 0 |
| World.PushChunkPowerup | src/world.c:257-267 | on a mountain cell of the chunk: one active power-up standing on that cell is appended when the count is below 50, otherwise nothing changes |
| World.PushChunkLandmine | src/world.c:268-278 | on a lake or sea cell of the chunk: one active landmine of damage 15..24 standing on that cell is appended when the count is below 100, otherwise nothing changes |
| World.SpawnOnCell | src/world.c:221-279 | one cell of the spawn loop draws below 100; the counts grow exactly by `CellTally` of the cell's kind and draw (with a draw below 2: a monster on grass or trees, a power-up on a mountain, a landmine on a lake or the sea), each capped at its capacity; what is appended stands on that cell and is of the kind its terrain calls for |
| World.SpawnOnColumn | src/world.c:219-280 | one column of the spawn loop: 32 draws below 100, the counts grow exactly by `ColumnTally` of them, capped; everything appended stands in that column of the chunk, of the kind its cell calls for |
| World.SpawnOnChunk | src/world.c:217-281 | the whole spawn loop: 32x32 draws, the counts grow exactly by `ChunkTally` of them, capped; entities are only appended, on cells of the chunk, of the kind the terrain calls for |
| World.GenerateChunkContent | src/world.c:206-282 | terrain, then entities; when the chunk is loaded the counts grow exactly by `ChunkTally` of its draws, 32 columns of 32 draws each below 100, capped, and otherwise nothing is spawned; existing entities are unchanged, table keys are unchanged |
| World.AppendChunk | src/world.c:94-104 | below capacity the chunk takes the next slot, stamped with the clock, the table count grows by one, and the entity counts grow by the chunk's capped tally of its 32 columns of 32 draws, each below 100 |
| World.EvictChunk | src/world.c:64-92 | at capacity the least recently used slot is cleared of far entities, then reused for the chunk; every other slot keeps its key; from the counts after the clearing the entity counts grow by the chunk's capped tally of its 32 columns of 32 draws, each below 100 |
| World.LoadChunk | src/world.c:58-105 | the chunk is loaded afterwards; a chunk already present changes nothing, not even its stamp; the count grows by one exactly when the chunk was absent and the table not full; at most one slot is evicted, and it is the oldest; no two slots share coordinates; a newly loaded chunk draws 32 columns of 32 draws, each below 100, and none is drawn otherwise; the entity counts grow by its capped `ChunkTally` from what the eviction kept, and only the chunk's own entities are appended |
| World.LoadColumn | src/world.c:292-295 | a column of loads keeps the state invariant and never shrinks the table |
| World.StampChunks | src/world.c:298-305 | every loaded slot is stamped with the clock, not only those in the load radius |
| World.UpdateChunks | src/world.c:284-306 | the 25x25 loads and the refresh: invariant kept, table never shrinks, every loaded slot stamped |
| Nearby.RandomCell | src/world.c:346-349 | the candidate cell lies in the chosen chunk |
| Nearby.RandomOffset | src/world.c:335-336 | the chunk offset is in -2..2 |
| Nearby.MonsterRoundAsWritten | src/world.c:332-373 | the round as written stores at index `monsterCount` as the load left it; from a count of 1999 with the chosen chunk absent, room in the table and one grass or tree cell of it drawing below 2, that index is 2000, past the end of the array |
| Nearby.PlaceMonster | src/world.c:344-400 | a placed monster is fresh (as for `World.PushChunkMonster`: every field the C store sets), lies in the chunk, has squared distance in (50², 300²) from the player, and no alive monster is within Chebyshev 1 of it; the count grows by exactly one when placed |
| Nearby.MonsterRound | src/world.c:335-401 | one round: a chunk within 2 of the player's is loaded; the load evicts a slot exactly when the chunk was absent and the table full, and then the slot is the oldest and the live monsters kept are, as a multiset, exactly the old ones except those in the evicted chunk and farther than 200 from the player; otherwise the old monsters are kept as they were; an absent chunk draws 32 columns of 32 draws below 100; the count after the load is the kept count grown by the chunk's tally, capped at 2000, and only the chunk's own monsters are appended; then at most one more is appended, only while there is room, in that chunk, fresh, in the ring (50, 300), with no alive monster of those within Chebyshev 1 |
| Nearby.EnsureNearbyMonsters | src/world.c:308-402 | the nearby count is its initial value plus the number of monsters placed; each placed monster is fresh, in the ring (50, 300) and within 2 chunks of the player's; the loop stops early only when 50 are nearby or the array is full; when no round evicted a chunk, the old live monsters are still the first entries and every placed monster is among those after them; and then each placed monster has no alive monster within Chebyshev 1 among the old live monsters and the monsters placed before it |
| Nearby.MonsterPlacedNear | src/world.c:335-349 | a monster placed on a cell of a chunk within 2 of the player's chunk lies, by floor division of its coordinates, within 2 chunks of it, fresh, in the ring (50, 300), and it has no alive monster within Chebyshev 1 of those it was placed among |
| Nearby.MonsterTopUp | src/world.c:332-401 | one pass of the loop body: the monster placed, if any, is fresh, in the ring (50, 300) and within 2 chunks of the player's; when the round evicted nothing, the live monsters that had grown from the starting ones by those placed so far have grown by this one too, and placed monsters that were apart (no alive monster within Chebyshev 1 among the starting ones and those placed earlier) stay apart with this one |
| Nearby.PowerupRoundAsWritten | src/world.c:428-464 | the round as written stores at index `powerupCount` as the load left it; from a count of 49 with the chosen chunk absent, room in the table and one mountain cell of it drawing below 2, that index is 50, past the end of the array |
| Nearby.PlacePowerup | src/world.c:437-473 | a placed power-up is active, in the chunk, in the ring (100², 400²), and no active power-up is within Chebyshev 2 |
| Nearby.PowerupRound | src/world.c:430-474 | one round: a chunk within 2 of the player's is loaded; the load evicts a slot exactly when the chunk was absent and the table full, and then the slot is the oldest and the live power-ups kept are, as a multiset, exactly the old ones except those in the evicted chunk and farther than 200 from the player; otherwise the old power-ups are kept as they were; an absent chunk draws 32 columns of 32 draws below 100; the count after the load is the kept count grown by the chunk's tally, capped at 50, and only the chunk's own power-ups are appended; then at most one more is appended, only while there is room, in that chunk, active, in the ring (100, 400), with no active power-up of those within Chebyshev 2 |
| Nearby.EnsureNearbyPowerups | src/world.c:404-475 | the nearby count is its initial value plus the number placed; each placed power-up is active, in the ring (100, 400) and within 2 chunks of the player's; stops early only when 5 are nearby or the array is full; when no round evicted a chunk, the old live power-ups are still the first entries and every placed power-up is among those after them; and then each placed power-up has no active power-up within Chebyshev 2 among the old live power-ups and the power-ups placed before it |
| Nearby.PowerupPlacedNear | src/world.c:430-442 | a power-up placed on a cell of a chunk within 2 of the player's chunk lies, by floor division of its coordinates, within 2 chunks of it, active, in the ring (100, 400), and it has no active power-up within Chebyshev 2 of those it was placed among |
| Nearby.PowerupTopUp | src/world.c:428-474 | one pass of the loop body: the power-up placed, if any, is active, in the ring (100, 400) and within 2 chunks of the player's; when the round evicted nothing, the live power-ups that had grown from the starting ones by those placed so far have grown by this one too, and placed power-ups that were apart (no active power-up within Chebyshev 2 among the starting ones and those placed earlier) stay apart with this one |
| Nearby.LandmineRoundAsWritten | src/world.c:501-537 | the round as written stores at index `landmineCount` as the load left it; from a count of 99 with the chosen chunk absent, room in the table and one lake or sea cell of it drawing below 2, that index is 100, past the end of the array |
| Nearby.PlaceLandmine | src/world.c:510-546 | a placed landmine is fresh, in the chunk, in the ring (150², 500²), and no active landmine is within Chebyshev 3 |
| Nearby.LandmineRound | src/world.c:503-547 | one round: a chunk within 2 of the player's is loaded; the load evicts a slot exactly when the chunk was absent and the table full, and then the slot is the oldest and the live landmines kept are, as a multiset, exactly the old ones except those in the evicted chunk and farther than 200 from the player; otherwise the old landmines are kept as they were; an absent chunk draws 32 columns of 32 draws below 100; the count after the load is the kept count grown by the chunk's tally, capped at 100, and only the chunk's own landmines are appended; then at most one more is appended, only while there is room, in that chunk, fresh, in the ring (150, 500), with no active landmine of those within Chebyshev 3 |
| Nearby.EnsureNearbyLandmines | src/world.c:477-548 | the nearby count is its initial value plus the number placed; each placed landmine is fresh, in the ring (150, 500) and within 2 chunks of the player's; stops early only when 10 are nearby or the array is full; when no round evicted a chunk, the old live landmines are still the first entries and every placed landmine is among those after them; and then each placed landmine has no active landmine within Chebyshev 3 among the old live landmines and the landmines placed before it |
| Nearby.LandminePlacedNear | src/world.c:503-515 | a landmine placed on a cell of a chunk within 2 of the player's chunk lies, by floor division of its coordinates, within 2 chunks of it, fresh, in the ring (150, 500), and it has no active landmine within Chebyshev 3 of those it was placed among |
| Nearby.LandmineTopUp | src/world.c:501-547 | one pass of the loop body: the landmine placed, if any, is fresh, in the ring (150, 500) and within 2 chunks of the player's; when the round evicted nothing, the live landmines that had grown from the starting ones by those placed so far have grown by this one too, and placed landmines that were apart (no active landmine within Chebyshev 3 among the starting ones and those placed earlier) stay apart with this one |
| Game.AwardKill | src/game.c:188-206 | a kill credit leaves the player's position, liveness, combat flag and invulnerability alone |
| Game.LevelUpOnce | src/game.c:192-206 | XP += power*10; the level rises by one iff XP reaches the threshold, never by more; on a level-up XP drops by the old threshold, the threshold becomes level*100, maxHealth +20, health = maxHealth, power +2; otherwise only XP changes |
| Game.LevelUpLeavesSurplus | src/game.c:198-206 | for every player and kill: after the kill XP still reaches the threshold exactly when the new XP passed the old threshold by at least `(level + 1) * 100`, so the surplus is left for the next kill instead of a second level-up |
| Game.TrollsBefore | src/game.c:159-171 | the count of other alive trolls within Chebyshev 2 never counts the troll itself |
| Game.Exchange | src/game.c:149-214 | one exchange flags both fighters, takes `(power*mult)/2` from the monster, kills it iff its health falls to 0 or below, and the player dies when health reaches 0 |
| Game.Engage | src/game.c:139-215 | a fight touches only its own monster and never moves the player or changes invulnerability |
| Game.CombatUpTo | src/game.c:137-216 | the fold leaves unvisited monsters, the player's position and invulnerability alone |
| Game.CombatFlags | src/game.c:137-150 | every visited alive monster at Chebyshev distance exactly 1 from the player is flagged, other monsters keep their flag, dead ones are untouched; the player ends flagged iff it was or some alive monster is adjacent |
| Game.InvulnerableNoDamage | src/game.c:178-182 | while invulnerable the player's health after combat is unchanged or restored to maxHealth by a level-up, never lowered |
| Game.VulnerableDamage | src/game.c:153-181 | a vulnerable player facing a surviving monster loses exactly its damage, times 2^k for a troll with k other trolls near |
| Game.CombatNeverRevives | src/game.c:137-214 | combat never revives the player or a monster |
| Game.CountTrolls | src/game.c:159-171 | the nested loop counts `TrollsAround` |
| Game.EngageMonster | src/game.c:139-215 | the loop body on monster i equals `Engage` |
| Game.ApplyPowerup | src/game.c:227-243 | timer 300 and the type recorded; double damage sets the damage multiplier to 2, double health heals fully, double speed sets the speed multiplier to 2 |
| Game.PickupUpTo | src/game.c:219-250 | the pickup fold keeps the number of power-ups and the player's position |
| Game.PickupEffect | src/game.c:219-250 | exactly the active power-ups on the player's cell are deactivated; with none the player is unchanged; with any the power-up timer is 300 |
| Game.MinesUpTo | src/game.c:253-266 | the landmine fold changes only the player's health |
| Game.MinesIgnoreInvulnerability | src/game.c:253-266 | the player loses the summed damage of the active landmines underfoot, whatever the invulnerability timer, and exactly those landmines are deactivated |
| Game.Collide | src/game.c:124-267 | flags, combat, pickups, mines in that order keep every array's length |
| Game.ClearCombatFlags | src/game.c:126-134 | the flag loop equals `ClearFlags` and clears the player's flag |
| Game.CombatPass | src/game.c:136-216 | the combat loop equals `CombatUpTo` |
| Game.PickupPass | src/game.c:218-250 | the power-up loop equals `PickupUpTo` |
| Game.MinesPass | src/game.c:252-266 | the landmine loop equals `MinesUpTo` |
| Game.CheckCollisions | src/game.c:124-267 | the whole pass equals `Collide` on the old state |
| Game.PowerupTick | src/game.c:271-280 | the tick never moves, hurts or kills the player |
| Game.PowerupTickSaturates | src/game.c:271-280 | the timer counts down to 0 and stays there; the multipliers reset to 1 exactly on the tick it reaches 0; nothing else changes |
| Game.UpdatePowerups | src/game.c:269-298 | the player ticks; the count only drops; the survivors are exactly the old power-ups within 300 (squared 90000), active or not |
| Game.UpdateLandmines | src/game.c:300-318 | the same for landmines |
| Game.InitPlayer | src/game.c:39-71 | the player starts at (1, 1), alive, health 100/100, power 8, level 1, XP 0 of 100, invulnerable for 180 ticks, all status timers 0 |
| Game.SpawnOpeningMonster | src/game.c:94-120 | one opening monster appended after the old ones, within 49 of the start cell (1, 1), alive, health 20..49 = maxHealth, power 3..7, texture 1..5, speed and both multipliers 1, power-up timer and cooldown 0, level 1, XP 0 and threshold 0, out of combat, not invulnerable |
| Game.OpeningSpawn | src/game.c:91-121 | fifteen opening spawns, capped at 2000, appended after the old monsters, each an opening monster as for `Game.SpawnOpeningMonster` |
| Game.InitGame | src/game.c:37-122 | the initial player; the chunk refreshes leave every loaded chunk stamped with the clock; then 15 opening monsters (capped at 2000) follow the chunk-generated ones, each an opening monster as for `Game.SpawnOpeningMonster` |
| Game.ClearState | src/game.c:14-31 | all five counts 0, the monster, power-up, landmine and projectile arrays zeroed, every chunk slot marked unloaded with its other fields kept, the player untouched |
| Game.RestartGame | src/game.c:12-35 | the projectile array zeroed and emptied, then `initGame`: the initial player, every loaded chunk stamped with the clock, state invariant kept, and the monsters are the chunk-generated ones followed by 15 opening monsters (capped at 2000), each as for `Game.SpawnOpeningMonster` |
| Projectiles.Launched | src/projectiles.c:11-37 | a new projectile is alive with range 0 and speed 2; type 0 gets stun and range 200, type 1 damage over time and 150, any other no effect and 80 |
| Projectiles.SpawnProjectile | src/projectiles.c:6-38 | full array: no-op; otherwise exactly one launched projectile is appended |
| Projectiles.Fly | src/projectiles.c:47-54 | a flight step moves the projectile and adds the truncated step length to its range, nothing else |
| Projectiles.Afflict | src/projectiles.c:96-107 | a hit removes the damage; stun sets the stun timer to 60, fire the burn timer to 180 |
| Projectiles.Struck | src/projectiles.c:96-112 | a struck monster survives iff it was alive and its health stays positive |
| Projectiles.TargetFrom | src/projectiles.c:88-93 | the first alive monster within Chebyshev 1 at or after j, or -1 when none |
| Projectiles.Target | src/projectiles.c:88-131 | the first alive monster within Chebyshev 1 in index order, or -1 exactly when there is none |
| Projectiles.Process | src/projectiles.c:44-140 | one projectile's update touches no other projectile and never moves the player |
| Projectiles.SurvivesIff | src/projectiles.c:57-140 | a projectile survives its update iff it was alive, is still in range, missed the player, hit no monster and is within 50 of the player |
| Projectiles.OneVictim | src/projectiles.c:88-131 | at most one monster changes, the first target in index order, and it is struck |
| Projectiles.FlightFrom | src/projectiles.c:42-141 | the backward pass leaves the projectiles before j alone |
| Projectiles.SurvivorsNear | src/projectiles.c:134-140 | every projectile alive after the pass is within 50 of the player |
| Projectiles.InvulnerableUnhurt | src/projectiles.c:64-85 | while invulnerable the player's health is unchanged or restored to maxHealth by a level-up from a kill credit, never lowered, and the timer is not touched |
| Projectiles.CoastRange | src/projectiles.c:51-54 | after k steps the range has grown by k times the step length |
| Projectiles.Lifetime | src/projectiles.c:19-61 | along an axis the range reaches the maximum on exactly the 100th (lightning), 75th (fireball) or 40th (arrow) step |
| Projectiles.FindTarget | src/projectiles.c:88-93 | the monster scan returns `Target` |
| Projectiles.ProcessProjectile | src/projectiles.c:44-140 | the loop body on projectile i equals `Process` |
| Projectiles.FlyAll | src/projectiles.c:42-141 | the first loop equals `FlightFrom` from 0 |
| Projectiles.KeptNear | src/projectiles.c:143-151 | after the compaction every projectile is alive and within 50 of the player |
| Projectiles.UpdateProjectiles | src/projectiles.c:40-152 | player and monsters as the flight pass leaves them; the projectiles are exactly its survivors, as a multiset, all alive and within 50 |
| Monsters.PursuitStep | src/monsters.c:30-38 | a troll's step on one axis is at most 2 and never away from the player |
| Monsters.FleeStep | src/monsters.c:63-71 | a flight step is at most 1 |
| Monsters.Turn | src/monsters.c:13-99 | a turn changes only the position and cooldown, by at most 2 on each axis |
| Monsters.CooldownGates | src/monsters.c:13-94 | dead monsters never change; a cooling monster only counts down and stays put; after a move the cooldown is 6, 9 or 12 (troll, ranged, other), doubled in combat |
| Monsters.PursuitCloses | src/monsters.c:30-38 | the pursuit step never increases the squared distance, shrinks it from two cells away, and hops over the player from one cell away |
| Monsters.TrollCloses | src/monsters.c:27-40 | a troll never gets farther from the player, strictly closer from two cells away, and lands on the mirror cell from one cell away |
| Monsters.RangedFlees | src/monsters.c:62-73 | a ranged monster never gets closer, moves at most one cell, and moves iff it shares exactly one of the player's row and column |
| Monsters.WandererSteps | src/monsters.c:75-95 | any other monster moves exactly one cell in the drawn cardinal direction |
| Monsters.ShotHostile | src/monsters.c:44-59 | a shot is alive, has range 0, is lightning or a fireball, aims along one of the eight directions, and stuns for a wizard (texture 5) and burns otherwise |
| Monsters.Shoot | src/monsters.c:44-60 | at most one shot is appended, and it is the monster's `Shot` |
| Monsters.TurnMonster | src/monsters.c:13-99 | the loop body moves monster i by `Turn`, touches no other monster, and appends at most its own shot |
| Monsters.Turned | src/monsters.c:11-100 | the movement loop applies `Turn` to every monster |
| Monsters.TurnAll | src/monsters.c:11-100 | the movement loop equals `Turned`, and only hostile shots are appended |
| Monsters.DespawnMonsters | src/monsters.c:102-141 | with fewer than 6 alive monsters within 300 nothing changes; otherwise the survivors are exactly the monsters that are dead or within 300, and none is alive and far |
| Monsters.UpdateMonsters | src/monsters.c:9-142 | movement then conditional despawn, as above |
| Player.Burn | src/player.c:18-30 | the burn step changes only the burn timer, health and liveness |
| Player.Tick | src/player.c:18-55 | the timer step never moves the player and leaves the stun timer |
| Player.TickSaturates | src/player.c:32-55 | the movement, invulnerability, arrow and burn timers each count down by one and stop at 0 |
| Player.BurnSchedule | src/player.c:18-30 | after n ticks of burning, health has dropped by the damage once per multiple of 60 the timer passed |
| Player.FireballBurnsThrice | src/player.c:18-30 | a 180-tick burn hits exactly three times |
| Player.SteerDisplacement | src/player.c:94-136 | the step is the stride times the pressed directions, opposite keys cancel, and any movement key sets the movement cooldown |
| Player.Smash | src/player.c:139-180 | a jump smash keeps the number of monsters |
| Player.SmashCredits | src/player.c:161-178 | XP grows by 10 per monster killed, with no level-up; a monster dies iff it was alive, within squared distance 4 of the landing cell three cells along the aim, and its health is at most twice the player's power |
| Player.Perform | src/player.c:138-224 | the ability phase keeps the number of monsters |
| Player.Act | src/player.c:9-224 | the whole update keeps the number of monsters |
| Player.StunFreezes | src/player.c:12-16 | a stunned player only counts the stun down: no other field, no monster, no arrow |
| Player.CooldownBlocksAbilities | src/player.c:45-61 | still cooling after the decrement: no move, no ability, no arrow |
| Player.HealRestores | src/player.c:190-196 | a ready heal restores full health and sets the cooldown to 1800 |
| Player.SmashMonsters | src/player.c:161-176 | the damage loop applies `Smashed` to every monster and counts the kills |
| Player.JumpSmash | src/player.c:139-180 | the jump smash equals `Smash` |
| Player.ShootArrow | src/player.c:199-223 | an arrow is appended when there is room, and the arrow cooldown becomes 60 either way |
| Player.UseAbilities | src/player.c:138-224 | the ability phase equals `Perform`, the arrow going to the projectile array |
| Player.UpdatePlayer | src/player.c:9-230 | the whole update equals `Act` |
| Gridlock.StepStaysInGrid | main.c:92-116 | a step keeps the creature on the 5x5 grid, changes at most one coordinate by one and nothing else, and is refused exactly at the border it would cross |
| Gridlock.WinnerIsStrongest | main.c:151-163 | the winner is the lowest-index creature with the strictly greatest positive power on the cell; there is none iff no creature there has positive power |
| Gridlock.Settle | main.c:145-176 | a battle changes a creature's liveness and score only |
| Gridlock.Resolve | main.c:118-179 | resolution keeps the number of creatures |
| Gridlock.SettleCrowded | main.c:165-175 | on a crowded cell the winner gains the summed power of the others, and every other creature there dies |
| Gridlock.TwoOccupants | main.c:128-137 | two alive creatures on one cell make its count at least 2 |
| Gridlock.OneSurvivorPerCell | main.c:118-179 | after resolution no cell holds two alive creatures |
| Gridlock.ResolveEffects | main.c:128-178 | nobody revives; dead and lone creatures are unchanged; a score changes only for the winner, by exactly the power it killed |
| Gridlock.PowerlessAllDie | main.c:151-176 | on a crowded cell where no creature has positive power, all of them die |
| Gridlock.FewerAlive | main.c:165-175 | if nobody revives, the alive count does not grow |
| Gridlock.AliveNeverIncreases | main.c:118-179 | resolution never increases the number of alive creatures |
| Gridlock.Arena.constructor | main.c:31-41 | the five initial creatures and an empty battle grid |
| Gridlock.Arena.ResetCreatures | main.c:43-54 | the five initial records restored and the battle grid cleared |
| Gridlock.Arena.MoveCreature | main.c:92-116 | creature i takes a `Step` in a random direction, nothing else changes, and all stay on the grid |
| Gridlock.Arena.FindWinner | main.c:151-163 | the scan returns `Winner` |
| Gridlock.Arena.Strike | main.c:167-174 | creature i, if on the cell and not the winner, dies and its power is added to the winner's score |
| Gridlock.Arena.Battle | main.c:150-175 | every creature fighting on the cell becomes its `Resolve` outcome; the rest are unchanged |
| Gridlock.Arena.CountOccupants | main.c:127-138 | the count grid holds the number of alive creatures per cell |
| Gridlock.Arena.ClearBattles | main.c:124-125 | the battle grid is cleared |
| Gridlock.Arena.Visit | main.c:143-176 | one cell of the row-major loop keeps "cells before are resolved, the rest untouched" |
| Gridlock.Arena.NextRow | main.c:141-143 | finishing a row is starting the next |
| Gridlock.Arena.AllRows | main.c:141-178 | once every row is done, the creatures are `Resolve` of the old ones and the marks are the crowded cells |
| Gridlock.Arena.ResolveBattles | main.c:118-179 | the creatures become `Resolve` of the old ones, and `battleLocations[y][x]` is set exactly for cells that held two or more alive creatures |
| Gridlock.Arena.Turn | main.c:201-226 | after an optional reset to the initial creatures, every alive creature takes a `Step` in the direction it drew, dead ones stay, and the result is `Resolve` of the moved creatures |

## Left out

- Floating point. Distances are compared as integer squared distances, so a float comparison that rounds differently exactly at a boundary is not modelled. Multipliers are the integers 1 and 2.
- Player.ShootArrow: directions are integer vectors, so an arrow keeps the raw key direction and a diagonal arrow flies (±2, ±2) per tick, its range growing by 2. In C the direction is normalised to about ±0.707 and `x += dx * speed` adds about ±1.414 to an int coordinate, which truncates to a move of 1 or 2 cells depending on the signs of the coordinate and the direction, while the range grows by `(int)` of a square root near 2, so 1 or 2 depending on float rounding. In particular a down-right arrow shot from non-negative coordinates is within one cell of its launch cell after its first step, and projectiles carry no owner, so unless the player has moved off that cell the player-collision test of src/projectiles.c:64 removes the arrow and, without invulnerability, hurts the shooter; the modelled diagonal arrow, two cells out after one step, never does this.
- Monsters.Shoot: a monster shot aims with the sign vector of the offset to the player and moves 2 cells per axis a tick. In C the direction is the offset divided by the distance, so toward a player off both axes each component is below 1 in size, and at non-negative coordinates a shot toward a player below and to the right moves 0 or 1 cell per axis on its first step. The wizard or dragon itself does not move off-axis, because its flee step `(int)(dx / dist)` is 0. So after one step the shot is within Chebyshev 1 of its shooter, and unless the player is within one cell of the shot (src/projectiles.c:64 is tested first), src/projectiles.c:88-93 strikes the first alive monster in that box: the shooter or a neighbour of lower index. The modelled shot is two cells out after one step and never does this.
- Monsters.PursuitStep: the troll's `(int)(d / dist * 2)` and the flee's `(int)(d / dist)` are replaced by exact integer equivalents of the real-number expressions. Float rounding of `sqrt` near those boundaries is ignored.
- Game.SpawnOpeningMonster: the `cos`/`sin` angle is abstracted to any offset whose length is at most the drawn distance.
- Terrain noise (`sin`/`cos` plus `srand`/`rand`) is an opaque function of the world cell, fixed per game. Only the threshold ladder is modelled.
- `rand()` is an arbitrary draw below the modulus, and every property is proved for every outcome. The C generator's sequence and the 30% shot chance are not modelled.
- `GetTime()` is a `now` parameter.
- Sound, textures, the camera, drawing (`drawWorld`, `drawMinimap`, `drawProjectiles`, `drawGrid`, `drawCreatures`, src/ui.c) and the restart-button hit test are left out. Creature and character names are kept only in the arena.
- Keyboard input is a parameter record. `IsKeyPressed` and `IsKeyDown` are not told apart.
- Nearby.EnsureNearbyMonsters, Nearby.EnsureNearbyPowerups, Nearby.EnsureNearbyLandmines: the C loops need not terminate when placement keeps failing. The model runs at most `fuel` rounds and reports how many it used.
- World.LoadChunk: the C function always returns 1, and the model does not return it.
- Nearby.EnsureNearbyMonsters, Nearby.EnsureNearbyPowerups, Nearby.EnsureNearbyLandmines: when a round's load evicts a chunk, the swap-remove of the unloading may move or drop entities, so the placed entities are tied to the final arrays only when no round evicted. Each round still states what its own load did.
- Game.RestartGame: the arrays are promised zero only right after the clearing (`Game.ClearState`). The slots past the counts after `initGame` are not promised zero, because an eviction's swap-remove can leave stale copies there.
- World.UpdateChunks: it is not proved that all 625 chunks of the load radius are resident afterwards. LRU ties can evict a chunk loaded earlier in the same refresh.
- Game.VulnerableDamage: `1 << nearbyTrolls` is `2^k` on mathematical integers. The 32-bit overflow for 31 or more nearby trolls is not modelled. No int is modelled with 32-bit wrap-around.
- The `moves` and `moveCount` fields of an arena creature are never used by the C code and are left out. So are the `positions` and `power` grids of `resolveBattles`, which are filled but never read. The unused `moveIndex` argument of `moveCreature` is dropped.
- The battle grid holds booleans for the C program's 0/1 ints.
- The tick order and death-timer restart of src/main.c are not part of this model. Each update is modelled on its own.

## Findings

| source | as written | input that shows it | evidently intended | confidence | as-written member | corrected member |
|---|---|---|---|---|---|---|
| src/world.c:332-373 | the monster top-up loop checks `monsterCount < MAX_MONSTERS`, then calls `loadChunk`, which may itself append monsters, then writes `monsters[monsterCount]` without checking again | 1999 monsters; the chunk picked by the round is not yet loaded, the chunk table has room, and one grass or tree cell of the chunk draws below 2 when it is generated: the new monster is written to index 2000, past the end of the array | place only while the array still has room after the load | medium, not executed | Nearby.MonsterRoundAsWritten | Nearby.MonsterRound |
| src/world.c:428-464 | the power-up top-up loop checks `powerupCount < MAX_POWERUPS`, then calls `loadChunk`, which may itself append power-ups, then writes `powerups[powerupCount]` without checking again | 49 power-ups; the chunk picked by the round is not yet loaded, the chunk table has room, and one mountain cell of the chunk draws below 2 when it is generated: the new power-up is written to index 50, past the end of the array | place only while the array still has room after the load | medium, not executed | Nearby.PowerupRoundAsWritten | Nearby.PowerupRound |
| src/world.c:501-537 | the landmine top-up loop checks `landmineCount < MAX_LANDMINES`, then calls `loadChunk`, which may itself append landmines, then writes `landmines[landmineCount]` without checking again | 99 landmines; the chunk picked by the round is not yet loaded, the chunk table has room, and one lake or sea cell of the chunk draws below 2 when it is generated: the new landmine is written to index 100, past the end of the array | place only while the array still has room after the load | medium, not executed | Nearby.LandmineRoundAsWritten | Nearby.LandmineRound |

=== FILE: arena.dfy ===
/**
 * The prototype arena of the root main.c: five creatures on a 5x5 grid take a random clamped
 * step each turn, and every cell holding two or more alive creatures becomes a battle that the
 * strongest one there survives, collecting the power of those it kills.
 */
module Gridlock {
  import opened Types
  import opened Dense

  const GRID_SIZE: int := 5
  const CREATURE_COUNT: nat := 5

  /** A creature of the arena (its name, cell, power, texture, liveness and score). */
  datatype Creature = Creature(name: string, x: int, y: int, power: int, textureIndex: int,
                               alive: bool, score: int)

  /** The five creatures every game starts with. */
  const InitialCreatures: seq<Creature> := [
    Creature("Dragon", 0, 0, 7, 0, true, 0),
    Creature("Goblin", 0, 2, 3, 1, true, 0),
    Creature("Ogre", 2, 0, 5, 2, true, 0),
    Creature("Troll", 2, 2, 4, 3, true, 0),
    Creature("Wizard", 4, 1, 6, 4, true, 0)]

  predicate InGrid(c: Creature)
  {
    0 <= c.x < GRID_SIZE && 0 <= c.y < GRID_SIZE
  }

  // ----- Moving -----

  /** One step in direction dir, refused at the border of the grid. */
  function Step(c: Creature, dir: Direction): Creature
  {
    match dir
    case Up => if c.y > 0 then c.(y := c.y - 1) else c
    case Down => if c.y < GRID_SIZE - 1 then c.(y := c.y + 1) else c
    case Left => if c.x > 0 then c.(x := c.x - 1) else c
    case Right => if c.x < GRID_SIZE - 1 then c.(x := c.x + 1) else c
  }

  /**
   * A step keeps a creature on the grid, changes at most one coordinate by one and nothing but
   * the coordinates, and is refused exactly when it would cross the border.
   */
  lemma StepStaysInGrid(c: Creature, dir: Direction)
    requires InGrid(c)
    ensures InGrid(Step(c, dir))
    ensures Abs(Step(c, dir).x - c.x) + Abs(Step(c, dir).y - c.y) <= 1
    ensures Step(c, dir) == c.(x := Step(c, dir).x, y := Step(c, dir).y)
    ensures Step(c, dir) == c <==>
      match dir
      case Up => c.y == 0
      case Down => c.y == GRID_SIZE - 1
      case Left => c.x == 0
      case Right => c.x == GRID_SIZE - 1
  {
  }

  // ----- Battles -----

  /** An alive creature on cell (x, y). */
  predicate Fights(c: Creature, x: int, y: int)
  {
    c.alive && c.x == x && c.y == y
  }

  function FightsAt(x: int, y: int): Creature -> bool
  {
    (c: Creature) => Fights(c, x, y)
  }

  /** The number of alive creatures on cell (x, y). */
  function Occupants(cs: seq<Creature>, x: int, y: int): nat
  {
    CountIf(cs, FightsAt(x, y))
  }

  /** The winner scan over cs[..n]: the greatest power so far, starting from 0, and its index, or -1. */
  function WinnerFrom(cs: seq<Creature>, x: int, y: int, n: nat): (int, int)
    requires n <= |cs|
  {
    if n == 0 then (0, -1)
    else
      var (best, w) := WinnerFrom(cs, x, y, n - 1);
      if Fights(cs[n - 1], x, y) && cs[n - 1].power > best then (cs[n - 1].power, n - 1) else (best, w)
  }

  /** The winner on cell (x, y), or -1. */
  function Winner(cs: seq<Creature>, x: int, y: int): int
  {
    WinnerFrom(cs, x, y, |cs|).1
  }

  /**
   * The winner is the lowest-index creature with the strictly greatest positive power on the
   * cell; there is none exactly when no creature there has positive power.
   */
  lemma {:induction false} WinnerIsStrongest(cs: seq<Creature>, x: int, y: int, n: nat)
    requires n <= |cs|
    ensures var (best, w) := WinnerFrom(cs, x, y, n);
      && (w == -1 <==> forall k :: 0 <= k < n && Fights(cs[k], x, y) ==> cs[k].power <= 0)
      && (w == -1 ==> best == 0)
      && (w != -1 ==>
            && 0 <= w < n && Fights(cs[w], x, y) && best == cs[w].power > 0
            && (forall k :: 0 <= k < n && Fights(cs[k], x, y) ==> cs[k].power <= best)
            && (forall k :: 0 <= k < w && Fights(cs[k], x, y) ==> cs[k].power < best))
  {
    if n > 0 {
      WinnerIsStrongest(cs, x, y, n - 1);
    }
  }

  /** The total power of the creatures on (x, y) among cs[..n] other than w. */
  function SpoilsUpTo(cs: seq<Creature>, x: int, y: int, w: int, n: nat): int
    requires n <= |cs|
  {
    if n == 0 then 0
    else SpoilsUpTo(cs, x, y, w, n - 1) + (if Fights(cs[n - 1], x, y) && n - 1 != w then cs[n - 1].power else 0)
  }

  /**
   * The battle outcome for creature k: dead and lone creatures are untouched; in a crowded cell
   * everyone but the winner dies, and the winner adds the power of all the others to its score.
   */
  function Settle(cs: seq<Creature>, k: nat): (c: Creature)
    requires k < |cs|
    ensures c == cs[k].(alive := c.alive, score := c.score)
  {
    var c := cs[k];
    if !c.alive || Occupants(cs, c.x, c.y) <= 1 then c
    else
      var w := Winner(cs, c.x, c.y);
      if k == w then c.(score := c.score + SpoilsUpTo(cs, c.x, c.y, w, |cs|)) else c.(alive := false)
  }

  /** `resolveBattles` on the creature records. */
  function Resolve(cs: seq<Creature>): (r: seq<Creature>)
    ensures |r| == |cs|
  {
    seq(|cs|, k requires 0 <= k < |cs| => Settle(cs, k))
  }

  /** On a crowded cell the winner collects the spoils and everyone else dies. */
  lemma SettleCrowded(cs: seq<Creature>, x: int, y: int, k: nat)
    requires k < |cs| && Fights(cs[k], x, y) && Occupants(cs, x, y) > 1
    ensures Resolve(cs)[k] ==
      if k == Winner(cs, x, y) then cs[k].(score := cs[k].score + SpoilsUpTo(cs, x, y, k, |cs|))
      else cs[k].(alive := false)
  {
  }

  /** Two different alive creatures on one cell make it crowded. */
  lemma {:induction false} TwoOccupants(cs: seq<Creature>, i: nat, j: nat)
    requires i < j < |cs| && Fights(cs[i], cs[j].x, cs[j].y) && cs[j].alive
    ensures Occupants(cs, cs[j].x, cs[j].y) >= 2
  {
    var f := FightsAt(cs[j].x, cs[j].y);
    var n := |cs|;
    if j < n - 1 {
      TwoOccupants(cs[..n - 1], i, j);
      assert cs[..n - 1][i] == cs[i] && cs[..n - 1][j] == cs[j];
    } else {
      assert f(cs[j]);
      CountIfZero(cs[..n - 1], f);
      assert cs[..n - 1][i] == cs[i];
    }
  }

  /** After the battles no cell holds two alive creatures. */
  lemma OneSurvivorPerCell(cs: seq<Creature>, i: nat, j: nat)
    requires i < j < |cs|
    ensures var r := Resolve(cs); !(r[i].alive && r[j].alive && r[i].x == r[j].x && r[i].y == r[j].y)
  {
    var r := Resolve(cs);
    if r[i].alive && r[j].alive && r[i].x == r[j].x && r[i].y == r[j].y {
      TwoOccupants(cs, i, j);
      assert false;
    }
  }

  /**
   * Nobody comes back to life; dead creatures and creatures alone in their cell are unchanged;
   * a winner's score grows by exactly the power of the creatures it killed, and every other
   * score is unchanged.
   */
  lemma ResolveEffects(cs: seq<Creature>, k: nat)
    requires k < |cs|
    ensures var r := Resolve(cs);
      && (r[k].alive ==> cs[k].alive)
      && (!cs[k].alive || Occupants(cs, cs[k].x, cs[k].y) <= 1 ==> r[k] == cs[k])
      && (r[k].score != cs[k].score ==>
            k == Winner(cs, cs[k].x, cs[k].y) && r[k].score == cs[k].score + SpoilsUpTo(cs, cs[k].x, cs[k].y, k, |cs|))
  {
  }

  function IsAlive(c: Creature): bool
  {
    c.alive
  }

  /** Fewer or equally many creatures are alive in r than in cs when nobody in r lives who was dead in cs. */
  lemma {:induction false} FewerAlive(cs: seq<Creature>, r: seq<Creature>)
    requires |r| == |cs| && forall k :: 0 <= k < |r| && r[k].alive ==> cs[k].alive
    ensures CountIf(r, IsAlive) <= CountIf(cs, IsAlive)
  {
    if |r| > 0 {
      var n := |r| - 1;
      FewerAlive(cs[..n], r[..n]);
      CountIfSnoc(cs, n, IsAlive);
      CountIfSnoc(r, n, IsAlive);
      assert cs[..n + 1] == cs && r[..n + 1] == r;
    }
  }

  /** The battles never increase the number of alive creatures. */
  lemma AliveNeverIncreases(cs: seq<Creature>)
    ensures CountIf(Resolve(cs), IsAlive) <= CountIf(cs, IsAlive)
  {
    FewerAlive(cs, Resolve(cs));
  }

  /** If no creature on a crowded cell has positive power, every one of them dies. */
  lemma PowerlessAllDie(cs: seq<Creature>, k: nat)
    requires k < |cs| && cs[k].alive && Occupants(cs, cs[k].x, cs[k].y) > 1
    requires forall j :: 0 <= j < |cs| && Fights(cs[j], cs[k].x, cs[k].y) ==> cs[j].power <= 0
    ensures !Resolve(cs)[k].alive
  {
    WinnerIsStrongest(cs, cs[k].x, cs[k].y, |cs|);
  }

  // ----- The arena -----

  /** Cell (x, y) comes before row y0, column x0 in row-major order. */
  predicate Before(x: int, y: int, x0: int, y0: int)
  {
    y < y0 || (y == y0 && x < x0)
  }

  class Arena {
    const creatures: array<Creature>
    /** `battleLocations[y, x]`: a battle was fought on (x, y) in the last resolution. */
    const battleLocations: array2<bool>

    ghost predicate Valid()
      reads this, creatures
    {
      && creatures.Length == CREATURE_COUNT
      && battleLocations.Length0 == GRID_SIZE && battleLocations.Length1 == GRID_SIZE
      && forall k :: 0 <= k < creatures.Length ==> InGrid(creatures[k])
    }

    /** The program's start: the five initial creatures and no battles. */
    constructor ()
      ensures Valid()
      ensures creatures[..] == InitialCreatures
      ensures forall y, x :: 0 <= y < GRID_SIZE && 0 <= x < GRID_SIZE ==> !battleLocations[y, x]
    {
      var cs := new Creature[CREATURE_COUNT](k requires 0 <= k < CREATURE_COUNT => InitialCreatures[k]);
      creatures := cs;
      battleLocations := new bool[GRID_SIZE, GRID_SIZE]((_, _) => false);
      assert cs[..] == InitialCreatures;
    }

    /** `resetCreatures`: the five initial records back, and the battle grid cleared. */
    method ResetCreatures()
      requires Valid()
      modifies creatures, battleLocations
      ensures Valid()
      ensures creatures[..] == InitialCreatures
      ensures forall y, x :: 0 <= y < GRID_SIZE && 0 <= x < GRID_SIZE ==> !battleLocations[y, x]
    {
      forall k | 0 <= k < CREATURE_COUNT {
        creatures[k] := InitialCreatures[k];
      }
      forall y, x | 0 <= y < GRID_SIZE && 0 <= x < GRID_SIZE {
        battleLocations[y, x] := false;
      }
      assert creatures[..] == InitialCreatures;
    }

    /** `moveCreature`: creature i takes a step in a random direction, refused at the border. */
    method MoveCreature(i: nat) returns (ghost dir: Direction)
      requires Valid() && i < creatures.Length
      modifies creatures
      ensures Valid()
      ensures creatures[..] == old(creatures[..])[i := Step(old(creatures[i]), dir)]
    {
      var roll := RandMod(4);
      var d := DirectionOf(roll);
      dir := d;
      StepStaysInGrid(creatures[i], d);
      creatures[i] := Step(creatures[i], d);
    }

    /** The winner scan of `resolveBattles` on cell (x, y), whose creatures are still as in cs. */
    method FindWinner(x: int, y: int, ghost cs: seq<Creature>) returns (winner: int)
      requires Valid() && |cs| == creatures.Length
      requires forall k :: 0 <= k < creatures.Length ==> (Fights(creatures[k], x, y) <==> Fights(cs[k], x, y))
      requires forall k :: 0 <= k < creatures.Length && Fights(cs[k], x, y) ==> creatures[k] == cs[k]
      ensures winner == Winner(cs, x, y)
    {
      var best := 0;
      winner := -1;
      for i := 0 to creatures.Length
        invariant (best, winner) == WinnerFrom(cs, x, y, i)
      {
        if creatures[i].alive && creatures[i].x == x && creatures[i].y == y {
          if creatures[i].power > best {
            best := creatures[i].power;
            winner := i;
          }
        }
      }
    }

    /** One step of the kill loop: creature i, if it fights on (x, y) and is not the winner, dies and is credited to the winner. */
    method Strike(x: int, y: int, i: nat, winner: int)
      requires Valid() && i < creatures.Length && -1 <= winner < creatures.Length
      modifies creatures
      ensures Valid()
      ensures forall k :: 0 <= k < creatures.Length && k != i && k != winner ==> creatures[k] == old(creatures[k])
      ensures var c := old(creatures[i]);
        if Fights(c, x, y) && i != winner then
          && creatures[i] == c.(alive := false)
          && (winner != -1 ==> creatures[winner] == old(creatures[winner]).(score := old(creatures[winner]).score + c.power))
        else
          && creatures[i] == c
          && (winner != -1 ==> creatures[winner] == old(creatures[winner]))
    {
      var c := creatures[i];
      if c.alive && c.x == x && c.y == y && i != winner {
        creatures[i] := c.(alive := false);
        if winner != -1 {
          var w := creatures[winner];
          creatures[winner] := w.(score := w.score + c.power);
        }
      }
    }

    /**
     * One battle on a crowded cell (x, y) whose creatures are still as in cs: the winner scan,
     * then every other creature there is killed and credited to the winner.
     */
    method Battle(x: int, y: int, ghost cs: seq<Creature>)
      requires Valid() && |cs| == creatures.Length && Occupants(cs, x, y) > 1
      requires forall k :: 0 <= k < creatures.Length ==> (Fights(creatures[k], x, y) <==> Fights(cs[k], x, y))
      requires forall k :: 0 <= k < creatures.Length && Fights(cs[k], x, y) ==> creatures[k] == cs[k]
      modifies creatures
      ensures Valid()
      ensures forall k :: 0 <= k < creatures.Length ==>
        creatures[k] == if Fights(cs[k], x, y) then Resolve(cs)[k] else old(creatures[k])
    {
      var winner := FindWinner(x, y, cs);
      WinnerIsStrongest(cs, x, y, |cs|);
      ghost var before := creatures[..];
      for i := 0 to creatures.Length
        invariant Valid()
        invariant forall k :: 0 <= k < creatures.Length && k != winner ==>
          creatures[k] == if k < i && Fights(cs[k], x, y) then cs[k].(alive := false) else before[k]
        invariant winner >= 0 ==> creatures[winner] == cs[winner].(score := cs[winner].score + SpoilsUpTo(cs, x, y, winner, i))
      {
        Strike(x, y, i, winner);
      }
      forall k | 0 <= k < |cs| && Fights(cs[k], x, y) {
        SettleCrowded(cs, x, y, k);
      }
    }

    /** The occupant count of every cell, from the alive creatures. */
    method CountOccupants() returns (count: array2<int>)
      requires Valid()
      ensures fresh(count) && count.Length0 == GRID_SIZE && count.Length1 == GRID_SIZE
      ensures forall y, x :: 0 <= y < GRID_SIZE && 0 <= x < GRID_SIZE ==> count[y, x] == Occupants(creatures[..], x, y)
    {
      ghost var cs := creatures[..];
      count := new int[GRID_SIZE, GRID_SIZE]((_, _) => 0);
      for i := 0 to creatures.Length
        invariant forall y, x :: 0 <= y < GRID_SIZE && 0 <= x < GRID_SIZE ==> count[y, x] == CountIf(cs[..i], FightsAt(x, y))
      {
        forall y, x | 0 <= y < GRID_SIZE && 0 <= x < GRID_SIZE {
          CountIfSnoc(cs, i, FightsAt(x, y));
        }
        if creatures[i].alive {
          count[creatures[i].y, creatures[i].x] := count[creatures[i].y, creatures[i].x] + 1;
        }
      }
      assert cs[..creatures.Length] == cs;
    }

    /**
     * Every cell before (x, y) in row-major order has been resolved against cs, and no other:
     * its creatures are `Resolve(cs)` and its battle mark is set iff it was crowded.
     */
    ghost predicate ResolvedBefore(cs: seq<Creature>, x: int, y: int)
      reads this, creatures, battleLocations
    {
      && Valid() && |cs| == creatures.Length
      && (forall k :: 0 <= k < |cs| ==> InGrid(cs[k]))
      && (forall k :: 0 <= k < creatures.Length ==>
            creatures[k] == if Before(cs[k].x, cs[k].y, x, y) then Resolve(cs)[k] else cs[k])
      && (forall yy, xx :: 0 <= yy < GRID_SIZE && 0 <= xx < GRID_SIZE ==>
            battleLocations[yy, xx] == (Before(xx, yy, x, y) && Occupants(cs, xx, yy) > 1))
    }

    /** The body of the cell loop of `resolveBattles`: cell (x, y) is marked and fought if crowded. */
    method Visit(x: int, y: int, count: array2<int>, ghost cs: seq<Creature>)
      requires 0 <= x < GRID_SIZE && 0 <= y < GRID_SIZE && ResolvedBefore(cs, x, y)
      requires count.Length0 == GRID_SIZE && count.Length1 == GRID_SIZE
      requires count[y, x] == Occupants(cs, x, y)
      modifies creatures, battleLocations
      ensures ResolvedBefore(cs, x + 1, y)
    {
      forall k | 0 <= k < |cs| {
        ResolveEffects(cs, k);
      }
      if count[y, x] > 1 {
        battleLocations[y, x] := true;
        Battle(x, y, cs);
      }
    }

    /** Finishing a row is starting the next one. */
    lemma NextRow(cs: seq<Creature>, y: int)
      requires ResolvedBefore(cs, GRID_SIZE, y)
      ensures ResolvedBefore(cs, 0, y + 1)
    {
      assert forall k :: 0 <= k < |cs| ==> (Before(cs[k].x, cs[k].y, GRID_SIZE, y) <==> Before(cs[k].x, cs[k].y, 0, y + 1));
    }

    /** Once every row is done, the creatures are `Resolve(cs)` and the marks are the crowded cells. */
    lemma AllRows(cs: seq<Creature>)
      requires ResolvedBefore(cs, 0, GRID_SIZE)
      ensures creatures[..] == Resolve(cs)
      ensures forall y, x :: 0 <= y < GRID_SIZE && 0 <= x < GRID_SIZE ==> battleLocations[y, x] == (Occupants(cs, x, y) > 1)
    {
      assert forall k :: 0 <= k < |cs| ==> Before(cs[k].x, cs[k].y, 0, GRID_SIZE);
    }

    /** The battle grid cleared: nothing resolved yet. */
    method ClearBattles()
      requires Valid()
      modifies battleLocations
      ensures ResolvedBefore(creatures[..], 0, 0)
    {
      forall y, x | 0 <= y < GRID_SIZE && 0 <= x < GRID_SIZE {
        battleLocations[y, x] := false;
      }
    }

    /**
     * `resolveBattles`: the battle grid marks exactly the cells that held two or more alive
     * creatures, and the creatures become `Resolve` of what they were.
     */
    method ResolveBattles()
      requires Valid()
      modifies creatures, battleLocations
      ensures Valid()
      ensures creatures[..] == Resolve(old(creatures[..]))
      ensures forall y, x :: 0 <= y < GRID_SIZE && 0 <= x < GRID_SIZE ==>
        battleLocations[y, x] == (Occupants(old(creatures[..]), x, y) > 1)
    {
      ghost var cs := creatures[..];
      ClearBattles();
      var count := CountOccupants();
      for y := 0 to GRID_SIZE
        modifies creatures, battleLocations
        invariant ResolvedBefore(cs, 0, y)
      {
        for x := 0 to GRID_SIZE
          modifies creatures, battleLocations
          invariant ResolvedBefore(cs, x, y)
        {
          Visit(x, y, count, cs);
        }
        NextRow(cs, y);
      }
      AllRows(cs);
    }

    /**
     * One turn of the arena loop: an optional restart, a random step for every alive creature in
     * index order, then the battles. The ghost results are the creatures after the steps and
     * the direction each alive one drew (a dead creature's entry is unused).
     */
    method Turn(restart: bool) returns (ghost moved: seq<Creature>, ghost dirs: seq<Direction>)
      requires Valid()
      modifies creatures, battleLocations
      ensures Valid()
      ensures |moved| == CREATURE_COUNT && |dirs| == CREATURE_COUNT
      ensures forall k :: 0 <= k < CREATURE_COUNT ==>
        var start := if restart then InitialCreatures[k] else old(creatures[k]);
        moved[k] == if start.alive then Step(start, dirs[k]) else start
      ensures creatures[..] == Resolve(moved)
    {
      if restart {
        ResetCreatures();
      }
      ghost var start := creatures[..];
      dirs := [];
      for i := 0 to creatures.Length
        modifies creatures
        invariant Valid() && |dirs| == i
        invariant forall k :: 0 <= k < i ==>
          creatures[k] == if start[k].alive then Step(start[k], dirs[k]) else start[k]
        invariant forall k :: i <= k < creatures.Length ==> creatures[k] == start[k]
      {
        if creatures[i].alive {
          var d := MoveCreature(i);
          dirs := dirs + [d];
        } else {
          dirs := dirs + [Up];
        }
      }
      moved := creatures[..];
      ResolveBattles();
    }
  }
}

=== FILE: dense.dfy ===
/**
 * The dense fixed-capacity arrays of the simulation: the live entities of a kind occupy
 * `a[..n]`, and an entity is deleted by copying the last live entity over it and shrinking n
 * (swap-remove). The source writes these loops out once per entity array; they are written
 * once here, generic in the element and in the deletion test.
 */
module Dense {

  /** Number of elements of s that satisfy f. */
  function CountIf<T>(s: seq<T>, f: T -> bool): (c: nat)
    ensures c <= |s|
  {
    if s == [] then 0 else CountIf(s[..|s| - 1], f) + (if f(s[|s| - 1]) then 1 else 0)
  }

  /** `CountIf` is zero exactly when no element satisfies f. */
  lemma {:induction false} CountIfZero<T>(s: seq<T>, f: T -> bool)
    ensures CountIf(s, f) == 0 <==> forall k :: 0 <= k < |s| ==> !f(s[k])
  {
    if s != [] {
      CountIfZero(s[..|s| - 1], f);
      assert forall k :: 0 <= k < |s| - 1 ==> s[..|s| - 1][k] == s[k];
    }
  }

  /** Counting one element more. */
  lemma CountIfSnoc<T>(s: seq<T>, i: nat, f: T -> bool)
    requires i < |s|
    ensures CountIf(s[..i + 1], f) == CountIf(s[..i], f) + (if f(s[i]) then 1 else 0)
  {
    assert s[..i + 1][..i] == s[..i];
  }

  /** A counting loop over the live prefix: `for (i = 0; i < n; i++) if (f(a[i])) c++;`. */
  method CountWhere<T>(a: array<T>, n: nat, f: T -> bool) returns (c: nat)
    requires n <= a.Length
    ensures c == CountIf(a[..n], f)
  {
    c := 0;
    var i := 0;
    while i < n
      invariant 0 <= i <= n
      invariant c == CountIf(a[..i], f)
    {
      assert a[..i + 1][..i] == a[..i];
      if f(a[i]) {
        c := c + 1;
      }
      i := i + 1;
    }
    assert a[..n] == a[..i];
  }

  /**
   * A scan of the live prefix that stops at the first element satisfying f
   * (the source's `for ... if (...) { found = 0; break; }` loops).
   */
  method NoneWhere<T>(a: array<T>, n: nat, f: T -> bool) returns (none: bool)
    requires n <= a.Length
    ensures none <==> forall k :: 0 <= k < n ==> !f(a[k])
  {
    none := true;
    var j := 0;
    while j < n
      invariant 0 <= j <= n
      invariant forall k :: 0 <= k < j ==> !f(a[k])
    {
      if f(a[j]) {
        none := false;
        return;
      }
      j := j + 1;
    }
  }

  /** The live prefix s after `s[i] = s[last]` and dropping the last slot. */
  function SwapRemoved<T>(s: seq<T>, i: nat): (r: seq<T>)
    requires i < |s|
    ensures |r| == |s| - 1
  {
    if i == |s| - 1 then s[..i] else s[..i] + [s[|s| - 1]] + s[i + 1..|s| - 1]
  }

  /** Swap-remove loses s[i] and nothing else. */
  lemma SwapRemoveMultiset<T>(s: seq<T>, i: nat)
    requires i < |s|
    ensures multiset(SwapRemoved(s, i)) + multiset{s[i]} == multiset(s)
  {
    var last := |s| - 1;
    if i < last {
      assert s == s[..i] + [s[i]] + s[i + 1..last] + [s[last]];
    } else {
      assert s == s[..last] + [s[last]];
    }
  }

  /** `a[i] = a[m - 1]`: the live prefix shrinks to m - 1 with slot i holding the old last element. */
  method MoveLastInto<T>(a: array<T>, i: nat, m: nat)
    requires i < m <= a.Length
    modifies a
    ensures a[..m - 1] == SwapRemoved(old(a[..m]), i)
  {
    ghost var s := a[..m];
    a[i] := a[m - 1];
    if i < m - 1 {
      assert a[..m - 1] == s[..i] + [s[m - 1]] + s[i + 1..m - 1];
    } else {
      assert a[..m - 1] == s[..i];
    }
  }

  /**
   * Every element of the multiset m is kept by the test, that is, it is the multiset of kept
   * elements of `was`: what a swap-remove pass leaves behind. The relation is pointwise so that
   * it can be stated without a filter on multisets.
   */
  ghost predicate KeptExactly<T(!new)>(now: multiset<T>, was: multiset<T>, drop: T -> bool)
  {
    forall v :: now[v] == if drop(v) then 0 else was[v]
  }

  /**
   * The bookkeeping of a swap-remove pass over the live prefix s: the slots in [lo, hi) have
   * been examined and kept, and s together with the deleted elements is what there was.
   */
  ghost predicate PassInvariant<T>(s: seq<T>, lo: int, hi: int, removed: multiset<T>,
                                   was: multiset<T>, drop: T -> bool)
  {
    && 0 <= lo <= hi <= |s|
    && (forall k :: lo <= k < hi ==> !drop(s[k]))
    && multiset(s) + removed == was
    && (forall v :: v in removed ==> drop(v))
  }

  /** Deleting slot i, which the test rejects, keeps the bookkeeping. */
  lemma RemoveStep<T>(s: seq<T>, i: nat, removed: multiset<T>, was: multiset<T>, drop: T -> bool)
    requires i < |s| && drop(s[i])
    requires multiset(s) + removed == was
    requires forall v :: v in removed ==> drop(v)
    ensures multiset(SwapRemoved(s, i)) + (removed + multiset{s[i]}) == was
    ensures forall v :: v in removed + multiset{s[i]} ==> drop(v)
  {
    SwapRemoveMultiset(s, i);
  }

  /** A deletion in the forward pass: slots [0, i) stay examined. */
  lemma ForwardStep<T>(s: seq<T>, i: nat, removed: multiset<T>, was: multiset<T>, drop: T -> bool)
    requires PassInvariant(s, 0, i, removed, was, drop) && i < |s| && drop(s[i])
    ensures PassInvariant(SwapRemoved(s, i), 0, i, removed + multiset{s[i]}, was, drop)
  {
    RemoveStep(s, i, removed, was, drop);
  }

  /** A deletion in the backward pass: slots (i, |s|) were examined, so slot i now holds a kept one. */
  lemma BackwardStep<T>(s: seq<T>, i: nat, removed: multiset<T>, was: multiset<T>, drop: T -> bool)
    requires PassInvariant(s, i + 1, |s|, removed, was, drop) && i < |s| && drop(s[i])
    ensures PassInvariant(SwapRemoved(s, i), i, |s| - 1, removed + multiset{s[i]}, was, drop)
  {
    RemoveStep(s, i, removed, was, drop);
  }

  /** Slot i is kept in the backward pass: slots [i, |s|) are now examined. */
  lemma KeepStep<T>(s: seq<T>, i: nat, removed: multiset<T>, was: multiset<T>, drop: T -> bool)
    requires PassInvariant(s, i + 1, |s|, removed, was, drop) && i < |s| && !drop(s[i])
    ensures PassInvariant(s, i, |s|, removed, was, drop)
  {
  }

  /** From the bookkeeping of a finished pass to its result. */
  lemma KeptFromRemoved<T(!new)>(s: seq<T>, removed: multiset<T>, was: multiset<T>, drop: T -> bool)
    requires PassInvariant(s, 0, |s|, removed, was, drop)
    ensures KeptExactly(multiset(s), was, drop)
  {
    forall v
      ensures multiset(s)[v] == if drop(v) then 0 else was[v]
    {
      if drop(v) {
        assert forall k :: 0 <= k < |s| ==> s[k] != v;
        assert v !in s;
      }
    }
  }

  /**
   * The forward swap-remove pass of src/world.c: an element that must go is replaced by the
   * last live one, and the same slot is examined again (the source's `i--`).
   */
  method SwapRemoveForward<T(!new)>(a: array<T>, n: nat, drop: T -> bool) returns (m: nat)
    requires n <= a.Length
    modifies a
    ensures m <= n
    ensures forall k :: 0 <= k < m ==> !drop(a[k])
    ensures KeptExactly(multiset(a[..m]), multiset(old(a[..n])), drop)
  {
    ghost var was := multiset(a[..n]);
    m := n;
    var i := 0;
    ghost var removed: multiset<T> := multiset{};
    while i < m
      invariant m <= n
      invariant PassInvariant(a[..m], 0, i, removed, was, drop)
    {
      if drop(a[i]) {
        ghost var s := a[..m];
        ForwardStep(s, i, removed, was, drop);
        removed := removed + multiset{s[i]};
        MoveLastInto(a, i, m);
        m := m - 1;
        assert a[..m] == SwapRemoved(s, i);
      } else {
        i := i + 1;
      }
    }
    KeptFromRemoved(a[..m], removed, was, drop);
  }

  /**
   * The backward swap-remove pass of src/game.c, src/monsters.c and src/projectiles.c:
   * `for (i = n - 1; i >= 0; i--) if (drop) { a[i] = a[n - 1]; n--; }`. The element copied
   * into slot i has already been examined and kept.
   */
  method SwapRemoveBackward<T(!new)>(a: array<T>, n: nat, drop: T -> bool) returns (m: nat)
    requires n <= a.Length
    modifies a
    ensures m <= n
    ensures forall k :: 0 <= k < m ==> !drop(a[k])
    ensures KeptExactly(multiset(a[..m]), multiset(old(a[..n])), drop)
  {
    ghost var was := multiset(a[..n]);
    m := n;
    var j := n;  // the source's i is j - 1
    ghost var removed: multiset<T> := multiset{};
    while j > 0
      invariant j <= m <= n
      invariant PassInvariant(a[..m], j, m, removed, was, drop)
    {
      var i := j - 1;
      if drop(a[i]) {
        ghost var s := a[..m];
        BackwardStep(s, i, removed, was, drop);
        removed := removed + multiset{s[i]};
        MoveLastInto(a, i, m);
        m := m - 1;
        assert a[..m] == SwapRemoved(s, i);
      } else {
        KeepStep(a[..m], i, removed, was, drop);
      }
      j := i;
    }
    KeptFromRemoved(a[..m], removed, was, drop);
  }

  /**
   * `now` is `was` with zero or more elements pushed at the end (`a[n++] = ...`), each of which
   * satisfies ok: the shape of every spawner's effect on an entity array.
   */
  ghost predicate Appended<T>(was: seq<T>, now: seq<T>, ok: T -> bool)
  {
    |was| <= |now| && now[..|was|] == was && forall k :: |was| <= k < |now| ==> ok(now[k])
  }

  /** Two rounds of pushes are one round of pushes. */
  lemma AppendedTrans<T>(a: seq<T>, b: seq<T>, c: seq<T>, ok: T -> bool)
    requires Appended(a, b, ok) && Appended(b, c, ok)
    ensures Appended(a, c, ok)
  {
    assert c[..|a|] == c[..|b|][..|a|];
    forall k | |a| <= k < |c|
      ensures ok(c[k])
    {
      if k < |b| {
        assert c[k] == c[..|b|][k];
      }
    }
  }
}

=== FILE: game.dfy ===
/**
 * Per-tick rules of src/game.c: the collision pass (adjacent melee with the troll pack
 * multiplier, experience and level-up, power-up and landmine pickups), the power-up timer and
 * the despawn of far power-ups and landmines, and the start and restart of a game.
 *
 * Each pass of `checkCollisions` is a loop over one entity array that changes the player and
 * the visited entity; its meaning is a left fold over the array (`CombatUpTo`, `PickupUpTo`,
 * `MinesUpTo`), and the methods are proved to compute those folds.
 */
module Game {
  import opened Types
  import opened Dense
  import opened State
  import opened World

  /** `textureIndex` of a troll. */
  const TROLL: int := 4

  // ----- Experience -----

  /**
   * A kill worth `power` (the victim's power): ten experience points per point of power, then
   * at most one level-up, which raises the threshold to `level * 100`, adds 20 to maxHealth,
   * heals fully and adds 2 to power.
   */
  function AwardKill(p: Character, power: int): (q: Character)
    ensures q.x == p.x && q.y == p.y && q.alive == p.alive
    ensures q.invulnerabilityTimer == p.invulnerabilityTimer && q.isInCombat == p.isInCombat
  {
    var e := p.(experience := p.experience + power * 10);
    if e.experience >= e.experienceToNext then
      var l := e.level + 1;
      e.(level := l, experience := e.experience - e.experienceToNext, experienceToNext := l * 100,
         maxHealth := e.maxHealth + 20, health := e.maxHealth + 20, power := e.power + 2)
    else e
  }

  /** A kill raises the level by one exactly when the new experience reaches the threshold, and never by more. */
  lemma LevelUpOnce(p: Character, power: int)
    ensures var q := AwardKill(p, power);
      && (q.level == p.level + 1 <==> p.experience + power * 10 >= p.experienceToNext)
      && (q.level == p.level || q.level == p.level + 1)
      && (q.level == p.level ==> q == p.(experience := p.experience + power * 10))
      && (q.level == p.level + 1 ==>
            && q.experience == p.experience + power * 10 - p.experienceToNext
            && q.experienceToNext == (p.level + 1) * 100
            && q.maxHealth == p.maxHealth + 20 && q.health == q.maxHealth && q.power == p.power + 2)
  {
  }

  /**
   * One kill is one level at most, even when it is worth several thresholds: after the kill the
   * experience still reaches the threshold exactly when it passed the old threshold by at least
   * the new one, `(level + 1) * 100` (a level-1 player killing a power-50 monster keeps 400
   * points against a threshold of 200).
   */
  lemma LevelUpLeavesSurplus(p: Character, power: int)
    ensures var q := AwardKill(p, power); var e := p.experience + power * 10;
      q.experience >= q.experienceToNext <==> e >= p.experienceToNext && e - p.experienceToNext >= (p.level + 1) * 100
  {
  }

  // ----- Melee -----

  /** Chebyshev distance exactly 1: the eight neighbouring cells. */
  predicate Adjacent(x1: int, y1: int, x2: int, y2: int)
  {
    var dx := Abs(x1 - x2);
    var dy := Abs(y1 - y2);
    dx <= 1 && dy <= 1 && !(dx == 0 && dy == 0)
  }

  /** t is an alive troll within two cells of m on both axes. */
  predicate TrollNear(m: Character, t: Character)
  {
    t.alive && t.textureIndex == TROLL && WithinBox(m.x, m.y, t.x, t.y, 2)
  }

  /** The trolls among ms[..n], other than ms[i], near ms[i]. */
  function TrollsBefore(ms: seq<Character>, i: nat, n: nat): (k: nat)
    requires i < |ms| && n <= |ms|
    ensures k <= if i < n then n - 1 else n
  {
    if n == 0 then 0
    else TrollsBefore(ms, i, n - 1) + (if n - 1 != i && TrollNear(ms[i], ms[n - 1]) then 1 else 0)
  }

  /** The pack around monster i: every other alive troll within two cells. */
  function TrollsAround(ms: seq<Character>, i: nat): nat
    requires i < |ms|
  {
    TrollsBefore(ms, i, |ms|)
  }

  /** `(int)(power * multiplier * 0.5f)`: half the scaled power, truncated toward zero. */
  function HalfDamage(power: int, multiplier: int): int
  {
    CDiv(power * multiplier, 2)
  }

  /** What monster i deals in one exchange: half its scaled power, times 2^k for a troll with k pack mates. */
  function MonsterDamage(ms: seq<Character>, i: nat): int
    requires i < |ms|
  {
    var m := ms[i];
    var base := HalfDamage(m.power, m.damageMultiplier);
    if m.textureIndex == TROLL then base * Pow2(TrollsAround(ms, i)) else base
  }

  /**
   * One exchange between the player and an adjacent monster: both are flagged in combat, the
   * monster loses the player's damage, the player loses `monsterDamage` unless invulnerable;
   * a monster at or below zero health dies and is credited to the player; a player at or
   * below zero health dies.
   */
  function Exchange(p: Character, m: Character, monsterDamage: int): (r: (Character, Character))
    ensures r.0.x == p.x && r.0.y == p.y && r.0.invulnerabilityTimer == p.invulnerabilityTimer
    ensures r.1.x == m.x && r.1.y == m.y && r.1.textureIndex == m.textureIndex
    ensures r.0.isInCombat && r.1.isInCombat
    ensures r.1.health == m.health - HalfDamage(p.power, p.damageMultiplier)
    ensures r.1.alive <==> m.alive && r.1.health > 0
    ensures r.0.health <= 0 ==> !r.0.alive
    ensures r.0.alive ==> p.alive
  {
    var m1 := m.(isInCombat := true, health := m.health - HalfDamage(p.power, p.damageMultiplier));
    var p1 := p.(isInCombat := true,
                 health := if p.invulnerabilityTimer <= 0 then p.health - monsterDamage else p.health);
    var (p2, m2) := if m1.health <= 0 then (AwardKill(p1, m1.power), m1.(alive := false)) else (p1, m1);
    (if p2.health <= 0 then p2.(alive := false) else p2, m2)
  }

  /** The player and the monster array during the melee pass. */
  datatype Melee = Melee(player: Character, monsters: seq<Character>)

  /** Visiting monster i: an exchange if it is alive and adjacent to the player, nothing otherwise. */
  function Engage(s: Melee, i: nat): (r: Melee)
    requires i < |s.monsters|
    ensures |r.monsters| == |s.monsters|
    ensures forall k :: 0 <= k < |s.monsters| && k != i ==> r.monsters[k] == s.monsters[k]
    ensures r.player.x == s.player.x && r.player.y == s.player.y
    ensures r.player.invulnerabilityTimer == s.player.invulnerabilityTimer
  {
    var m := s.monsters[i];
    if !m.alive || !Adjacent(s.player.x, s.player.y, m.x, m.y) then s
    else
      var r := Exchange(s.player, m, MonsterDamage(s.monsters, i));
      Melee(r.0, s.monsters[i := r.1])
  }

  /** The melee pass after visiting monsters 0 .. n-1 in index order. */
  function CombatUpTo(s: Melee, n: nat): (r: Melee)
    requires n <= |s.monsters|
    ensures |r.monsters| == |s.monsters|
    ensures forall k :: n <= k < |s.monsters| ==> r.monsters[k] == s.monsters[k]
    ensures r.player.x == s.player.x && r.player.y == s.player.y
    ensures r.player.invulnerabilityTimer == s.player.invulnerabilityTimer
  {
    if n == 0 then s else Engage(CombatUpTo(s, n - 1), n - 1)
  }

  /** The flag reset of `checkCollisions`: alive monsters leave combat, dead ones keep their flag. */
  function ClearFlags(ms: seq<Character>): seq<Character>
  {
    seq(|ms|, k requires 0 <= k < |ms| => if ms[k].alive then ms[k].(isInCombat := false) else ms[k])
  }

  /**
   * Combat happens exactly with the monsters that are alive and adjacent: after the pass a
   * monster is in combat iff it was alive and adjacent to the player, or it was dead and
   * already flagged; monsters that were dead are otherwise untouched.
   */
  lemma {:induction false} CombatFlags(s: Melee, n: nat)
    requires n <= |s.monsters|
    ensures forall k :: 0 <= k < n ==>
      var m := s.monsters[k];
      CombatUpTo(s, n).monsters[k].isInCombat == if m.alive && Adjacent(s.player.x, s.player.y, m.x, m.y) then true else m.isInCombat
    ensures forall k :: 0 <= k < n && !s.monsters[k].alive ==> CombatUpTo(s, n).monsters[k] == s.monsters[k]
    ensures CombatUpTo(s, n).player.isInCombat <==>
      s.player.isInCombat || exists k :: 0 <= k < n && s.monsters[k].alive && Adjacent(s.player.x, s.player.y, s.monsters[k].x, s.monsters[k].y)
  {
    if n > 0 {
      CombatFlags(s, n - 1);
      var t := CombatUpTo(s, n - 1);
      assert t.monsters[n - 1] == s.monsters[n - 1];
      if s.monsters[n - 1].alive && Adjacent(s.player.x, s.player.y, s.monsters[n - 1].x, s.monsters[n - 1].y) {
        assert CombatUpTo(s, n).player.isInCombat;
      }
    }
  }

  /**
   * An invulnerable player takes no melee damage: through the whole pass its health either
   * stays what it was or is the full heal of a level-up.
   */
  lemma {:induction false} InvulnerableNoDamage(s: Melee, n: nat)
    requires n <= |s.monsters| && s.player.invulnerabilityTimer > 0
    ensures var p := CombatUpTo(s, n).player; p.health == s.player.health || p.health == p.maxHealth
  {
    if n > 0 {
      InvulnerableNoDamage(s, n - 1);
    }
  }

  /**
   * A vulnerable player engaged by an alive, adjacent monster that survives the exchange loses
   * exactly that monster's damage, troll multiplier included.
   */
  lemma VulnerableDamage(s: Melee, i: nat)
    requires i < |s.monsters| && s.player.invulnerabilityTimer <= 0
    requires s.monsters[i].alive && Adjacent(s.player.x, s.player.y, s.monsters[i].x, s.monsters[i].y)
    requires s.monsters[i].health - HalfDamage(s.player.power, s.player.damageMultiplier) > 0
    ensures Engage(s, i).player.health == s.player.health - MonsterDamage(s.monsters, i)
  {
  }

  /** The player is never brought back to life by the melee pass. */
  lemma {:induction false} CombatNeverRevives(s: Melee, n: nat)
    requires n <= |s.monsters|
    ensures CombatUpTo(s, n).player.alive ==> s.player.alive
    ensures forall k :: 0 <= k < |s.monsters| && CombatUpTo(s, n).monsters[k].alive ==> s.monsters[k].alive
  {
    if n > 0 {
      CombatNeverRevives(s, n - 1);
    }
  }

  /** The pack count loop of `checkCollisions` for troll i. */
  method CountTrolls(w: GameState, i: nat) returns (k: nat)
    requires w.Shape() && i < w.monsterCount
    ensures k == TrollsAround(w.monsters[..w.monsterCount], i)
  {
    ghost var ms := w.monsters[..w.monsterCount];
    k := 0;
    for j := 0 to w.monsterCount
      invariant k == TrollsBefore(ms, i, j)
    {
      if i != j && w.monsters[j].alive && w.monsters[j].textureIndex == TROLL {
        var tdx := Abs(w.monsters[i].x - w.monsters[j].x);
        var tdy := Abs(w.monsters[i].y - w.monsters[j].y);
        if tdx <= 2 && tdy <= 2 {
          k := k + 1;
        }
      }
    }
  }

  /** The body of the melee loop for monster i. */
  method EngageMonster(w: GameState, i: nat)
    requires w.Shape() && i < w.monsterCount
    modifies w, w.monsters
    ensures w.Shape() && w.monsterCount == old(w.monsterCount)
    ensures unchanged(w`powerupCount, w`landmineCount, w`projectileCount, w`loadedChunkCount)
    ensures Melee(w.player, w.monsters[..w.monsterCount]) == Engage(old(Melee(w.player, w.monsters[..w.monsterCount])), i)
  {
    var m := w.monsters[i];
    if !m.alive {
      return;
    }
    var dx := Abs(w.player.x - m.x);
    var dy := Abs(w.player.y - m.y);
    if dx <= 1 && dy <= 1 && !(dx == 0 && dy == 0) {
      var monsterDamage := HalfDamage(m.power, m.damageMultiplier);
      if m.textureIndex == TROLL {
        var trolls := CountTrolls(w, i);
        monsterDamage := monsterDamage * Pow2(trolls);
      }
      var r := Exchange(w.player, m, monsterDamage);
      w.player := r.0;
      w.monsters[i] := r.1;
    }
  }

  // ----- Pickups -----

  /** Picking up a power-up: it becomes the active one for 300 ticks and takes effect. */
  function ApplyPowerup(p: Character, kind: PowerupType): (q: Character)
    ensures q.powerupTimer == 300 && q.activePowerup == kind
    ensures q.x == p.x && q.y == p.y && q.alive == p.alive
    ensures q.damageMultiplier == if kind == DoubleDamage then 2 else p.damageMultiplier
    ensures q.speedMultiplier == if kind == DoubleSpeed then 2 else p.speedMultiplier
    ensures q.health == if kind == DoubleHealth then p.maxHealth else p.health
  {
    var q := p.(activePowerup := kind, powerupTimer := 300);
    match kind
    case DoubleDamage => q.(damageMultiplier := 2)
    case DoubleHealth => q.(health := q.maxHealth)
    case DoubleSpeed => q.(speedMultiplier := 2)
  }

  /** The player and the power-up array during the pickup pass. */
  datatype Loot = Loot(player: Character, powerups: seq<Powerup>)

  /** The pickup pass after visiting power-ups 0 .. n-1: each active one on the player's cell is taken. */
  function PickupUpTo(s: Loot, n: nat): (r: Loot)
    requires n <= |s.powerups|
    ensures |r.powerups| == |s.powerups|
    ensures r.player.x == s.player.x && r.player.y == s.player.y
  {
    if n == 0 then s
    else
      var t := PickupUpTo(s, n - 1);
      var u := t.powerups[n - 1];
      if u.active && t.player.x == u.x && t.player.y == u.y
      then Loot(ApplyPowerup(t.player, u.kind), t.powerups[n - 1 := u.(active := false)])
      else t
  }

  /** A power-up on the player's cell. */
  predicate Underfoot(p: Character, x: int, y: int)
  {
    p.x == x && p.y == y
  }

  /**
   * The pickup pass deactivates exactly the active power-ups on the player's cell and changes
   * nothing else about them; the player is changed only if one was taken, and then its power-up
   * timer is 300.
   */
  lemma {:induction false} PickupEffect(s: Loot, n: nat)
    requires n <= |s.powerups|
    ensures forall k :: 0 <= k < |s.powerups| ==>
      PickupUpTo(s, n).powerups[k] ==
        if k < n && s.powerups[k].active && Underfoot(s.player, s.powerups[k].x, s.powerups[k].y)
        then s.powerups[k].(active := false) else s.powerups[k]
    ensures (forall k :: 0 <= k < n ==> !(s.powerups[k].active && Underfoot(s.player, s.powerups[k].x, s.powerups[k].y)))
            ==> PickupUpTo(s, n).player == s.player
    ensures (exists k :: 0 <= k < n && s.powerups[k].active && Underfoot(s.player, s.powerups[k].x, s.powerups[k].y))
            ==> PickupUpTo(s, n).player.powerupTimer == 300
  {
    if n > 0 {
      PickupEffect(s, n - 1);
      var t := PickupUpTo(s, n - 1);
      assert t.powerups[n - 1] == s.powerups[n - 1];
      if s.powerups[n - 1].active && Underfoot(s.player, s.powerups[n - 1].x, s.powerups[n - 1].y) {
        assert PickupUpTo(s, n).player.powerupTimer == 300;
      } else {
        assert PickupUpTo(s, n) == t;
      }
    }
  }

  /** The player and the landmine array during the landmine pass. */
  datatype Mines = Mines(player: Character, landmines: seq<Landmine>)

  /** The landmine pass after visiting landmines 0 .. n-1: each active one on the player's cell goes off. */
  function MinesUpTo(s: Mines, n: nat): (r: Mines)
    requires n <= |s.landmines|
    ensures |r.landmines| == |s.landmines|
    ensures r.player == s.player.(health := r.player.health)
  {
    if n == 0 then s
    else
      var t := MinesUpTo(s, n - 1);
      var l := t.landmines[n - 1];
      if l.active && t.player.x == l.x && t.player.y == l.y
      then Mines(t.player.(health := t.player.health - l.damage), t.landmines[n - 1 := l.(active := false)])
      else t
  }

  /** The total damage of the active landmines among ls[..n] on cell (x, y). */
  function MineDamage(ls: seq<Landmine>, x: int, y: int, n: nat): int
    requires n <= |ls|
  {
    if n == 0 then 0
    else MineDamage(ls, x, y, n - 1) + (if ls[n - 1].active && ls[n - 1].x == x && ls[n - 1].y == y then ls[n - 1].damage else 0)
  }

  /**
   * Every active landmine on the player's cell goes off, whatever the invulnerability timer:
   * the player loses exactly their summed damage, and exactly those landmines are deactivated.
   * Nothing but the health of the player changes, not even `alive`.
   */
  lemma {:induction false} MinesIgnoreInvulnerability(s: Mines, n: nat)
    requires n <= |s.landmines|
    ensures MinesUpTo(s, n).player == s.player.(health := s.player.health - MineDamage(s.landmines, s.player.x, s.player.y, n))
    ensures forall k :: 0 <= k < |s.landmines| ==>
      MinesUpTo(s, n).landmines[k] ==
        if k < n && s.landmines[k].active && Underfoot(s.player, s.landmines[k].x, s.landmines[k].y)
        then s.landmines[k].(active := false) else s.landmines[k]
  {
    if n > 0 {
      MinesIgnoreInvulnerability(s, n - 1);
      var t := MinesUpTo(s, n - 1);
      assert t.landmines[n - 1] == s.landmines[n - 1];
    }
  }

  /** The four passes of `checkCollisions` in order. */
  datatype Collision = Collision(player: Character, monsters: seq<Character>,
                                 powerups: seq<Powerup>, landmines: seq<Landmine>)

  function Collide(p: Character, ms: seq<Character>, us: seq<Powerup>, ls: seq<Landmine>): (r: Collision)
    ensures |r.monsters| == |ms| && |r.powerups| == |us| && |r.landmines| == |ls|
  {
    var c := CombatUpTo(Melee(p.(isInCombat := false), ClearFlags(ms)), |ms|);
    var u := PickupUpTo(Loot(c.player, us), |us|);
    var l := MinesUpTo(Mines(u.player, ls), |ls|);
    Collision(l.player, c.monsters, u.powerups, l.landmines)
  }

  /** The flag reset loop. */
  method ClearCombatFlags(w: GameState)
    requires w.Shape()
    modifies w, w.monsters
    ensures w.Shape() && w.monsterCount == old(w.monsterCount)
    ensures unchanged(w`powerupCount, w`landmineCount, w`projectileCount, w`loadedChunkCount)
    ensures w.player == old(w.player).(isInCombat := false)
    ensures w.monsters[..w.monsterCount] == ClearFlags(old(w.monsters[..w.monsterCount]))
  {
    w.player := w.player.(isInCombat := false);
    for i := 0 to w.monsterCount
      modifies w.monsters
      invariant forall k :: 0 <= k < w.monsterCount ==>
        w.monsters[k] == if k < i && old(w.monsters[k]).alive then old(w.monsters[k]).(isInCombat := false) else old(w.monsters[k])
    {
      if w.monsters[i].alive {
        w.monsters[i] := w.monsters[i].(isInCombat := false);
      }
    }
  }

  /** The melee loop over the monsters. */
  method CombatPass(w: GameState)
    requires w.Shape()
    modifies w, w.monsters
    ensures w.Shape() && w.monsterCount == old(w.monsterCount)
    ensures unchanged(w`powerupCount, w`landmineCount, w`projectileCount, w`loadedChunkCount)
    ensures Melee(w.player, w.monsters[..w.monsterCount]) ==
      CombatUpTo(old(Melee(w.player, w.monsters[..w.monsterCount])), w.monsterCount)
  {
    ghost var s := Melee(w.player, w.monsters[..w.monsterCount]);
    for i := 0 to w.monsterCount
      invariant w.Shape() && w.monsterCount == old(w.monsterCount)
      invariant unchanged(w`powerupCount, w`landmineCount, w`projectileCount, w`loadedChunkCount)
      invariant Melee(w.player, w.monsters[..w.monsterCount]) == CombatUpTo(s, i)
    {
      EngageMonster(w, i);
    }
  }

  /** The pickup loop over the power-ups. */
  method PickupPass(w: GameState)
    requires w.Shape()
    modifies w, w.powerups
    ensures w.Shape() && w.powerupCount == old(w.powerupCount)
    ensures unchanged(w`monsterCount, w`landmineCount, w`projectileCount, w`loadedChunkCount)
    ensures Loot(w.player, w.powerups[..w.powerupCount]) ==
      PickupUpTo(old(Loot(w.player, w.powerups[..w.powerupCount])), w.powerupCount)
  {
    ghost var s := Loot(w.player, w.powerups[..w.powerupCount]);
    for i := 0 to w.powerupCount
      invariant w.Shape() && w.powerupCount == old(w.powerupCount)
      invariant unchanged(w`monsterCount, w`landmineCount, w`projectileCount, w`loadedChunkCount)
      invariant Loot(w.player, w.powerups[..w.powerupCount]) == PickupUpTo(s, i)
    {
      var u := w.powerups[i];
      if u.active && w.player.x == u.x && w.player.y == u.y {
        w.player := ApplyPowerup(w.player, u.kind);
        w.powerups[i] := u.(active := false);
      }
    }
  }

  /** The landmine loop. */
  method MinesPass(w: GameState)
    requires w.Shape()
    modifies w, w.landmines
    ensures w.Shape() && w.landmineCount == old(w.landmineCount)
    ensures unchanged(w`monsterCount, w`powerupCount, w`projectileCount, w`loadedChunkCount)
    ensures Mines(w.player, w.landmines[..w.landmineCount]) ==
      MinesUpTo(old(Mines(w.player, w.landmines[..w.landmineCount])), w.landmineCount)
  {
    ghost var s := Mines(w.player, w.landmines[..w.landmineCount]);
    for i := 0 to w.landmineCount
      invariant w.Shape() && w.landmineCount == old(w.landmineCount)
      invariant unchanged(w`monsterCount, w`powerupCount, w`projectileCount, w`loadedChunkCount)
      invariant Mines(w.player, w.landmines[..w.landmineCount]) == MinesUpTo(s, i)
    {
      var l := w.landmines[i];
      if l.active && w.player.x == l.x && w.player.y == l.y {
        w.player := w.player.(health := w.player.health - l.damage);
        w.landmines[i] := l.(active := false);
      }
    }
  }

  /** `checkCollisions`: flag reset, melee, pickups, landmines. */
  method CheckCollisions(w: GameState)
    requires w.Shape()
    modifies w, w.monsters, w.powerups, w.landmines
    ensures w.Shape()
    ensures unchanged(w`monsterCount, w`powerupCount, w`landmineCount, w`projectileCount, w`loadedChunkCount)
    ensures Collision(w.player, w.monsters[..w.monsterCount], w.powerups[..w.powerupCount], w.landmines[..w.landmineCount])
         == Collide(old(w.player), old(w.monsters[..w.monsterCount]), old(w.powerups[..w.powerupCount]),
                    old(w.landmines[..w.landmineCount]))
  {
    ClearCombatFlags(w);
    CombatPass(w);
    PickupPass(w);
    MinesPass(w);
  }

  // ----- Timers and despawn -----

  /** The power-up countdown: one tick off while positive, both multipliers back to 1 on reaching 0. */
  function PowerupTick(p: Character): (q: Character)
    ensures q.x == p.x && q.y == p.y && q.health == p.health && q.alive == p.alive
  {
    if p.powerupTimer > 0 then
      var t := p.(powerupTimer := p.powerupTimer - 1);
      if t.powerupTimer == 0 then t.(speedMultiplier := 1, damageMultiplier := 1) else t
    else p
  }

  /**
   * The countdown saturates at 0, and the multipliers are reset on exactly the tick the timer
   * reaches 0 from 1; no other field changes.
   */
  lemma PowerupTickSaturates(p: Character)
    ensures PowerupTick(p).powerupTimer == if p.powerupTimer > 0 then p.powerupTimer - 1 else p.powerupTimer
    ensures (PowerupTick(p).speedMultiplier, PowerupTick(p).damageMultiplier) ==
      if p.powerupTimer == 1 then (1, 1) else (p.speedMultiplier, p.damageMultiplier)
    ensures PowerupTick(p) == p.(powerupTimer := PowerupTick(p).powerupTimer,
                                speedMultiplier := PowerupTick(p).speedMultiplier,
                                damageMultiplier := PowerupTick(p).damageMultiplier)
  {
  }

  /** A power-up farther than 300 from (px, py). */
  function PowerupFar(px: int, py: int): Powerup -> bool
  {
    (u: Powerup) => SqDist(u.x, u.y, px, py) > 300 * 300
  }

  /** A landmine farther than 300 from (px, py). */
  function LandmineFar(px: int, py: int): Landmine -> bool
  {
    (l: Landmine) => SqDist(l.x, l.y, px, py) > 300 * 300
  }

  /**
   * `updatePowerups`: the player's power-up countdown, then a backward swap-remove of every
   * power-up farther than 300, active or not.
   */
  method UpdatePowerups(w: GameState)
    requires w.Shape()
    modifies w, w.powerups
    ensures w.Shape()
    ensures unchanged(w`monsterCount, w`landmineCount, w`projectileCount, w`loadedChunkCount)
    ensures w.player == PowerupTick(old(w.player))
    ensures w.powerupCount <= old(w.powerupCount)
    ensures forall k :: 0 <= k < w.powerupCount ==> SqDist(w.powerups[k].x, w.powerups[k].y, w.player.x, w.player.y) <= 300 * 300
    ensures KeptExactly(multiset(w.powerups[..w.powerupCount]), old(multiset(w.powerups[..w.powerupCount])),
                        PowerupFar(w.player.x, w.player.y))
  {
    w.player := PowerupTick(w.player);
    w.powerupCount := SwapRemoveBackward(w.powerups, w.powerupCount, PowerupFar(w.player.x, w.player.y));
  }

  /** `updateLandmines`: a backward swap-remove of every landmine farther than 300, active or not. */
  method UpdateLandmines(w: GameState)
    requires w.Shape()
    modifies w, w.landmines
    ensures w.Shape()
    ensures unchanged(w`player, w`monsterCount, w`powerupCount, w`projectileCount, w`loadedChunkCount)
    ensures w.landmineCount <= old(w.landmineCount)
    ensures forall k :: 0 <= k < w.landmineCount ==> SqDist(w.landmines[k].x, w.landmines[k].y, w.player.x, w.player.y) <= 300 * 300
    ensures KeptExactly(multiset(w.landmines[..w.landmineCount]), old(multiset(w.landmines[..w.landmineCount])),
                        LandmineFar(w.player.x, w.player.y))
  {
    w.landmineCount := SwapRemoveBackward(w.landmines, w.landmineCount, LandmineFar(w.player.x, w.player.y));
  }

  // ----- Start and restart -----

  /**
   * The player as `initGame` leaves it: at (1, 1) with 100 health, power 8, level 1, no
   * experience, a threshold of 100, invulnerable for 180 ticks, facing up, with every cooldown
   * and status effect cleared. `activePowerup` and `deathTimer` keep what they held.
   */
  function InitPlayer(p: Character): (q: Character)
    ensures q.x == 1 && q.y == 1 && q.alive
    ensures q.health == 100 && q.maxHealth == 100 && q.power == 8
    ensures q.level == 1 && q.experience == 0 && q.experienceToNext == 100
    ensures q.invulnerabilityTimer == 180 && q.powerupTimer == 0 && q.stunTimer == 0 && q.dotTimer == 0
    ensures q.activePowerup == p.activePowerup && q.deathTimer == p.deathTimer
  {
    p.(x := 1, y := 1, health := 100, maxHealth := 100, power := 8, textureIndex := 0, alive := true,
       speed := 1, speedMultiplier := 1, damageMultiplier := 1, powerupTimer := 0, movementCooldown := 0,
       level := 1, experience := 0, experienceToNext := 100, isInCombat := false, invulnerabilityTimer := 180,
       jumpSmashCooldown := 0, rushCooldown := 0, healCooldown := 0, arrowCooldown := 0,
       lastDirX := 0, lastDirY := -1, intendedDirX := 0, intendedDirY := -1,
       stunTimer := 0, dotTimer := 0, dotDamage := 0, speedBoostTimer := 0)
  }

  /**
   * A monster of the opening spawn of `initGame`, written over `slot`: unlike the chunk
   * spawner it gets a threshold of 0 and leaves the status effects of the slot as they were.
   */
  function OpeningMonster(slot: Character, x: int, y: int, health: int, power: int, texture: int): Character
  {
    slot.(x := x, y := y, health := health, maxHealth := health, power := power, textureIndex := texture,
          alive := true, speed := 1, speedMultiplier := 1, damageMultiplier := 1, powerupTimer := 0,
          movementCooldown := 0, level := 1, experience := 0, experienceToNext := 0,
          isInCombat := false, invulnerabilityTimer := 0)
  }

  /**
   * An opening monster: within 49 of the player's start (1, 1), alive, random stats in range,
   * speed and multipliers 1, no power-up, cooldown or invulnerability, out of combat.
   */
  predicate OpeningOk(m: Character)
  {
    && SqDist(m.x, m.y, 1, 1) <= 49 * 49
    && 20 <= m.health <= 49 && m.maxHealth == m.health && 3 <= m.power <= 7 && 1 <= m.textureIndex <= 5
    && m.alive && m.speed == 1 && m.speedMultiplier == 1 && m.damageMultiplier == 1 && m.powerupTimer == 0
    && m.movementCooldown == 0 && m.level == 1 && m.experience == 0 && m.experienceToNext == 0
    && !m.isInCombat && m.invulnerabilityTimer == 0
  }

  /**
   * One monster of the opening spawn, at distance `5 + rand() % 45` and a random angle from the
   * player. The angle's cosine and sine are not modelled: the offset is any integer vector no
   * longer than the distance, which is what truncating `cos * d` and `sin * d` gives.
   */
  method SpawnOpeningMonster(w: GameState)
    requires w.Shape() && w.monsterCount < MAX_MONSTERS && w.player.x == 1 && w.player.y == 1
    modifies w, w.monsters
    ensures w.Shape() && w.monsterCount == old(w.monsterCount) + 1
    ensures unchanged(w`player, w`powerupCount, w`landmineCount, w`projectileCount, w`loadedChunkCount)
    ensures w.monsters[..old(w.monsterCount)] == old(w.monsters[..w.monsterCount])
    ensures OpeningOk(w.monsters[old(w.monsterCount)])
  {
    var r := RandMod(45);
    var distance := 5 + r;
    var offsetX: int, offsetY: int :| offsetX * offsetX + offsetY * offsetY <= distance * distance;
    assert offsetX * offsetX + offsetY * offsetY <= 49 * 49;
    var health := RandMod(30);
    var power := RandMod(5);
    var texture := RandMod(5);
    var slot := w.monsterCount;
    w.monsters[slot] := OpeningMonster(w.monsters[slot], w.player.x + offsetX, w.player.y + offsetY,
                                       20 + health, 3 + power, 1 + texture);
    w.monsterCount := slot + 1;
  }

  /** The opening spawn loop of `initGame`: 15 rounds, each adding one monster while there is room. */
  method OpeningSpawn(w: GameState)
    requires w.Shape() && w.player.x == 1 && w.player.y == 1
    modifies w, w.monsters
    ensures w.Shape()
    ensures unchanged(w`player, w`powerupCount, w`landmineCount, w`projectileCount, w`loadedChunkCount)
    ensures w.monsterCount == if old(w.monsterCount) + 15 <= MAX_MONSTERS then old(w.monsterCount) + 15 else MAX_MONSTERS
    ensures w.monsters[..old(w.monsterCount)] == old(w.monsters[..w.monsterCount])
    ensures forall k :: old(w.monsterCount) <= k < w.monsterCount ==> OpeningOk(w.monsters[k])
  {
    ghost var start := w.monsterCount;
    for i := 0 to 15
      invariant w.Shape() && start <= w.monsterCount
      invariant unchanged(w`player, w`powerupCount, w`landmineCount, w`projectileCount, w`loadedChunkCount)
      invariant w.monsterCount == if start + i <= MAX_MONSTERS then start + i else MAX_MONSTERS
      invariant w.monsters[..start] == old(w.monsters[..w.monsterCount])
      invariant forall k :: start <= k < w.monsterCount ==> OpeningOk(w.monsters[k])
    {
      if w.monsterCount < MAX_MONSTERS {
        SpawnOpeningMonster(w);
        assert w.monsters[..start] == w.monsters[..w.monsterCount - 1][..start];
      }
    }
  }

  /**
   * `initGame`: the player is reset, the entity counts and the chunk table are emptied (the
   * projectile count is not), the chunks around the player are loaded three times over, and up
   * to 15 opening monsters are added near the player.
   */
  method InitGame(w: GameState, now: int)
    returns (ghost chunkMonsters: nat)
    requires w.Shape()
    modifies w, w.monsters, w.powerups, w.landmines, w.loadedChunks
    ensures w.Valid()
    ensures w.player == InitPlayer(old(w.player))
    ensures w.projectileCount == old(w.projectileCount)
    ensures forall k :: 0 <= k < w.loadedChunkCount ==> w.loadedChunks[k].lastAccess == now
    ensures chunkMonsters <= w.monsterCount
    ensures w.monsterCount == if chunkMonsters + 15 <= MAX_MONSTERS then chunkMonsters + 15 else MAX_MONSTERS
    ensures forall k :: chunkMonsters <= k < w.monsterCount ==> OpeningOk(w.monsters[k])
  {
    w.player := InitPlayer(w.player);
    w.loadedChunkCount := 0;
    w.monsterCount := 0;
    w.powerupCount := 0;
    w.landmineCount := 0;
    for i := 0 to 3
      invariant w.Valid() && w.player == InitPlayer(old(w.player))
      invariant w.projectileCount == old(w.projectileCount)
      invariant i > 0 ==> forall k :: 0 <= k < w.loadedChunkCount ==> w.loadedChunks[k].lastAccess == now
    {
      UpdateChunks(w, now);
    }
    chunkMonsters := w.monsterCount;
    OpeningSpawn(w);
  }

  /**
   * The reset part of `restartGame`: all five counts go to zero, the four entity arrays are
   * zeroed and every chunk slot is marked unloaded.
   */
  method ClearState(w: GameState)
    requires w.Shape()
    modifies w, w.monsters, w.powerups, w.landmines, w.projectiles, w.loadedChunks
    ensures w.Shape() && w.player == old(w.player)
    ensures w.projectileCount == 0 && w.monsterCount == 0 && w.powerupCount == 0 && w.landmineCount == 0
    ensures w.loadedChunkCount == 0
    ensures forall k :: 0 <= k < w.monsters.Length ==> w.monsters[k] == ZeroCharacter
    ensures forall k :: 0 <= k < w.powerups.Length ==> w.powerups[k] == ZeroPowerup
    ensures forall k :: 0 <= k < w.landmines.Length ==> w.landmines[k] == ZeroLandmine
    ensures forall k :: 0 <= k < w.projectiles.Length ==> w.projectiles[k] == ZeroProjectile
    ensures forall k :: 0 <= k < w.loadedChunks.Length ==> w.loadedChunks[k] == old(w.loadedChunks[k]).(loaded := false)
  {
    w.projectileCount := 0;
    w.monsterCount := 0;
    w.powerupCount := 0;
    w.landmineCount := 0;
    w.loadedChunkCount := 0;
    forall k | 0 <= k < w.monsters.Length {
      w.monsters[k] := ZeroCharacter;
    }
    forall k | 0 <= k < w.powerups.Length {
      w.powerups[k] := ZeroPowerup;
    }
    forall k | 0 <= k < w.landmines.Length {
      w.landmines[k] := ZeroLandmine;
    }
    forall k | 0 <= k < w.projectiles.Length {
      w.projectiles[k] := ZeroProjectile;
    }
    forall k | 0 <= k < w.loadedChunks.Length {
      w.loadedChunks[k] := w.loadedChunks[k].(loaded := false);
    }
  }

  /**
   * `restartGame`: the state is cleared, then the game is initialised again, so the monsters
   * are the chunk spawns of the reloaded neighbourhood followed by up to 15 opening monsters.
   */
  method RestartGame(w: GameState, now: int)
    returns (ghost chunkMonsters: nat)
    requires w.Shape()
    modifies w, w.monsters, w.powerups, w.landmines, w.projectiles, w.loadedChunks
    ensures w.Valid()
    ensures w.player == InitPlayer(old(w.player))
    ensures w.projectileCount == 0
    ensures forall k :: 0 <= k < w.projectiles.Length ==> w.projectiles[k] == ZeroProjectile
    ensures forall k :: 0 <= k < w.loadedChunkCount ==> w.loadedChunks[k].lastAccess == now
    ensures chunkMonsters <= w.monsterCount
    ensures w.monsterCount == if chunkMonsters + 15 <= MAX_MONSTERS then chunkMonsters + 15 else MAX_MONSTERS
    ensures forall k :: chunkMonsters <= k < w.monsterCount ==> OpeningOk(w.monsters[k])
  {
    ClearState(w);
    chunkMonsters := InitGame(w, now);
  }
}

=== FILE: monsters.dfy ===
/**
 * Monster behaviour of src/monsters.c: each alive monster off cooldown takes one turn (trolls
 * pursue the player two cells at a time, wizards and dragons shoot and flee, every other kind
 * wanders one cell at random), then monsters far from the player are despawned once enough
 * are nearby.
 *
 * The pursuit and flee steps of the source divide by a floating-point distance and truncate;
 * on the integer grid they are computed exactly here (`PursuitStep`, `FleeStep`).
 */
module Monsters {
  import opened Types
  import opened Dense
  import opened State
  import opened Game
  import opened Projectiles

  /** Wizards (texture 5) throw lightning, dragons (texture 1) throw fireballs. */
  predicate Ranged(m: Character)
  {
    m.textureIndex == 5 || m.textureIndex == 1
  }

  /** The cooldown after a move: the calm value, doubled while in combat. */
  function Rest(m: Character, calm: int): int
  {
    if m.isInCombat then 2 * calm else calm
  }

  /**
   * `(int)(d / dist * 2)` with `dist = sqrt(d*d + other*other) > 0`: two cells along an axis
   * the player is exactly on, one cell when `2|d| >= dist` (that is `3 d^2 >= other^2`), none
   * otherwise.
   */
  function PursuitStep(d: int, other: int): (s: int)
    ensures Abs(s) <= 2 && (s == 0 || Sign(s) == Sign(d))
  {
    Sign(d) * (if other == 0 then 2 else if 3 * d * d >= other * other then 1 else 0)
  }

  /** `(int)(d / dist)`: one cell only when the monster is on the player's row or column. */
  function FleeStep(d: int, other: int): (s: int)
    ensures Abs(s) <= 1
  {
    if other == 0 then Sign(d) else 0
  }

  /** One cell in a cardinal direction. */
  function DirX(dir: Direction): int
  {
    match dir
    case Left => -1
    case Right => 1
    case _ => 0
  }

  function DirY(dir: Direction): int
  {
    match dir
    case Up => -1
    case Down => 1
    case _ => 0
  }

  /**
   * A monster's turn with the player at (px, py): a dead monster is skipped, a cooling one only
   * counts down; otherwise a troll pursues, a ranged monster flees, and any other wanders in
   * direction `dir`, each then resting.
   */
  function Turn(m: Character, px: int, py: int, dir: Direction): (r: Character)
    ensures r == m.(x := r.x, y := r.y, movementCooldown := r.movementCooldown)
    ensures Abs(r.x - m.x) <= 2 && Abs(r.y - m.y) <= 2
  {
    if !m.alive then m
    else if m.movementCooldown > 0 then m.(movementCooldown := m.movementCooldown - 1)
    else if m.textureIndex == TROLL then
      m.(x := m.x + PursuitStep(px - m.x, py - m.y), y := m.y + PursuitStep(py - m.y, px - m.x),
         movementCooldown := Rest(m, 6))
    else if Ranged(m) then
      m.(x := m.x + FleeStep(m.x - px, m.y - py), y := m.y + FleeStep(m.y - py, m.x - px),
         movementCooldown := Rest(m, 9))
    else
      m.(x := m.x + DirX(dir), y := m.y + DirY(dir), movementCooldown := Rest(m, 12))
  }

  /**
   * Dead monsters never change; a cooling monster only counts its cooldown down by one and
   * stays put; a monster that moves rests 6 (troll), 9 (ranged) or 12 (any other) ticks, twice
   * as long while in combat.
   */
  lemma CooldownGates(m: Character, px: int, py: int, dir: Direction)
    ensures !m.alive ==> Turn(m, px, py, dir) == m
    ensures m.alive && m.movementCooldown > 0 ==>
      Turn(m, px, py, dir) == m.(movementCooldown := m.movementCooldown - 1)
    ensures m.alive && m.movementCooldown <= 0 ==>
      Turn(m, px, py, dir).movementCooldown ==
        (if m.isInCombat then 2 else 1) * (if m.textureIndex == TROLL then 6 else if Ranged(m) then 9 else 12)
  {
  }

  /** One axis of a pursuit: the offset to the player never grows, and shrinks whenever the step does not overshoot. */
  lemma PursuitAxis(d: int, other: int)
    ensures Abs(d - PursuitStep(d, other)) <= Abs(d)
    ensures PursuitStep(d, other) != 0 && (other != 0 || Abs(d) >= 2) ==> Abs(d - PursuitStep(d, other)) < Abs(d)
  {
  }

  lemma SquareMonotone(a: nat, b: nat)
    requires a <= b
    ensures a * a <= b * b
  {
  }

  lemma StrictSquare(a: nat, b: nat)
    requires a < b
    ensures a * a < b * b
  {
  }

  /** The squared distance between two cells whose offset is (a, b) or (-a, -b). */
  lemma SqDistOf(x1: int, y1: int, x2: int, y2: int, a: int, b: int)
    requires (x2 - x1 == a && y2 - y1 == b) || (x1 - x2 == a && y1 - y2 == b)
    ensures SqDist(x1, y1, x2, y2) == a * a + b * b
  {
    if x2 - x1 == a && y2 - y1 == b {
      assert (x1 - x2) * (x1 - x2) == a * a;
      assert (y1 - y2) * (y1 - y2) == b * b;
    }
  }

  /** The square of the absolute value. */
  lemma AbsSquare(a: int)
    ensures Abs(a) * Abs(a) == a * a
  {
  }

  /** Shorter on both axes, strictly on one, is strictly shorter. */
  lemma SumSquares(u1: nat, v1: nat, u2: nat, v2: nat)
    requires u1 <= u2 && v1 <= v2
    ensures u1 * u1 + v1 * v1 <= u2 * u2 + v2 * v2
    ensures u1 < u2 || v1 < v2 ==> u1 * u1 + v1 * v1 < u2 * u2 + v2 * v2
  {
    SquareMonotone(u1, u2);
    SquareMonotone(v1, v2);
    if u1 < u2 {
      StrictSquare(u1, u2);
    }
    if v1 < v2 {
      StrictSquare(v1, v2);
    }
  }

  /**
   * Axis by axis, a pursuit from offset (dx, dy) to the player never lengthens the offset and
   * shortens it on some axis unless the troll is on the player's cell or next to it along a row
   * or column; in the latter case the two-cell step lands on the mirror cell.
   */
  lemma PursuitShrinks(dx: int, dy: int)
    ensures var ex, ey := dx - PursuitStep(dx, dy), dy - PursuitStep(dy, dx);
      && Abs(ex) <= Abs(dx) && Abs(ey) <= Abs(dy)
      && (Abs(dx) + Abs(dy) >= 2 ==> Abs(ex) < Abs(dx) || Abs(ey) < Abs(dy))
      && (Abs(dx) + Abs(dy) == 1 ==> ex == -dx && ey == -dy)
  {
    PursuitAxis(dx, dy);
    PursuitAxis(dy, dx);
    if dx != 0 && dy != 0 {
      SomeAxisLeans(dx, dy);
    }
  }

  /** Off both axes, the offset leans toward at least one of them by the `3 d^2 >= other^2` test. */
  lemma SomeAxisLeans(a: int, b: int)
    ensures 3 * a * a >= b * b || 3 * b * b >= a * a
  {
    AbsSquare(a);
    AbsSquare(b);
    if Abs(a) <= Abs(b) {
      SquareMonotone(Abs(a), Abs(b));
    } else {
      SquareMonotone(Abs(b), Abs(a));
    }
  }

  /**
   * A pursuit from offset (dx, dy) leaves an offset no longer than before, strictly shorter
   * unless the troll is on the player's cell or next to it along a row or column.
   */
  lemma PursuitCloses(dx: int, dy: int)
    ensures var ex, ey := dx - PursuitStep(dx, dy), dy - PursuitStep(dy, dx);
      && ex * ex + ey * ey <= dx * dx + dy * dy
      && (Abs(dx) + Abs(dy) >= 2 ==> ex * ex + ey * ey < dx * dx + dy * dy)
      && (Abs(dx) + Abs(dy) == 1 ==> ex == -dx && ey == -dy)
  {
    var ex, ey := dx - PursuitStep(dx, dy), dy - PursuitStep(dy, dx);
    PursuitShrinks(dx, dy);
    AbsSquare(dx);
    AbsSquare(dy);
    AbsSquare(ex);
    AbsSquare(ey);
    SumSquares(Abs(ex), Abs(ey), Abs(dx), Abs(dy));
  }

  /**
   * A troll never moves away from the player, and gets strictly closer unless it is next to the
   * player along a row or column, where its two-cell step jumps it to the other side.
   */
  lemma TrollCloses(m: Character, px: int, py: int, dir: Direction)
    requires m.alive && m.movementCooldown <= 0 && m.textureIndex == TROLL
    ensures var r := Turn(m, px, py, dir);
      && SqDist(r.x, r.y, px, py) <= SqDist(m.x, m.y, px, py)
      && (Abs(px - m.x) + Abs(py - m.y) >= 2 ==> SqDist(r.x, r.y, px, py) < SqDist(m.x, m.y, px, py))
      && (Abs(px - m.x) + Abs(py - m.y) == 1 ==> r.x == 2 * px - m.x && r.y == 2 * py - m.y)
  {
    var dx, dy := px - m.x, py - m.y;
    PursuitCloses(dx, dy);
    var ex, ey := dx - PursuitStep(dx, dy), dy - PursuitStep(dy, dx);
    var r := Turn(m, px, py, dir);
    assert r.x == m.x + PursuitStep(dx, dy) && r.y == m.y + PursuitStep(dy, dx);
    SqDistOf(r.x, r.y, px, py, ex, ey);
    SqDistOf(m.x, m.y, px, py, dx, dy);
  }

  /**
   * A wizard or dragon never moves toward the player: it steps one cell straight away when it is
   * on the player's row or column (and not on the player's cell), and stays put otherwise.
   */
  lemma RangedFlees(m: Character, px: int, py: int, dir: Direction)
    requires m.alive && m.movementCooldown <= 0 && Ranged(m)
    ensures var r := Turn(m, px, py, dir);
      && SqDist(r.x, r.y, px, py) >= SqDist(m.x, m.y, px, py)
      && ((r.x, r.y) != (m.x, m.y) <==> (m.x == px) != (m.y == py))
      && Abs(r.x - m.x) + Abs(r.y - m.y) <= 1
  {
  }

  /** Any other monster moves exactly one cell along an axis, in the direction drawn. */
  lemma WandererSteps(m: Character, px: int, py: int, dir: Direction)
    requires m.alive && m.movementCooldown <= 0 && m.textureIndex != TROLL && !Ranged(m)
    ensures var r := Turn(m, px, py, dir);
      Abs(r.x - m.x) + Abs(r.y - m.y) == 1 && r.x - m.x == DirX(dir) && r.y - m.y == DirY(dir)
  {
  }

  /** A ranged monster's shot: kind 0 (lightning) for a wizard, 1 (fireball) for a dragon, aimed at the player, as strong as its power. */
  function Shot(m: Character, px: int, py: int): Projectile
  {
    Launched(m.x, m.y, Sign(px - m.x), Sign(py - m.y), if m.textureIndex == 5 then 0 else 1, m.power)
  }

  /** The monster may shoot this turn: alive, off cooldown, ranged, and not on the player's cell. */
  predicate MayShoot(m: Character, px: int, py: int)
  {
    m.alive && m.movementCooldown <= 0 && Ranged(m) && !(m.x == px && m.y == py)
  }

  /** A monster's projectile: fresh, lightning or fireball, aimed along one of the eight directions. */
  predicate Hostile(p: Projectile)
  {
    && p.alive && p.range == 0 && (p.kind == 0 || p.kind == 1)
    && Abs(p.dx) <= 1 && Abs(p.dy) <= 1 && !(p.dx == 0 && p.dy == 0)
  }

  /** A shot is a hostile projectile. */
  lemma ShotHostile(m: Character, px: int, py: int)
    requires MayShoot(m, px, py)
    ensures Hostile(Shot(m, px, py))
    ensures Shot(m, px, py).effect == (if m.textureIndex == 5 then EFFECT_STUN else EFFECT_DOT)
  {
  }

  /** The projectiles closure for `Appended`. */
  function HostileShots(): Projectile -> bool
  {
    (p: Projectile) => Hostile(p)
  }

  /** A shot of monster m at the player, pushed when the projectile array has room. */
  method Shoot(w: GameState, m: Character)
    requires w.Shape() && MayShoot(m, w.player.x, w.player.y)
    modifies w, w.projectiles
    ensures w.Shape()
    ensures unchanged(w`player, w`monsterCount, w`powerupCount, w`landmineCount, w`loadedChunkCount)
    ensures Appended(old(w.projectiles[..w.projectileCount]), w.projectiles[..w.projectileCount], HostileShots())
    ensures w.projectileCount <= old(w.projectileCount) + 1
    ensures w.projectileCount > old(w.projectileCount) ==> w.projectiles[old(w.projectileCount)] == Shot(m, w.player.x, w.player.y)
  {
    ShotHostile(m, w.player.x, w.player.y);
    var s := Shot(m, w.player.x, w.player.y);
    SpawnProjectile(w, s.x, s.y, s.dx, s.dy, s.kind, s.damage);
  }

  /** The turn of monster i in `updateMonsters`, with its random draws. */
  method TurnMonster(w: GameState, i: nat) returns (ghost dir: Direction)
    requires w.Shape() && i < w.monsterCount
    modifies w, w.monsters, w.projectiles
    ensures w.Shape()
    ensures unchanged(w`player, w`monsterCount, w`powerupCount, w`landmineCount, w`loadedChunkCount)
    ensures w.monsters[i] == Turn(old(w.monsters[i]), w.player.x, w.player.y, dir)
    ensures forall k :: 0 <= k < w.monsters.Length && k != i ==> w.monsters[k] == old(w.monsters[k])
    ensures Appended(old(w.projectiles[..w.projectileCount]), w.projectiles[..w.projectileCount], HostileShots())
    ensures w.projectileCount <= old(w.projectileCount) + 1
    ensures w.projectileCount > old(w.projectileCount) ==>
      MayShoot(old(w.monsters[i]), w.player.x, w.player.y) && w.projectiles[old(w.projectileCount)] == Shot(old(w.monsters[i]), w.player.x, w.player.y)
  {
    var m := w.monsters[i];
    var d := Up;
    dir := d;
    if !m.alive {
      return;
    }
    if m.movementCooldown > 0 {
      w.monsters[i] := m.(movementCooldown := m.movementCooldown - 1);
      return;
    }
    if Ranged(m) {
      var chance := RandMod(100);
      if chance < 30 && !(w.player.x == m.x && w.player.y == m.y) {
        Shoot(w, m);
      }
    } else if m.textureIndex != TROLL {
      var roll := RandMod(4);
      d := DirectionOf(roll);
      dir := d;
    }
    w.monsters[i] := Turn(m, w.player.x, w.player.y, d);
  }

  /** Every monster's turn, with the direction each one drew. */
  function Turned(ms: seq<Character>, px: int, py: int, dirs: seq<Direction>): (r: seq<Character>)
    requires |dirs| == |ms|
    ensures |r| == |ms| && forall k :: 0 <= k < |ms| ==> r[k] == Turn(ms[k], px, py, dirs[k])
  {
    seq(|ms|, k requires 0 <= k < |ms| => Turn(ms[k], px, py, dirs[k]))
  }

  /** The turn loop of `updateMonsters`: monsters in index order, shots pushed as they are fired. */
  method TurnAll(w: GameState) returns (ghost dirs: seq<Direction>)
    requires w.Shape()
    modifies w, w.monsters, w.projectiles
    ensures w.Shape()
    ensures unchanged(w`player, w`monsterCount, w`powerupCount, w`landmineCount, w`loadedChunkCount)
    ensures |dirs| == w.monsterCount
    ensures w.monsters[..w.monsterCount] == Turned(old(w.monsters[..w.monsterCount]), w.player.x, w.player.y, dirs)
    ensures Appended(old(w.projectiles[..w.projectileCount]), w.projectiles[..w.projectileCount], HostileShots())
  {
    ghost var ms := w.monsters[..w.monsterCount];
    ghost var ps := w.projectiles[..w.projectileCount];
    dirs := [];
    for i := 0 to w.monsterCount
      invariant w.Shape()
      invariant unchanged(w`player, w`monsterCount, w`powerupCount, w`landmineCount, w`loadedChunkCount)
      invariant |dirs| == i
      invariant forall k :: 0 <= k < i ==> w.monsters[k] == Turn(ms[k], w.player.x, w.player.y, dirs[k])
      invariant forall k :: i <= k < w.monsterCount ==> w.monsters[k] == ms[k]
      invariant Appended(ps, w.projectiles[..w.projectileCount], HostileShots())
    {
      ghost var before := w.projectiles[..w.projectileCount];
      var d := TurnMonster(w, i);
      AppendedTrans(ps, before, w.projectiles[..w.projectileCount], HostileShots());
      dirs := dirs + [d];
    }
  }

  /** The despawn distance and the number of nearby monsters that makes despawning safe. */
  const DESPAWN_DISTANCE: int := 300
  const MIN_NEARBY_MONSTERS: nat := 6

  /** An alive monster within the despawn distance of (px, py). */
  function NearAlive(px: int, py: int): Character -> bool
  {
    (m: Character) => m.alive && SqDist(m.x, m.y, px, py) <= DESPAWN_DISTANCE * DESPAWN_DISTANCE
  }

  /** An alive monster beyond the despawn distance; dead monsters are never despawned here. */
  function Stray(px: int, py: int): Character -> bool
  {
    (m: Character) => m.alive && SqDist(m.x, m.y, px, py) > DESPAWN_DISTANCE * DESPAWN_DISTANCE
  }

  /**
   * The despawn step of `updateMonsters`: when at least six alive monsters are within 300 of
   * the player, every alive monster beyond 300 is swap-removed; otherwise nothing changes.
   */
  method DespawnMonsters(w: GameState)
    requires w.Shape()
    modifies w, w.monsters
    ensures w.Shape()
    ensures unchanged(w`player, w`powerupCount, w`landmineCount, w`projectileCount, w`loadedChunkCount)
    ensures CountIf(old(w.monsters[..w.monsterCount]), NearAlive(w.player.x, w.player.y)) < MIN_NEARBY_MONSTERS ==>
      w.monsterCount == old(w.monsterCount) && unchanged(w.monsters)
    ensures CountIf(old(w.monsters[..w.monsterCount]), NearAlive(w.player.x, w.player.y)) >= MIN_NEARBY_MONSTERS ==>
      && KeptExactly(multiset(w.monsters[..w.monsterCount]), multiset(old(w.monsters[..w.monsterCount])), Stray(w.player.x, w.player.y))
      && forall k :: 0 <= k < w.monsterCount ==> !Stray(w.player.x, w.player.y)(w.monsters[k])
  {
    var nearby := CountWhere(w.monsters, w.monsterCount, NearAlive(w.player.x, w.player.y));
    if nearby >= MIN_NEARBY_MONSTERS {
      w.monsterCount := SwapRemoveBackward(w.monsters, w.monsterCount, Stray(w.player.x, w.player.y));
    }
  }

  /** `updateMonsters`: every monster's turn, then the despawn of far monsters. */
  method UpdateMonsters(w: GameState) returns (ghost dirs: seq<Direction>)
    requires w.Shape()
    modifies w, w.monsters, w.projectiles
    ensures w.Shape()
    ensures unchanged(w`player, w`powerupCount, w`landmineCount, w`loadedChunkCount)
    ensures |dirs| == old(w.monsterCount)
    ensures var turned := Turned(old(w.monsters[..w.monsterCount]), w.player.x, w.player.y, dirs);
      if CountIf(turned, NearAlive(w.player.x, w.player.y)) < MIN_NEARBY_MONSTERS
      then w.monsters[..w.monsterCount] == turned
      else KeptExactly(multiset(w.monsters[..w.monsterCount]), multiset(turned), Stray(w.player.x, w.player.y))
    ensures Appended(old(w.projectiles[..w.projectileCount]), w.projectiles[..w.projectileCount], HostileShots())
  {
    dirs := TurnAll(w);
    DespawnMonsters(w);
  }
}

=== FILE: nearby.dfy ===
/**
 * The top-up loops of src/world.c (`ensureNearbyMonsters`, `ensureNearbyPowerups`,
 * `ensureNearbyLandmines`): count the live entities of a kind within two chunks of the player,
 * then, while that count is below a target and the array has room, pick a random chunk near
 * the player, make sure it is loaded, and try ten random cells of it for a new entity.
 *
 * The source's loops need not terminate (every attempt can fail); here each runs for at most
 * `fuel` rounds and reports how many it used.
 */
module Nearby {
  import opened Types
  import opened Terrain
  import opened Dense
  import opened State
  import opened World

  const MONSTER_TARGET: nat := 50
  const POWERUP_TARGET: nat := 5
  const LANDMINE_TARGET: nat := 10

  /** Chunk coordinates (x / 32, y / 32) in C's truncating division lie within 2 of (pcx, pcy). */
  predicate NearChunk(x: int, y: int, pcx: int, pcy: int)
  {
    Abs(CDiv(x, CHUNK_SIZE) - pcx) <= 2 && Abs(CDiv(y, CHUNK_SIZE) - pcy) <= 2
  }

  function NearbyMonsters(pcx: int, pcy: int): Character -> bool
  {
    (m: Character) => m.alive && NearChunk(m.x, m.y, pcx, pcy)
  }

  function NearbyPowerups(pcx: int, pcy: int): Powerup -> bool
  {
    (u: Powerup) => u.active && NearChunk(u.x, u.y, pcx, pcy)
  }

  function NearbyLandmines(pcx: int, pcy: int): Landmine -> bool
  {
    (l: Landmine) => l.active && NearChunk(l.x, l.y, pcx, pcy)
  }

  /** The placement ring: farther than `inner` and nearer than `outer` from the player. */
  predicate InRing(x: int, y: int, px: int, py: int, inner: nat, outer: nat)
  {
    inner * inner < SqDist(x, y, px, py) < outer * outer
  }

  /** An alive monster within one cell of (x, y) on both axes blocks a monster there. */
  function MonsterBlocks(x: int, y: int): Character -> bool
  {
    (m: Character) => m.alive && WithinBox(m.x, m.y, x, y, 1)
  }

  /** An active power-up within two cells on both axes blocks a power-up there. */
  function PowerupBlocks(x: int, y: int): Powerup -> bool
  {
    (u: Powerup) => u.active && WithinBox(u.x, u.y, x, y, 2)
  }

  /** An active landmine within three cells on both axes blocks a landmine there. */
  function LandmineBlocks(x: int, y: int): Landmine -> bool
  {
    (l: Landmine) => l.active && WithinBox(l.x, l.y, x, y, 3)
  }

  /** A random cell of chunk (chunkX, chunkY): `chunk * 32 + rand() % 32` on both axes. */
  method RandomCell(chunkX: int, chunkY: int) returns (worldX: int, worldY: int)
    ensures InChunk(worldX, worldY, chunkX, chunkY)
  {
    var localX := RandMod(CHUNK_SIZE);
    var localY := RandMod(CHUNK_SIZE);
    worldX := chunkX * CHUNK_SIZE + localX;
    worldY := chunkY * CHUNK_SIZE + localY;
  }

  /** A chunk offset of the top-up loops: `rand() % 5 - 2`. */
  method RandomOffset() returns (offset: int)
    ensures -2 <= offset <= 2
  {
    var r := RandMod(5);
    offset := r as int - 2;
  }

  /**
   * A cell of a chunk within two chunks of (pcx, pcy) lies, by floor division of its coordinates,
   * within two chunks of it too.
   */
  lemma InChunkNear(x: int, y: int, chunkX: int, chunkY: int, pcx: int, pcy: int)
    requires InChunk(x, y, chunkX, chunkY) && Abs(chunkX - pcx) <= 2 && Abs(chunkY - pcy) <= 2
    ensures Abs(x / CHUNK_SIZE - pcx) <= 2 && Abs(y / CHUNK_SIZE - pcy) <= 2
  {
    FloorUnique(x, chunkX, x - chunkX * CHUNK_SIZE);
    FloorUnique(y, chunkY, y - chunkY * CHUNK_SIZE);
  }

  /** `now` begins with `start`, and what it adds holds at least the elements of `placed`. */
  ghost predicate GrewFrom<T>(start: seq<T>, placed: seq<T>, now: seq<T>)
  {
    |start| <= |now| && now[..|start|] == start && multiset(placed) <= multiset(now[|start|..])
  }

  /**
   * A round that unloads nothing extends the live prefix: the load appended to `before`, giving
   * `loaded`, which `arr` begins with, and the entity placed, if any, is the one just past it.
   */
  lemma RoundGrows<T>(start: seq<T>, placed: seq<T>, before: seq<T>, loaded: seq<T>, ok: T -> bool,
                      arr: seq<T>, count: nat, placedOne: bool, extra: seq<T>)
    requires GrewFrom(start, placed, before) && Appended(before, loaded, ok)
    requires count <= |arr| && count == |loaded| + (if placedOne then 1 else 0) && arr[..|loaded|] == loaded
    requires extra == if placedOne then [arr[|loaded|]] else []
    ensures GrewFrom(start, placed + extra, arr[..count])
  {
    var after := arr[..count];
    assert after[..|loaded|] == loaded;
    assert after[..|before|] == after[..|loaded|][..|before|];
    assert after[..|start|] == after[..|before|][..|start|];
    assert after[|start|..] == before[|start|..] + after[|before|..];
    if placedOne {
      assert after[|before|..][|loaded| - |before|] == after[|loaded|];
    }
  }

  /**
   * Every entity of `placed` is clear of every entity of `start` and of every entity placed
   * before it; `clear(e, o)` says that `o` does not block `e`.
   */
  ghost predicate Apart<T>(start: seq<T>, placed: seq<T>, clear: (T, T) -> bool)
  {
    forall j :: 0 <= j < |placed| ==>
      && (forall k :: 0 <= k < |start| ==> clear(placed[j], start[k]))
      && (forall i :: 0 <= i < j ==> clear(placed[j], placed[i]))
  }

  /**
   * A round that unloads nothing keeps the placed entities apart: the new one, if any, is clear of
   * every live entity the load left, and those include `start` and everything placed before.
   */
  lemma ApartGrows<T>(start: seq<T>, placed: seq<T>, before: seq<T>, loaded: seq<T>, ok: T -> bool,
                      clear: (T, T) -> bool, extra: seq<T>)
    requires GrewFrom(start, placed, before) && Appended(before, loaded, ok)
    requires Apart(start, placed, clear)
    requires extra == [] || (|extra| == 1 && forall k :: 0 <= k < |loaded| ==> clear(extra[0], loaded[k]))
    ensures Apart(start, placed + extra, clear)
  {
    if extra == [] {
      assert placed + extra == placed;
    } else {
      var all := placed + extra;
      forall j | 0 <= j < |all|
        ensures && (forall k :: 0 <= k < |start| ==> clear(all[j], start[k]))
                && (forall i :: 0 <= i < j ==> clear(all[j], all[i]))
      {
        if j < |placed| {
          assert all[j] == placed[j];
          forall i | 0 <= i < j
            ensures clear(all[j], all[i])
          {
            assert all[i] == placed[i];
          }
        } else {
          assert all[j] == extra[0];
          forall k | 0 <= k < |start|
            ensures clear(all[j], start[k])
          {
            assert start[k] == before[k] == loaded[k];
          }
          forall i | 0 <= i < j
            ensures clear(all[j], all[i])
          {
            assert all[i] == placed[i];
            assert placed[i] in multiset(placed);
            assert placed[i] in multiset(before[|start|..]);
            var t :| 0 <= t < |before[|start|..]| && before[|start|..][t] == placed[i];
            assert loaded[|start| + t] == before[|start| + t];
          }
        }
      }
    }
  }

  // ----- Monsters -----

  /**
   * A monster as a round places it: in the chosen chunk, in the ring (50, 300) around the player at
   * (px, py), as the spawner leaves it, and clear of every alive monster of `others` by more than
   * one cell.
   */
  ghost predicate MonsterPlaced(m: Character, others: seq<Character>, spawnChunkX: int, spawnChunkY: int, px: int, py: int)
  {
    && InChunk(m.x, m.y, spawnChunkX, spawnChunkY)
    && InRing(m.x, m.y, px, py, 50, 300)
    && FreshMonster(m)
    && forall k :: 0 <= k < |others| ==> !MonsterBlocks(m.x, m.y)(others[k])
  }

  /** A monster a top-up loop leaves: as the spawner leaves it, in the ring, within two chunks of (pcx, pcy). */
  ghost predicate MonsterNear(m: Character, pcx: int, pcy: int, px: int, py: int)
  {
    && FreshMonster(m)
    && InRing(m.x, m.y, px, py, 50, 300)
    && Abs(m.x / CHUNK_SIZE - pcx) <= 2 && Abs(m.y / CHUNK_SIZE - pcy) <= 2
  }

  /** `o` does not block a monster on the cell of `m`. */
  function MonsterClear(): (Character, Character) -> bool
  {
    (m: Character, o: Character) => !MonsterBlocks(m.x, m.y)(o)
  }

  /** A monster placed in a chunk within two of (pcx, pcy) is near that chunk, and clear of `others`. */
  lemma MonsterPlacedNear(m: Character, others: seq<Character>, spawnChunkX: int, spawnChunkY: int, pcx: int, pcy: int, px: int, py: int)
    requires MonsterPlaced(m, others, spawnChunkX, spawnChunkY, px, py)
    requires Abs(spawnChunkX - pcx) <= 2 && Abs(spawnChunkY - pcy) <= 2
    ensures MonsterNear(m, pcx, pcy, px, py)
    ensures forall k :: 0 <= k < |others| ==> MonsterClear()(m, others[k])
  {
    InChunkNear(m.x, m.y, spawnChunkX, spawnChunkY, pcx, pcy);
  }

  /**
   * The ten attempts of one round of `ensureNearbyMonsters`: a monster is written to the next slot
   * at the first random cell of the chunk that lies in the ring (50, 300) around the player and has
   * no alive monster within one cell.
   */
  method PlaceMonster(w: GameState, spawnChunkX: int, spawnChunkY: int) returns (placed: bool)
    requires w.Shape() && w.monsterCount < MAX_MONSTERS
    modifies w, w.monsters
    ensures w.Shape()
    ensures w.player == old(w.player) && w.projectileCount == old(w.projectileCount)
    ensures w.loadedChunkCount == old(w.loadedChunkCount)
    ensures CountsOf(w) == old(CountsOf(w)).(monsters := old(w.monsterCount) + (if placed then 1 else 0))
    ensures w.monsters[..old(w.monsterCount)] == old(w.monsters[..w.monsterCount])
    ensures placed ==> MonsterPlaced(w.monsters[old(w.monsterCount)], old(w.monsters[..w.monsterCount]), spawnChunkX, spawnChunkY,
                                     w.player.x, w.player.y)
  {
    placed := false;
    var worldX, worldY := 0, 0;
    var attempts := 0;
    while attempts < 10 && !placed
      invariant placed ==> && InChunk(worldX, worldY, spawnChunkX, spawnChunkY)
                           && InRing(worldX, worldY, w.player.x, w.player.y, 50, 300)
                           && forall k :: 0 <= k < w.monsterCount ==> !MonsterBlocks(worldX, worldY)(w.monsters[k])
      modifies {}
    {
      var x, y := RandomCell(spawnChunkX, spawnChunkY);
      if InRing(x, y, w.player.x, w.player.y, 50, 300) {
        var free := NoneWhere(w.monsters, w.monsterCount, MonsterBlocks(x, y));
        if free {
          placed := true;
          worldX, worldY := x, y;
        }
      }
      attempts := attempts + 1;
    }
    ghost var before := w.monsters[..w.monsterCount];
    if placed {
      var health := RandMod(30);
      var power := RandMod(5);
      var texture := RandMod(5);
      w.monsters[w.monsterCount] := SpawnedMonster(w.monsters[w.monsterCount], worldX, worldY,
                                                   20 + health, 3 + power, 1 + texture);
      w.monsterCount := w.monsterCount + 1;
      assert w.monsters[..w.monsterCount - 1] == before;
    }
  }

  /**
   * One round of the top-up loop: load a random chunk within two of the player's, then try to
   * place, but only while the loading has left room, so a placed monster always lands inside the
   * array. The ghost results describe the loading as `LoadChunk` does: `evicted` is the chunk slot
   * it unloaded (negative when none), `kept` the live monsters after that unloading, `rolls` the
   * draws of the generated cells, and `loaded` the live monsters the generation left, which grew
   * from `kept` by the chunk's own monsters only. A placed monster is appended to `loaded`.
   */
  method MonsterRound(w: GameState, playerChunkX: int, playerChunkY: int, now: int)
    returns (placed: bool, spawnChunkX: int, spawnChunkY: int,
             ghost evicted: int, ghost kept: seq<Character>, ghost rolls: seq<seq<nat>>, ghost loaded: seq<Character>)
    requires w.Valid()
    modifies w, w.monsters, w.powerups, w.landmines, w.loadedChunks
    ensures w.Valid()
    ensures w.player == old(w.player) && w.projectileCount == old(w.projectileCount)
    ensures Abs(spawnChunkX - playerChunkX) <= 2 && Abs(spawnChunkY - playerChunkY) <= 2
    ensures FindChunk(w.Chunks(), spawnChunkX, spawnChunkY) >= 0
    ensures evicted >= 0 <==> old(FindChunk(w.Chunks(), spawnChunkX, spawnChunkY)) < 0 && old(w.loadedChunkCount) == MAX_LOADED_CHUNKS
    ensures evicted < 0 ==> kept == old(w.monsters[..w.monsterCount])
    ensures evicted >= 0 ==> IsOldest(old(w.Chunks()), evicted)
    ensures evicted >= 0 ==>
      KeptExactly(multiset(kept), old(multiset(w.monsters[..w.monsterCount])),
                  MonsterFarIn(old(w.loadedChunks[evicted].chunkX), old(w.loadedChunks[evicted].chunkY), w.player.x, w.player.y))
    ensures |rolls| == (if old(FindChunk(w.Chunks(), spawnChunkX, spawnChunkY)) < 0 then CHUNK_SIZE else 0) && Draws(rolls)
    ensures |kept| <= MAX_MONSTERS && |loaded| == Capped(|kept|, ChunkTally(w.noise, spawnChunkX, spawnChunkY, rolls).monsters, MAX_MONSTERS)
    ensures Appended(kept, loaded, ChunkMonsters(w.noise, spawnChunkX, spawnChunkY))
    ensures w.monsterCount == |loaded| + (if placed then 1 else 0)
    ensures w.monsters[..|loaded|] == loaded
    ensures placed ==> MonsterPlaced(w.monsters[|loaded|], loaded, spawnChunkX, spawnChunkY, w.player.x, w.player.y)
  {
    var offsetX := RandomOffset();
    var offsetY := RandomOffset();
    spawnChunkX := playerChunkX + offsetX;
    spawnChunkY := playerChunkY + offsetY;
    ghost var ms, us, ls;
    evicted, ms, us, ls, rolls := LoadChunk(w, spawnChunkX, spawnChunkY, now);
    kept := ms;
    loaded := w.monsters[..w.monsterCount];
    placed := false;
    if w.monsterCount < MAX_MONSTERS {
      placed := PlaceMonster(w, spawnChunkX, spawnChunkY);
    }
  }

  /**
   * One pass of the body of `ensureNearbyMonsters`: a round, and what the loop records of it. The
   * placed monster, if any, is the one element of `extra` and lies in the ring within two chunks of
   * the player's; when the round evicted nothing, the live monsters that had grown from `start` by
   * `placed` have grown from it by `placed + extra`.
   */
  method MonsterTopUp(w: GameState, playerChunkX: int, playerChunkY: int, now: int,
                 ghost start: seq<Character>, ghost placed: seq<Character>)
    returns (placedOne: bool, ghost evicted: int, ghost extra: seq<Character>)
    requires w.Valid()
    modifies w, w.monsters, w.powerups, w.landmines, w.loadedChunks
    ensures w.Valid()
    ensures w.player == old(w.player) && w.projectileCount == old(w.projectileCount)
    ensures |extra| == (if placedOne then 1 else 0)
    ensures forall k :: 0 <= k < |extra| ==> MonsterNear(extra[k], playerChunkX, playerChunkY, w.player.x, w.player.y)
    ensures evicted < 0 && old(GrewFrom(start, placed, w.monsters[..w.monsterCount])) ==> GrewFrom(start, placed + extra, w.monsters[..w.monsterCount])
    ensures evicted < 0 && old(GrewFrom(start, placed, w.monsters[..w.monsterCount])) && Apart(start, placed, MonsterClear()) ==>
      Apart(start, placed + extra, MonsterClear())
  {
    ghost var before := w.monsters[..w.monsterCount];
    var spawnChunkX, spawnChunkY;
    ghost var kept, rolls, loaded;
    placedOne, spawnChunkX, spawnChunkY, evicted, kept, rolls, loaded := MonsterRound(w, playerChunkX, playerChunkY, now);
    extra := if placedOne then [w.monsters[|loaded|]] else [];
    if placedOne {
      MonsterPlacedNear(w.monsters[|loaded|], loaded, spawnChunkX, spawnChunkY, playerChunkX, playerChunkY, w.player.x, w.player.y);
    }
    if evicted < 0 && GrewFrom(start, placed, before) {
      RoundGrows(start, placed, kept, loaded, ChunkMonsters(w.noise, spawnChunkX, spawnChunkY), w.monsters[..], w.monsterCount, placedOne, extra);
      if Apart(start, placed, MonsterClear()) {
        ApartGrows(start, placed, kept, loaded, ChunkMonsters(w.noise, spawnChunkX, spawnChunkY), MonsterClear(), extra);
      }
    }
  }

  /**
   * `ensureNearbyMonsters`, for at most `fuel` rounds; the target is 50. Each round loads a chunk
   * within two of the player's and tries to place one monster there; the loading can itself fill
   * the array, so the placement is attempted only while there is still room. The ghost result
   * `placed` lists the monsters placed, in order: the count of nearby monsters grows by exactly
   * their number, and each lies in the ring around the player within two chunks of the player's.
   * `evictions` counts the rounds whose loading unloaded a chunk; when there were none, the live
   * monsters kept their first entries and grew by at least the placed ones.
   */
  method EnsureNearbyMonsters(w: GameState, now: int, fuel: nat)
    returns (nearby: nat, rounds: nat, ghost placed: seq<Character>, ghost evictions: nat)
    requires w.Valid()
    modifies w, w.monsters, w.powerups, w.landmines, w.loadedChunks
    ensures w.Valid()
    ensures w.player == old(w.player) && w.projectileCount == old(w.projectileCount)
    ensures nearby == old(CountIf(w.monsters[..w.monsterCount],
                                  NearbyMonsters(CDiv(w.player.x, CHUNK_SIZE), CDiv(w.player.y, CHUNK_SIZE)))) + |placed|
    ensures forall k :: 0 <= k < |placed| ==>
      MonsterNear(placed[k], CDiv(w.player.x, CHUNK_SIZE), CDiv(w.player.y, CHUNK_SIZE), w.player.x, w.player.y)
    ensures rounds <= fuel && |placed| <= rounds && evictions <= rounds
    ensures rounds < fuel ==> nearby >= MONSTER_TARGET || w.monsterCount == MAX_MONSTERS
    ensures evictions == 0 ==> GrewFrom(old(w.monsters[..w.monsterCount]), placed, w.monsters[..w.monsterCount])
    ensures evictions == 0 ==> Apart(old(w.monsters[..w.monsterCount]), placed, MonsterClear())
  {
    var playerChunkX := CDiv(w.player.x, CHUNK_SIZE);
    var playerChunkY := CDiv(w.player.y, CHUNK_SIZE);
    nearby := CountWhere(w.monsters, w.monsterCount, NearbyMonsters(playerChunkX, playerChunkY));
    ghost var initial := nearby;
    ghost var start := w.monsters[..w.monsterCount];
    placed := [];
    rounds := 0;
    evictions := 0;
    while nearby < MONSTER_TARGET && w.monsterCount < MAX_MONSTERS && rounds < fuel
      invariant w.Valid()
      invariant w.player == old(w.player) && w.projectileCount == old(w.projectileCount)
      invariant nearby == initial + |placed| && |placed| <= rounds <= fuel && evictions <= rounds
      invariant forall k :: 0 <= k < |placed| ==> MonsterNear(placed[k], playerChunkX, playerChunkY, w.player.x, w.player.y)
      invariant evictions == 0 ==> GrewFrom(start, placed, w.monsters[..w.monsterCount])
      invariant evictions == 0 ==> Apart(start, placed, MonsterClear())
      decreases fuel - rounds
    {
      var placedOne;
      ghost var evicted, extra;
      placedOne, evicted, extra := MonsterTopUp(w, playerChunkX, playerChunkY, now, start, placed);
      if placedOne {
        nearby := nearby + 1;
      }
      evictions := if evicted >= 0 then evictions + 1 else evictions;
      placed := placed + extra;
      rounds := rounds + 1;
    }
  }

  /**
   * One round of `ensureNearbyMonsters` as src/world.c writes it, up to the store: the loop guard
   * has seen `monsterCount < MAX_MONSTERS`, the chosen chunk is loaded, and the store goes to index
   * `monsterCount` as the loading left it, with no second check; `slot` is that index. When the
   * chunk was not loaded and the table had room, the loading appended one monster per grass or tree
   * cell that drew below 2, as far as there was room; so with one free slot at the guard and one
   * such cell the store lands at index 2000, one past the end of the array.
   */
  method MonsterRoundAsWritten(w: GameState, playerChunkX: int, playerChunkY: int, now: int)
    returns (slot: nat, spawnChunkX: int, spawnChunkY: int, ghost rolls: seq<seq<nat>>)
    requires w.Valid() && w.monsterCount < MAX_MONSTERS
    modifies w, w.monsters, w.powerups, w.landmines, w.loadedChunks
    ensures w.Valid()
    ensures slot == w.monsterCount
    ensures old(FindChunk(w.Chunks(), spawnChunkX, spawnChunkY)) < 0 && old(w.loadedChunkCount) < MAX_LOADED_CHUNKS ==>
      && |rolls| == CHUNK_SIZE
      && slot == Capped(old(w.monsterCount), ChunkTally(w.noise, spawnChunkX, spawnChunkY, rolls).monsters, MAX_MONSTERS)
    ensures && old(w.monsterCount) == MAX_MONSTERS - 1
            && old(FindChunk(w.Chunks(), spawnChunkX, spawnChunkY)) < 0 && old(w.loadedChunkCount) < MAX_LOADED_CHUNKS
            && (exists x, y :: 0 <= x < |rolls| && 0 <= y < |rolls[x]| && rolls[x][y] < 2
                               && CellKind(w.noise, spawnChunkX, spawnChunkY, x, y) in {GRASS, TREE})
            ==> slot == MAX_MONSTERS
  {
    var offsetX := RandomOffset();
    var offsetY := RandomOffset();
    spawnChunkX := playerChunkX + offsetX;
    spawnChunkY := playerChunkY + offsetY;
    var _, _, _, _, r := LoadChunk(w, spawnChunkX, spawnChunkY, now);
    rolls := r;
    slot := w.monsterCount;
    if exists x, y :: 0 <= x < |rolls| && 0 <= y < |rolls[x]| && rolls[x][y] < 2
                      && CellKind(w.noise, spawnChunkX, spawnChunkY, x, y) in {GRASS, TREE} {
      var x, y :| 0 <= x < |rolls| && 0 <= y < |rolls[x]| && rolls[x][y] < 2
                  && CellKind(w.noise, spawnChunkX, spawnChunkY, x, y) in {GRASS, TREE};
      ChunkTallyCountsCell(w.noise, spawnChunkX, spawnChunkY, rolls, x, y);
    }
  }

  // ----- Power-ups -----

  /**
   * A power-up as a round places it: in the chosen chunk, in the ring (100, 400) around the player
   * at (px, py), as the spawner leaves it, and clear of every active power-up of `others` by more
   * than two cells.
   */
  ghost predicate PowerupPlaced(u: Powerup, others: seq<Powerup>, spawnChunkX: int, spawnChunkY: int, px: int, py: int)
  {
    && InChunk(u.x, u.y, spawnChunkX, spawnChunkY)
    && InRing(u.x, u.y, px, py, 100, 400)
    && u.active
    && forall k :: 0 <= k < |others| ==> !PowerupBlocks(u.x, u.y)(others[k])
  }

  /** A power-up a top-up loop leaves: as the spawner leaves it, in the ring, within two chunks of (pcx, pcy). */
  ghost predicate PowerupNear(u: Powerup, pcx: int, pcy: int, px: int, py: int)
  {
    && u.active
    && InRing(u.x, u.y, px, py, 100, 400)
    && Abs(u.x / CHUNK_SIZE - pcx) <= 2 && Abs(u.y / CHUNK_SIZE - pcy) <= 2
  }

  /** `o` does not block a power-up on the cell of `u`. */
  function PowerupClear(): (Powerup, Powerup) -> bool
  {
    (u: Powerup, o: Powerup) => !PowerupBlocks(u.x, u.y)(o)
  }

  /** A power-up placed in a chunk within two of (pcx, pcy) is near that chunk, and clear of `others`. */
  lemma PowerupPlacedNear(u: Powerup, others: seq<Powerup>, spawnChunkX: int, spawnChunkY: int, pcx: int, pcy: int, px: int, py: int)
    requires PowerupPlaced(u, others, spawnChunkX, spawnChunkY, px, py)
    requires Abs(spawnChunkX - pcx) <= 2 && Abs(spawnChunkY - pcy) <= 2
    ensures PowerupNear(u, pcx, pcy, px, py)
    ensures forall k :: 0 <= k < |others| ==> PowerupClear()(u, others[k])
  {
    InChunkNear(u.x, u.y, spawnChunkX, spawnChunkY, pcx, pcy);
  }

  /**
   * The ten attempts of one round of `ensureNearbyPowerups`: ring (100, 400), no active power-up
   * within two cells, random type.
   */
  method PlacePowerup(w: GameState, spawnChunkX: int, spawnChunkY: int) returns (placed: bool)
    requires w.Shape() && w.powerupCount < MAX_POWERUPS
    modifies w, w.powerups
    ensures w.Shape()
    ensures w.player == old(w.player) && w.projectileCount == old(w.projectileCount)
    ensures w.loadedChunkCount == old(w.loadedChunkCount)
    ensures CountsOf(w) == old(CountsOf(w)).(powerups := old(w.powerupCount) + (if placed then 1 else 0))
    ensures w.powerups[..old(w.powerupCount)] == old(w.powerups[..w.powerupCount])
    ensures placed ==> PowerupPlaced(w.powerups[old(w.powerupCount)], old(w.powerups[..w.powerupCount]), spawnChunkX, spawnChunkY,
                                     w.player.x, w.player.y)
  {
    placed := false;
    var worldX, worldY := 0, 0;
    var attempts := 0;
    while attempts < 10 && !placed
      invariant placed ==> && InChunk(worldX, worldY, spawnChunkX, spawnChunkY)
                           && InRing(worldX, worldY, w.player.x, w.player.y, 100, 400)
                           && forall k :: 0 <= k < w.powerupCount ==> !PowerupBlocks(worldX, worldY)(w.powerups[k])
      modifies {}
    {
      var x, y := RandomCell(spawnChunkX, spawnChunkY);
      if InRing(x, y, w.player.x, w.player.y, 100, 400) {
        var free := NoneWhere(w.powerups, w.powerupCount, PowerupBlocks(x, y));
        if free {
          placed := true;
          worldX, worldY := x, y;
        }
      }
      attempts := attempts + 1;
    }
    ghost var before := w.powerups[..w.powerupCount];
    if placed {
      var kind := RandMod(POWERUP_COUNT);
      w.powerups[w.powerupCount] := w.powerups[w.powerupCount].(x := worldX, y := worldY,
                                                                kind := PowerupTypeOf(kind), active := true);
      w.powerupCount := w.powerupCount + 1;
      assert w.powerups[..w.powerupCount - 1] == before;
    }
  }

  /**
   * One round of the top-up loop: load a random chunk within two of the player's, then try to
   * place, but only while the loading has left room, so a placed power-up always lands inside the
   * array. The ghost results describe the loading as `LoadChunk` does: `evicted` is the chunk slot
   * it unloaded (negative when none), `kept` the live power-ups after that unloading, `rolls` the
   * draws of the generated cells, and `loaded` the live power-ups the generation left, which grew
   * from `kept` by the chunk's own power-ups only. A placed power-up is appended to `loaded`.
   */
  method PowerupRound(w: GameState, playerChunkX: int, playerChunkY: int, now: int)
    returns (placed: bool, spawnChunkX: int, spawnChunkY: int,
             ghost evicted: int, ghost kept: seq<Powerup>, ghost rolls: seq<seq<nat>>, ghost loaded: seq<Powerup>)
    requires w.Valid()
    modifies w, w.monsters, w.powerups, w.landmines, w.loadedChunks
    ensures w.Valid()
    ensures w.player == old(w.player) && w.projectileCount == old(w.projectileCount)
    ensures Abs(spawnChunkX - playerChunkX) <= 2 && Abs(spawnChunkY - playerChunkY) <= 2
    ensures FindChunk(w.Chunks(), spawnChunkX, spawnChunkY) >= 0
    ensures evicted >= 0 <==> old(FindChunk(w.Chunks(), spawnChunkX, spawnChunkY)) < 0 && old(w.loadedChunkCount) == MAX_LOADED_CHUNKS
    ensures evicted < 0 ==> kept == old(w.powerups[..w.powerupCount])
    ensures evicted >= 0 ==> IsOldest(old(w.Chunks()), evicted)
    ensures evicted >= 0 ==>
      KeptExactly(multiset(kept), old(multiset(w.powerups[..w.powerupCount])),
                  PowerupFarIn(old(w.loadedChunks[evicted].chunkX), old(w.loadedChunks[evicted].chunkY), w.player.x, w.player.y))
    ensures |rolls| == (if old(FindChunk(w.Chunks(), spawnChunkX, spawnChunkY)) < 0 then CHUNK_SIZE else 0) && Draws(rolls)
    ensures |kept| <= MAX_POWERUPS && |loaded| == Capped(|kept|, ChunkTally(w.noise, spawnChunkX, spawnChunkY, rolls).powerups, MAX_POWERUPS)
    ensures Appended(kept, loaded, ChunkPowerups(w.noise, spawnChunkX, spawnChunkY))
    ensures w.powerupCount == |loaded| + (if placed then 1 else 0)
    ensures w.powerups[..|loaded|] == loaded
    ensures placed ==> PowerupPlaced(w.powerups[|loaded|], loaded, spawnChunkX, spawnChunkY, w.player.x, w.player.y)
  {
    var offsetX := RandomOffset();
    var offsetY := RandomOffset();
    spawnChunkX := playerChunkX + offsetX;
    spawnChunkY := playerChunkY + offsetY;
    ghost var ms, us, ls;
    evicted, ms, us, ls, rolls := LoadChunk(w, spawnChunkX, spawnChunkY, now);
    kept := us;
    loaded := w.powerups[..w.powerupCount];
    placed := false;
    if w.powerupCount < MAX_POWERUPS {
      placed := PlacePowerup(w, spawnChunkX, spawnChunkY);
    }
  }

  /**
   * One pass of the body of `ensureNearbyPowerups`: a round, and what the loop records of it. The
   * placed power-up, if any, is the one element of `extra` and lies in the ring within two chunks
   * of the player's; when the round evicted nothing, the live power-ups that had grown from `start`
   * by `placed` have grown from it by `placed + extra`.
   */
  method PowerupTopUp(w: GameState, playerChunkX: int, playerChunkY: int, now: int,
                 ghost start: seq<Powerup>, ghost placed: seq<Powerup>)
    returns (placedOne: bool, ghost evicted: int, ghost extra: seq<Powerup>)
    requires w.Valid()
    modifies w, w.monsters, w.powerups, w.landmines, w.loadedChunks
    ensures w.Valid()
    ensures w.player == old(w.player) && w.projectileCount == old(w.projectileCount)
    ensures |extra| == (if placedOne then 1 else 0)
    ensures forall k :: 0 <= k < |extra| ==> PowerupNear(extra[k], playerChunkX, playerChunkY, w.player.x, w.player.y)
    ensures evicted < 0 && old(GrewFrom(start, placed, w.powerups[..w.powerupCount])) ==> GrewFrom(start, placed + extra, w.powerups[..w.powerupCount])
    ensures evicted < 0 && old(GrewFrom(start, placed, w.powerups[..w.powerupCount])) && Apart(start, placed, PowerupClear()) ==>
      Apart(start, placed + extra, PowerupClear())
  {
    ghost var before := w.powerups[..w.powerupCount];
    var spawnChunkX, spawnChunkY;
    ghost var kept, rolls, loaded;
    placedOne, spawnChunkX, spawnChunkY, evicted, kept, rolls, loaded := PowerupRound(w, playerChunkX, playerChunkY, now);
    extra := if placedOne then [w.powerups[|loaded|]] else [];
    if placedOne {
      PowerupPlacedNear(w.powerups[|loaded|], loaded, spawnChunkX, spawnChunkY, playerChunkX, playerChunkY, w.player.x, w.player.y);
    }
    if evicted < 0 && GrewFrom(start, placed, before) {
      RoundGrows(start, placed, kept, loaded, ChunkPowerups(w.noise, spawnChunkX, spawnChunkY), w.powerups[..], w.powerupCount, placedOne, extra);
      if Apart(start, placed, PowerupClear()) {
        ApartGrows(start, placed, kept, loaded, ChunkPowerups(w.noise, spawnChunkX, spawnChunkY), PowerupClear(), extra);
      }
    }
  }

  /**
   * `ensureNearbyPowerups`, for at most `fuel` rounds; the target is 5. Each round loads a chunk
   * within two of the player's and tries to place one power-up there; the loading can itself fill
   * the array, so the placement is attempted only while there is still room. The ghost result
   * `placed` lists the power-ups placed, in order: the count of nearby power-ups grows by exactly
   * their number, and each lies in the ring around the player within two chunks of the player's.
   * `evictions` counts the rounds whose loading unloaded a chunk; when there were none, the live
   * power-ups kept their first entries and grew by at least the placed ones.
   */
  method EnsureNearbyPowerups(w: GameState, now: int, fuel: nat)
    returns (nearby: nat, rounds: nat, ghost placed: seq<Powerup>, ghost evictions: nat)
    requires w.Valid()
    modifies w, w.monsters, w.powerups, w.landmines, w.loadedChunks
    ensures w.Valid()
    ensures w.player == old(w.player) && w.projectileCount == old(w.projectileCount)
    ensures nearby == old(CountIf(w.powerups[..w.powerupCount],
                                  NearbyPowerups(CDiv(w.player.x, CHUNK_SIZE), CDiv(w.player.y, CHUNK_SIZE)))) + |placed|
    ensures forall k :: 0 <= k < |placed| ==>
      PowerupNear(placed[k], CDiv(w.player.x, CHUNK_SIZE), CDiv(w.player.y, CHUNK_SIZE), w.player.x, w.player.y)
    ensures rounds <= fuel && |placed| <= rounds && evictions <= rounds
    ensures rounds < fuel ==> nearby >= POWERUP_TARGET || w.powerupCount == MAX_POWERUPS
    ensures evictions == 0 ==> GrewFrom(old(w.powerups[..w.powerupCount]), placed, w.powerups[..w.powerupCount])
    ensures evictions == 0 ==> Apart(old(w.powerups[..w.powerupCount]), placed, PowerupClear())
  {
    var playerChunkX := CDiv(w.player.x, CHUNK_SIZE);
    var playerChunkY := CDiv(w.player.y, CHUNK_SIZE);
    nearby := CountWhere(w.powerups, w.powerupCount, NearbyPowerups(playerChunkX, playerChunkY));
    ghost var initial := nearby;
    ghost var start := w.powerups[..w.powerupCount];
    placed := [];
    rounds := 0;
    evictions := 0;
    while nearby < POWERUP_TARGET && w.powerupCount < MAX_POWERUPS && rounds < fuel
      invariant w.Valid()
      invariant w.player == old(w.player) && w.projectileCount == old(w.projectileCount)
      invariant nearby == initial + |placed| && |placed| <= rounds <= fuel && evictions <= rounds
      invariant forall k :: 0 <= k < |placed| ==> PowerupNear(placed[k], playerChunkX, playerChunkY, w.player.x, w.player.y)
      invariant evictions == 0 ==> GrewFrom(start, placed, w.powerups[..w.powerupCount])
      invariant evictions == 0 ==> Apart(start, placed, PowerupClear())
      decreases fuel - rounds
    {
      var placedOne;
      ghost var evicted, extra;
      placedOne, evicted, extra := PowerupTopUp(w, playerChunkX, playerChunkY, now, start, placed);
      if placedOne {
        nearby := nearby + 1;
      }
      evictions := if evicted >= 0 then evictions + 1 else evictions;
      placed := placed + extra;
      rounds := rounds + 1;
    }
  }

  /**
   * One round of `ensureNearbyPowerups` as src/world.c writes it, up to the store: the loop guard
   * has seen `powerupCount < MAX_POWERUPS`, the chosen chunk is loaded, and the store goes to index
   * `powerupCount` as the loading left it, with no second check; `slot` is that index. When the
   * chunk was not loaded and the table had room, the loading appended one power-up per mountain
   * cell that drew below 2, as far as there was room; so with one free slot at the guard and one
   * such cell the store lands at index 50, one past the end of the array.
   */
  method PowerupRoundAsWritten(w: GameState, playerChunkX: int, playerChunkY: int, now: int)
    returns (slot: nat, spawnChunkX: int, spawnChunkY: int, ghost rolls: seq<seq<nat>>)
    requires w.Valid() && w.powerupCount < MAX_POWERUPS
    modifies w, w.monsters, w.powerups, w.landmines, w.loadedChunks
    ensures w.Valid()
    ensures slot == w.powerupCount
    ensures old(FindChunk(w.Chunks(), spawnChunkX, spawnChunkY)) < 0 && old(w.loadedChunkCount) < MAX_LOADED_CHUNKS ==>
      && |rolls| == CHUNK_SIZE
      && slot == Capped(old(w.powerupCount), ChunkTally(w.noise, spawnChunkX, spawnChunkY, rolls).powerups, MAX_POWERUPS)
    ensures && old(w.powerupCount) == MAX_POWERUPS - 1
            && old(FindChunk(w.Chunks(), spawnChunkX, spawnChunkY)) < 0 && old(w.loadedChunkCount) < MAX_LOADED_CHUNKS
            && (exists x, y :: 0 <= x < |rolls| && 0 <= y < |rolls[x]| && rolls[x][y] < 2
                               && CellKind(w.noise, spawnChunkX, spawnChunkY, x, y) == MOUNTAIN)
            ==> slot == MAX_POWERUPS
  {
    var offsetX := RandomOffset();
    var offsetY := RandomOffset();
    spawnChunkX := playerChunkX + offsetX;
    spawnChunkY := playerChunkY + offsetY;
    var _, _, _, _, r := LoadChunk(w, spawnChunkX, spawnChunkY, now);
    rolls := r;
    slot := w.powerupCount;
    if exists x, y :: 0 <= x < |rolls| && 0 <= y < |rolls[x]| && rolls[x][y] < 2
                      && CellKind(w.noise, spawnChunkX, spawnChunkY, x, y) == MOUNTAIN {
      var x, y :| 0 <= x < |rolls| && 0 <= y < |rolls[x]| && rolls[x][y] < 2
                  && CellKind(w.noise, spawnChunkX, spawnChunkY, x, y) == MOUNTAIN;
      ChunkTallyCountsCell(w.noise, spawnChunkX, spawnChunkY, rolls, x, y);
    }
  }

  // ----- Landmines -----

  /**
   * A landmine as a round places it: in the chosen chunk, in the ring (150, 500) around the player
   * at (px, py), as the spawner leaves it, and clear of every active landmine of `others` by more
   * than three cells.
   */
  ghost predicate LandminePlaced(l: Landmine, others: seq<Landmine>, spawnChunkX: int, spawnChunkY: int, px: int, py: int)
  {
    && InChunk(l.x, l.y, spawnChunkX, spawnChunkY)
    && InRing(l.x, l.y, px, py, 150, 500)
    && FreshLandmine(l)
    && forall k :: 0 <= k < |others| ==> !LandmineBlocks(l.x, l.y)(others[k])
  }

  /** A landmine a top-up loop leaves: as the spawner leaves it, in the ring, within two chunks of (pcx, pcy). */
  ghost predicate LandmineNear(l: Landmine, pcx: int, pcy: int, px: int, py: int)
  {
    && FreshLandmine(l)
    && InRing(l.x, l.y, px, py, 150, 500)
    && Abs(l.x / CHUNK_SIZE - pcx) <= 2 && Abs(l.y / CHUNK_SIZE - pcy) <= 2
  }

  /** `o` does not block a landmine on the cell of `l`. */
  function LandmineClear(): (Landmine, Landmine) -> bool
  {
    (l: Landmine, o: Landmine) => !LandmineBlocks(l.x, l.y)(o)
  }

  /** A landmine placed in a chunk within two of (pcx, pcy) is near that chunk, and clear of `others`. */
  lemma LandminePlacedNear(l: Landmine, others: seq<Landmine>, spawnChunkX: int, spawnChunkY: int, pcx: int, pcy: int, px: int, py: int)
    requires LandminePlaced(l, others, spawnChunkX, spawnChunkY, px, py)
    requires Abs(spawnChunkX - pcx) <= 2 && Abs(spawnChunkY - pcy) <= 2
    ensures LandmineNear(l, pcx, pcy, px, py)
    ensures forall k :: 0 <= k < |others| ==> LandmineClear()(l, others[k])
  {
    InChunkNear(l.x, l.y, spawnChunkX, spawnChunkY, pcx, pcy);
  }

  /**
   * The ten attempts of one round of `ensureNearbyLandmines`: ring (150, 500), no active landmine
   * within three cells, damage 15..24.
   */
  method PlaceLandmine(w: GameState, spawnChunkX: int, spawnChunkY: int) returns (placed: bool)
    requires w.Shape() && w.landmineCount < MAX_LANDMINES
    modifies w, w.landmines
    ensures w.Shape()
    ensures w.player == old(w.player) && w.projectileCount == old(w.projectileCount)
    ensures w.loadedChunkCount == old(w.loadedChunkCount)
    ensures CountsOf(w) == old(CountsOf(w)).(landmines := old(w.landmineCount) + (if placed then 1 else 0))
    ensures w.landmines[..old(w.landmineCount)] == old(w.landmines[..w.landmineCount])
    ensures placed ==> LandminePlaced(w.landmines[old(w.landmineCount)], old(w.landmines[..w.landmineCount]), spawnChunkX, spawnChunkY,
                                     w.player.x, w.player.y)
  {
    placed := false;
    var worldX, worldY := 0, 0;
    var attempts := 0;
    while attempts < 10 && !placed
      invariant placed ==> && InChunk(worldX, worldY, spawnChunkX, spawnChunkY)
                           && InRing(worldX, worldY, w.player.x, w.player.y, 150, 500)
                           && forall k :: 0 <= k < w.landmineCount ==> !LandmineBlocks(worldX, worldY)(w.landmines[k])
      modifies {}
    {
      var x, y := RandomCell(spawnChunkX, spawnChunkY);
      if InRing(x, y, w.player.x, w.player.y, 150, 500) {
        var free := NoneWhere(w.landmines, w.landmineCount, LandmineBlocks(x, y));
        if free {
          placed := true;
          worldX, worldY := x, y;
        }
      }
      attempts := attempts + 1;
    }
    ghost var before := w.landmines[..w.landmineCount];
    if placed {
      var damage := RandMod(10);
      w.landmines[w.landmineCount] := w.landmines[w.landmineCount].(x := worldX, y := worldY,
                                                                    damage := 15 + damage, active := true);
      w.landmineCount := w.landmineCount + 1;
      assert w.landmines[..w.landmineCount - 1] == before;
    }
  }

  /**
   * One round of the top-up loop: load a random chunk within two of the player's, then try to
   * place, but only while the loading has left room, so a placed landmine always lands inside the
   * array. The ghost results describe the loading as `LoadChunk` does: `evicted` is the chunk slot
   * it unloaded (negative when none), `kept` the live landmines after that unloading, `rolls` the
   * draws of the generated cells, and `loaded` the live landmines the generation left, which grew
   * from `kept` by the chunk's own landmines only. A placed landmine is appended to `loaded`.
   */
  method LandmineRound(w: GameState, playerChunkX: int, playerChunkY: int, now: int)
    returns (placed: bool, spawnChunkX: int, spawnChunkY: int,
             ghost evicted: int, ghost kept: seq<Landmine>, ghost rolls: seq<seq<nat>>, ghost loaded: seq<Landmine>)
    requires w.Valid()
    modifies w, w.monsters, w.powerups, w.landmines, w.loadedChunks
    ensures w.Valid()
    ensures w.player == old(w.player) && w.projectileCount == old(w.projectileCount)
    ensures Abs(spawnChunkX - playerChunkX) <= 2 && Abs(spawnChunkY - playerChunkY) <= 2
    ensures FindChunk(w.Chunks(), spawnChunkX, spawnChunkY) >= 0
    ensures evicted >= 0 <==> old(FindChunk(w.Chunks(), spawnChunkX, spawnChunkY)) < 0 && old(w.loadedChunkCount) == MAX_LOADED_CHUNKS
    ensures evicted < 0 ==> kept == old(w.landmines[..w.landmineCount])
    ensures evicted >= 0 ==> IsOldest(old(w.Chunks()), evicted)
    ensures evicted >= 0 ==>
      KeptExactly(multiset(kept), old(multiset(w.landmines[..w.landmineCount])),
                  LandmineFarIn(old(w.loadedChunks[evicted].chunkX), old(w.loadedChunks[evicted].chunkY), w.player.x, w.player.y))
    ensures |rolls| == (if old(FindChunk(w.Chunks(), spawnChunkX, spawnChunkY)) < 0 then CHUNK_SIZE else 0) && Draws(rolls)
    ensures |kept| <= MAX_LANDMINES && |loaded| == Capped(|kept|, ChunkTally(w.noise, spawnChunkX, spawnChunkY, rolls).landmines, MAX_LANDMINES)
    ensures Appended(kept, loaded, ChunkLandmines(w.noise, spawnChunkX, spawnChunkY))
    ensures w.landmineCount == |loaded| + (if placed then 1 else 0)
    ensures w.landmines[..|loaded|] == loaded
    ensures placed ==> LandminePlaced(w.landmines[|loaded|], loaded, spawnChunkX, spawnChunkY, w.player.x, w.player.y)
  {
    var offsetX := RandomOffset();
    var offsetY := RandomOffset();
    spawnChunkX := playerChunkX + offsetX;
    spawnChunkY := playerChunkY + offsetY;
    ghost var ms, us, ls;
    evicted, ms, us, ls, rolls := LoadChunk(w, spawnChunkX, spawnChunkY, now);
    kept := ls;
    loaded := w.landmines[..w.landmineCount];
    placed := false;
    if w.landmineCount < MAX_LANDMINES {
      placed := PlaceLandmine(w, spawnChunkX, spawnChunkY);
    }
  }

  /**
   * One pass of the body of `ensureNearbyLandmines`: a round, and what the loop records of it. The
   * placed landmine, if any, is the one element of `extra` and lies in the ring within two chunks
   * of the player's; when the round evicted nothing, the live landmines that had grown from `start`
   * by `placed` have grown from it by `placed + extra`.
   */
  method LandmineTopUp(w: GameState, playerChunkX: int, playerChunkY: int, now: int,
                 ghost start: seq<Landmine>, ghost placed: seq<Landmine>)
    returns (placedOne: bool, ghost evicted: int, ghost extra: seq<Landmine>)
    requires w.Valid()
    modifies w, w.monsters, w.powerups, w.landmines, w.loadedChunks
    ensures w.Valid()
    ensures w.player == old(w.player) && w.projectileCount == old(w.projectileCount)
    ensures |extra| == (if placedOne then 1 else 0)
    ensures forall k :: 0 <= k < |extra| ==> LandmineNear(extra[k], playerChunkX, playerChunkY, w.player.x, w.player.y)
    ensures evicted < 0 && old(GrewFrom(start, placed, w.landmines[..w.landmineCount])) ==> GrewFrom(start, placed + extra, w.landmines[..w.landmineCount])
    ensures evicted < 0 && old(GrewFrom(start, placed, w.landmines[..w.landmineCount])) && Apart(start, placed, LandmineClear()) ==>
      Apart(start, placed + extra, LandmineClear())
  {
    ghost var before := w.landmines[..w.landmineCount];
    var spawnChunkX, spawnChunkY;
    ghost var kept, rolls, loaded;
    placedOne, spawnChunkX, spawnChunkY, evicted, kept, rolls, loaded := LandmineRound(w, playerChunkX, playerChunkY, now);
    extra := if placedOne then [w.landmines[|loaded|]] else [];
    if placedOne {
      LandminePlacedNear(w.landmines[|loaded|], loaded, spawnChunkX, spawnChunkY, playerChunkX, playerChunkY, w.player.x, w.player.y);
    }
    if evicted < 0 && GrewFrom(start, placed, before) {
      RoundGrows(start, placed, kept, loaded, ChunkLandmines(w.noise, spawnChunkX, spawnChunkY), w.landmines[..], w.landmineCount, placedOne, extra);
      if Apart(start, placed, LandmineClear()) {
        ApartGrows(start, placed, kept, loaded, ChunkLandmines(w.noise, spawnChunkX, spawnChunkY), LandmineClear(), extra);
      }
    }
  }

  /**
   * `ensureNearbyLandmines`, for at most `fuel` rounds; the target is 10. Each round loads a chunk
   * within two of the player's and tries to place one landmine there; the loading can itself fill
   * the array, so the placement is attempted only while there is still room. The ghost result
   * `placed` lists the landmines placed, in order: the count of nearby landmines grows by exactly
   * their number, and each lies in the ring around the player within two chunks of the player's.
   * `evictions` counts the rounds whose loading unloaded a chunk; when there were none, the live
   * landmines kept their first entries and grew by at least the placed ones.
   */
  method EnsureNearbyLandmines(w: GameState, now: int, fuel: nat)
    returns (nearby: nat, rounds: nat, ghost placed: seq<Landmine>, ghost evictions: nat)
    requires w.Valid()
    modifies w, w.monsters, w.powerups, w.landmines, w.loadedChunks
    ensures w.Valid()
    ensures w.player == old(w.player) && w.projectileCount == old(w.projectileCount)
    ensures nearby == old(CountIf(w.landmines[..w.landmineCount],
                                  NearbyLandmines(CDiv(w.player.x, CHUNK_SIZE), CDiv(w.player.y, CHUNK_SIZE)))) + |placed|
    ensures forall k :: 0 <= k < |placed| ==>
      LandmineNear(placed[k], CDiv(w.player.x, CHUNK_SIZE), CDiv(w.player.y, CHUNK_SIZE), w.player.x, w.player.y)
    ensures rounds <= fuel && |placed| <= rounds && evictions <= rounds
    ensures rounds < fuel ==> nearby >= LANDMINE_TARGET || w.landmineCount == MAX_LANDMINES
    ensures evictions == 0 ==> GrewFrom(old(w.landmines[..w.landmineCount]), placed, w.landmines[..w.landmineCount])
    ensures evictions == 0 ==> Apart(old(w.landmines[..w.landmineCount]), placed, LandmineClear())
  {
    var playerChunkX := CDiv(w.player.x, CHUNK_SIZE);
    var playerChunkY := CDiv(w.player.y, CHUNK_SIZE);
    nearby := CountWhere(w.landmines, w.landmineCount, NearbyLandmines(playerChunkX, playerChunkY));
    ghost var initial := nearby;
    ghost var start := w.landmines[..w.landmineCount];
    placed := [];
    rounds := 0;
    evictions := 0;
    while nearby < LANDMINE_TARGET && w.landmineCount < MAX_LANDMINES && rounds < fuel
      invariant w.Valid()
      invariant w.player == old(w.player) && w.projectileCount == old(w.projectileCount)
      invariant nearby == initial + |placed| && |placed| <= rounds <= fuel && evictions <= rounds
      invariant forall k :: 0 <= k < |placed| ==> LandmineNear(placed[k], playerChunkX, playerChunkY, w.player.x, w.player.y)
      invariant evictions == 0 ==> GrewFrom(start, placed, w.landmines[..w.landmineCount])
      invariant evictions == 0 ==> Apart(start, placed, LandmineClear())
      decreases fuel - rounds
    {
      var placedOne;
      ghost var evicted, extra;
      placedOne, evicted, extra := LandmineTopUp(w, playerChunkX, playerChunkY, now, start, placed);
      if placedOne {
        nearby := nearby + 1;
      }
      evictions := if evicted >= 0 then evictions + 1 else evictions;
      placed := placed + extra;
      rounds := rounds + 1;
    }
  }

  /**
   * One round of `ensureNearbyLandmines` as src/world.c writes it, up to the store: the loop guard
   * has seen `landmineCount < MAX_LANDMINES`, the chosen chunk is loaded, and the store goes to
   * index `landmineCount` as the loading left it, with no second check; `slot` is that index. When
   * the chunk was not loaded and the table had room, the loading appended one landmine per lake or
   * sea cell that drew below 2, as far as there was room; so with one free slot at the guard and
   * one such cell the store lands at index 100, one past the end of the array.
   */
  method LandmineRoundAsWritten(w: GameState, playerChunkX: int, playerChunkY: int, now: int)
    returns (slot: nat, spawnChunkX: int, spawnChunkY: int, ghost rolls: seq<seq<nat>>)
    requires w.Valid() && w.landmineCount < MAX_LANDMINES
    modifies w, w.monsters, w.powerups, w.landmines, w.loadedChunks
    ensures w.Valid()
    ensures slot == w.landmineCount
    ensures old(FindChunk(w.Chunks(), spawnChunkX, spawnChunkY)) < 0 && old(w.loadedChunkCount) < MAX_LOADED_CHUNKS ==>
      && |rolls| == CHUNK_SIZE
      && slot == Capped(old(w.landmineCount), ChunkTally(w.noise, spawnChunkX, spawnChunkY, rolls).landmines, MAX_LANDMINES)
    ensures && old(w.landmineCount) == MAX_LANDMINES - 1
            && old(FindChunk(w.Chunks(), spawnChunkX, spawnChunkY)) < 0 && old(w.loadedChunkCount) < MAX_LOADED_CHUNKS
            && (exists x, y :: 0 <= x < |rolls| && 0 <= y < |rolls[x]| && rolls[x][y] < 2
                               && CellKind(w.noise, spawnChunkX, spawnChunkY, x, y) in {LAKE, SEA})
            ==> slot == MAX_LANDMINES
  {
    var offsetX := RandomOffset();
    var offsetY := RandomOffset();
    spawnChunkX := playerChunkX + offsetX;
    spawnChunkY := playerChunkY + offsetY;
    var _, _, _, _, r := LoadChunk(w, spawnChunkX, spawnChunkY, now);
    rolls := r;
    slot := w.landmineCount;
    if exists x, y :: 0 <= x < |rolls| && 0 <= y < |rolls[x]| && rolls[x][y] < 2
                      && CellKind(w.noise, spawnChunkX, spawnChunkY, x, y) in {LAKE, SEA} {
      var x, y :| 0 <= x < |rolls| && 0 <= y < |rolls[x]| && rolls[x][y] < 2
                  && CellKind(w.noise, spawnChunkX, spawnChunkY, x, y) in {LAKE, SEA};
      ChunkTallyCountsCell(w.noise, spawnChunkX, spawnChunkY, rolls, x, y);
    }
  }
}

=== FILE: player.dfy ===
/**
 * The player's per-tick update of src/player.c: status effects (stun, damage over time),
 * timers and cooldowns, movement from the held keys, and the four abilities (jump smash, rush,
 * heal, arrow).
 *
 * The keyboard is a parameter: `Keys` holds which movement keys and the space bar are held and
 * which ability keys were pressed this tick.
 */
module Player {
  import opened Types
  import opened Dense
  import opened State
  import opened Projectiles

  datatype Option<T> = None | Some(value: T)

  /** `up` is W or the up arrow, and so on; `one`, `two`, `three` are presses, `space` is held. */
  datatype Keys = Keys(up: bool, down: bool, left: bool, right: bool,
                       one: bool, two: bool, three: bool, space: bool)

  // ----- Status effects and timers -----

  /** The damage-over-time tick: the timer counts down, and each time it reaches a multiple of 60 the player burns. */
  function Burn(p: Character): (q: Character)
    ensures q == p.(dotTimer := q.dotTimer, health := q.health, alive := q.alive)
  {
    if p.dotTimer > 0 then
      var t := p.dotTimer - 1;
      if t % 60 == 0 then
        var h := p.health - p.dotDamage;
        p.(dotTimer := t, health := h, alive := if h <= 0 then false else p.alive)
      else p.(dotTimer := t)
    else p
  }

  /** A timer counting down to 0, where it stays. */
  function Down(t: int): int
  {
    if t > 0 then t - 1 else t
  }

  /** The status update of a player that is not stunned: burning, then every timer and cooldown counts down. */
  function Tick(p: Character): (q: Character)
    ensures q.x == p.x && q.y == p.y && q.stunTimer == p.stunTimer
  {
    Burn(p).(speedBoostTimer := Down(p.speedBoostTimer),
             jumpSmashCooldown := Down(p.jumpSmashCooldown), rushCooldown := Down(p.rushCooldown),
             healCooldown := Down(p.healCooldown), arrowCooldown := Down(p.arrowCooldown),
             movementCooldown := Down(p.movementCooldown),
             invulnerabilityTimer := Down(p.invulnerabilityTimer))
  }

  /** Every timer that `Tick` counts down drops by one while positive and never goes below 0 from 0. */
  lemma TickSaturates(p: Character)
    ensures var q := Tick(p);
      && (p.movementCooldown >= 0 ==> q.movementCooldown == Max(p.movementCooldown - 1, 0))
      && (p.invulnerabilityTimer >= 0 ==> q.invulnerabilityTimer == Max(p.invulnerabilityTimer - 1, 0))
      && (p.arrowCooldown >= 0 ==> q.arrowCooldown == Max(p.arrowCooldown - 1, 0))
      && (p.dotTimer >= 0 ==> q.dotTimer == Max(p.dotTimer - 1, 0))
  {
  }

  /** n ticks of burning. */
  function Burning(p: Character, n: nat): Character
  {
    if n == 0 then p else Burn(Burning(p, n - 1))
  }

  /**
   * While the damage-over-time timer runs down from t over n ticks, the player burns once for
   * each multiple of 60 the timer passes through on the way to t - n.
   */
  lemma {:induction false} BurnSchedule(p: Character, n: nat)
    requires n <= p.dotTimer
    ensures Burning(p, n).dotTimer == p.dotTimer - n
    ensures Burning(p, n).dotDamage == p.dotDamage
    ensures Burning(p, n).health == p.health - p.dotDamage * ((p.dotTimer - 1) / 60 - (p.dotTimer - n - 1) / 60)
  {
    if n > 0 {
      BurnSchedule(p, n - 1);
      var t := p.dotTimer - n;
      var hits := (p.dotTimer - 1) / 60 - (p.dotTimer - n) / 60;
      assert (t - 1) / 60 == if t % 60 == 0 then t / 60 - 1 else t / 60;
      assert t / 60 == (p.dotTimer - n) / 60;
      var more := if t % 60 == 0 then 1 else 0;
      assert (p.dotTimer - 1) / 60 - (t - 1) / 60 == hits + more;
      assert p.dotDamage * (hits + more) == p.dotDamage * hits + p.dotDamage * more;
    }
  }

  /** A fireball's damage over time, 180 ticks long, burns exactly three times. */
  lemma FireballBurnsThrice(p: Character)
    requires p.dotTimer == 180
    ensures Burning(p, 180).health == p.health - 3 * p.dotDamage && Burning(p, 180).dotTimer == 0
  {
    BurnSchedule(p, 180);
  }

  // ----- Movement -----

  /** The cells moved per held key: the speed, doubled by a speed power-up and again by a rush. */
  function Stride(p: Character): int
  {
    p.speed * (if p.speedBoostTimer > 0 then 2 * p.speedMultiplier else p.speedMultiplier)
  }

  function B(b: bool): int
  {
    if b then 1 else 0
  }

  /**
   * The movement part of the update: the intended direction from the keys (the later key of a
   * pair wins, no key keeps the last direction), one stride per held key in the order up, down,
   * left, right, the last of which sets the last direction, and a cooldown if anything moved.
   */
  function Steer(p: Character, keys: Keys): (q: Character)
  {
    var ix := if keys.right then 1 else if keys.left then -1 else 0;
    var iy := if keys.down then 1 else if keys.up then -1 else 0;
    var (ix', iy') := if ix == 0 && iy == 0 then (p.lastDirX, p.lastDirY) else (ix, iy);
    var step := Stride(p);
    var (lx, ly) :=
      if keys.right then (1, 0) else if keys.left then (-1, 0)
      else if keys.down then (0, 1) else if keys.up then (0, -1) else (p.lastDirX, p.lastDirY);
    var moved := keys.up || keys.down || keys.left || keys.right;
    p.(intendedDirX := ix', intendedDirY := iy',
       x := p.x - step * B(keys.left) + step * B(keys.right),
       y := p.y - step * B(keys.up) + step * B(keys.down),
       lastDirX := lx, lastDirY := ly,
       movementCooldown := if moved then (if p.isInCombat then 12 else 6) else p.movementCooldown)
  }

  /**
   * Opposite keys cancel: holding up and down together leaves the row unchanged, left and right
   * the column; each lone key moves one stride; and a move starts the cooldown.
   */
  lemma SteerDisplacement(p: Character, keys: Keys)
    ensures var q := Steer(p, keys);
      && q.x - p.x == Stride(p) * (B(keys.right) - B(keys.left))
      && q.y - p.y == Stride(p) * (B(keys.down) - B(keys.up))
      && (keys.up && keys.down ==> q.y == p.y)
      && (keys.left && keys.right ==> q.x == p.x)
      && ((keys.up || keys.down || keys.left || keys.right) ==> q.movementCooldown > 0)
  {
  }

  // ----- Abilities -----

  /** The direction of an ability: the intended one, or up if there is none. */
  function Aim(p: Character): (int, int)
  {
    if p.intendedDirX == 0 && p.intendedDirY == 0 then (0, -1) else (p.intendedDirX, p.intendedDirY)
  }

  /** A monster hit by a jump smash landing at (x, y) with the player's power. */
  function Smashed(m: Character, x: int, y: int, power: int): (r: Character)
  {
    if m.alive && SqDist(m.x, m.y, x, y) <= 4 then
      var h := m.health - power * 2;
      m.(health := h, alive := h > 0)
    else m
  }

  /** The monsters a smash at (x, y) kills. */
  function Kills(x: int, y: int, power: int): Character -> bool
  {
    (m: Character) => m.alive && SqDist(m.x, m.y, x, y) <= 4 && m.health - power * 2 <= 0
  }

  /** The landing cell of a jump smash: three cells along the aim. */
  function Landing(p: Character): (int, int)
  {
    (p.x + Aim(p).0 * 3, p.y + Aim(p).1 * 3)
  }

  /**
   * The jump smash: the player lands three cells along its aim, every alive monster within
   * distance 2 of the landing loses twice the player's power, each one killed is worth ten
   * experience points (without a level-up check), and the ability cools down for 180 ticks.
   */
  function Smash(p: Character, ms: seq<Character>): (r: (Character, seq<Character>))
    ensures |r.1| == |ms|
  {
    var (x, y) := Landing(p);
    (p.(x := x, y := y, experience := p.experience + 10 * CountIf(ms, Kills(x, y, p.power)),
        jumpSmashCooldown := 180),
     seq(|ms|, k requires 0 <= k < |ms| => Smashed(ms[k], x, y, p.power)))
  }

  /** A smash kills exactly the monsters it is credited for, and never levels the player up. */
  lemma SmashCredits(p: Character, ms: seq<Character>)
    ensures var (q, ms') := Smash(p, ms);
      && q.level == p.level && q.experienceToNext == p.experienceToNext
      && q.experience == p.experience + 10 * CountIf(ms, Kills(Landing(p).0, Landing(p).1, p.power))
      && forall k :: 0 <= k < |ms| ==> (ms[k].alive && !ms'[k].alive <==> Kills(q.x, q.y, p.power)(ms[k]))
  {
  }

  /** The rush: 180 ticks of double stride, then 600 ticks of cooldown. */
  function Rush(p: Character): Character
  {
    p.(speedBoostTimer := 180, rushCooldown := 600)
  }

  /** The heal: back to full health, then 1800 ticks of cooldown. */
  function Heal(p: Character): Character
  {
    p.(health := p.maxHealth, healCooldown := 1800)
  }

  /** The arrow: a kind-2 projectile from the player along its aim, with half the player's power. */
  function Arrow(p: Character): Projectile
  {
    Launched(p.x, p.y, Aim(p).0, Aim(p).1, 2, CDiv(p.power, 2))
  }

  /** The player, the monsters after a smash, and the arrow shot, if any. */
  datatype Outcome = Outcome(player: Character, monsters: seq<Character>, arrow: Option<Projectile>)

  /**
   * `updatePlayer`: a stunned player only counts its stun down; otherwise the status effects and
   * timers advance, and unless movement is still cooling down the keys move the player and
   * trigger the abilities that are ready, in the order smash, rush, heal, arrow.
   */
  function Act(p: Character, ms: seq<Character>, keys: Keys): (r: Outcome)
    ensures |r.monsters| == |ms|
  {
    if p.stunTimer > 0 then Outcome(p.(stunTimer := p.stunTimer - 1), ms, None)
    else
      var t := Tick(p);
      if t.movementCooldown > 0 then Outcome(t, ms, None)
      else Perform(Steer(t, keys), ms, keys)
  }

  /** The abilities that are ready and pressed, in the order smash, rush, heal, arrow. */
  function Perform(s: Character, ms: seq<Character>, keys: Keys): (r: Outcome)
    ensures |r.monsters| == |ms|
  {
    var (j, ms') := if keys.one && s.jumpSmashCooldown <= 0 then Smash(s, ms) else (s, ms);
    var r := if keys.two && j.rushCooldown <= 0 then Rush(j) else j;
    var h := if keys.three && r.healCooldown <= 0 then Heal(r) else r;
    if keys.space && h.arrowCooldown <= 0 then Outcome(h.(arrowCooldown := 60), ms', Some(Arrow(h)))
    else Outcome(h, ms', None)
  }

  /** A stunned player does nothing at all but count the stun down: no burning, no cooldowns, no move. */
  lemma StunFreezes(p: Character, ms: seq<Character>, keys: Keys)
    requires p.stunTimer > 0
    ensures Act(p, ms, keys) == Outcome(p.(stunTimer := p.stunTimer - 1), ms, None)
  {
  }

  /**
   * While movement cools down the keys are ignored entirely, abilities included: the player
   * stays on its cell, no monster is touched and no arrow is shot.
   */
  lemma CooldownBlocksAbilities(p: Character, ms: seq<Character>, keys: Keys)
    requires p.stunTimer <= 0 && p.movementCooldown > 1
    ensures var r := Act(p, ms, keys);
      r.player.x == p.x && r.player.y == p.y && r.monsters == ms && r.arrow == None
  {
  }

  /** A ready heal restores full health, whatever else is pressed. */
  lemma HealRestores(p: Character, ms: seq<Character>, keys: Keys)
    requires p.stunTimer <= 0 && Tick(p).movementCooldown <= 0 && keys.three && p.healCooldown <= 1
    ensures Act(p, ms, keys).player.health == Act(p, ms, keys).player.maxHealth
    ensures Act(p, ms, keys).player.healCooldown == 1800
  {
  }

  // ----- The method -----

  /** The smash loop over the monsters around (x, y): the monsters hit, and the number killed. */
  method SmashMonsters(w: GameState, x: int, y: int, power: int) returns (killed: nat)
    requires w.Shape()
    modifies w.monsters
    ensures forall k :: 0 <= k < w.monsterCount ==> w.monsters[k] == Smashed(old(w.monsters[k]), x, y, power)
    ensures killed == CountIf(old(w.monsters[..w.monsterCount]), Kills(x, y, power))
  {
    ghost var ms := w.monsters[..w.monsterCount];
    killed := 0;
    for i := 0 to w.monsterCount
      invariant killed == CountIf(ms[..i], Kills(x, y, power))
      invariant forall k :: 0 <= k < i ==> w.monsters[k] == Smashed(ms[k], x, y, power)
      invariant forall k :: i <= k < w.monsterCount ==> w.monsters[k] == ms[k]
    {
      CountIfSnoc(ms, i, Kills(x, y, power));
      var m := w.monsters[i];
      var hit := Smashed(m, x, y, power);
      if m.alive && !hit.alive {
        killed := killed + 1;
      }
      w.monsters[i] := hit;
    }
    assert ms[..w.monsterCount] == ms;
  }

  /** The jump smash of `updatePlayer`. */
  method JumpSmash(w: GameState)
    requires w.Shape()
    modifies w, w.monsters
    ensures w.Shape()
    ensures unchanged(w`monsterCount, w`powerupCount, w`landmineCount, w`projectileCount, w`loadedChunkCount)
    ensures (w.player, w.monsters[..w.monsterCount]) == Smash(old(w.player), old(w.monsters[..w.monsterCount]))
  {
    ghost var p0, ms := w.player, w.monsters[..w.monsterCount];
    var (x, y) := Landing(w.player);
    var power := w.player.power;
    var killed := SmashMonsters(w, x, y, power);
    w.player := w.player.(x := x, y := y, experience := w.player.experience + 10 * killed, jumpSmashCooldown := 180);
    ghost var smashed := seq(|ms|, k requires 0 <= k < |ms| => Smashed(ms[k], x, y, power));
    assert w.monsters[..w.monsterCount] == smashed;
    assert Smash(p0, ms) == (w.player, smashed);
  }

  /** The arrow of `updatePlayer`: pushed if the projectile array has room, and the bow cools down either way. */
  method ShootArrow(w: GameState)
    requires w.Shape()
    modifies w, w.projectiles
    ensures w.Shape()
    ensures unchanged(w`monsterCount, w`powerupCount, w`landmineCount, w`loadedChunkCount)
    ensures w.player == old(w.player).(arrowCooldown := 60)
    ensures if old(w.projectileCount) < MAX_PROJECTILES
      then w.projectiles[..w.projectileCount] == old(w.projectiles[..w.projectileCount]) + [Arrow(old(w.player))]
      else w.projectileCount == old(w.projectileCount) && w.projectiles[..w.projectileCount] == old(w.projectiles[..w.projectileCount])
  {
    var a := Arrow(w.player);
    SpawnProjectile(w, a.x, a.y, a.dx, a.dy, a.kind, a.damage);
    w.player := w.player.(arrowCooldown := 60);
  }

  /** Steering and the abilities of `updatePlayer`, against `Perform`. */
  method UseAbilities(w: GameState, keys: Keys)
    requires w.Shape()
    modifies w, w.monsters, w.projectiles
    ensures w.Shape()
    ensures unchanged(w`monsterCount, w`powerupCount, w`landmineCount, w`loadedChunkCount)
    ensures var r := Perform(old(w.player), old(w.monsters[..w.monsterCount]), keys);
      && w.player == r.player && w.monsters[..w.monsterCount] == r.monsters
      && (if r.arrow.Some? && old(w.projectileCount) < MAX_PROJECTILES
          then w.projectiles[..w.projectileCount] == old(w.projectiles[..w.projectileCount]) + [r.arrow.value]
          else w.projectileCount == old(w.projectileCount) && w.projectiles[..w.projectileCount] == old(w.projectiles[..w.projectileCount]))
  {
    ghost var p0, ms0 := w.player, w.monsters[..w.monsterCount];
    if keys.one && w.player.jumpSmashCooldown <= 0 {
      JumpSmash(w);
    }
    ghost var smashed := if keys.one && p0.jumpSmashCooldown <= 0 then Smash(p0, ms0) else (p0, ms0);
    assert w.player == smashed.0 && w.monsters[..w.monsterCount] == smashed.1;
    if keys.two && w.player.rushCooldown <= 0 {
      w.player := Rush(w.player);
    }
    if keys.three && w.player.healCooldown <= 0 {
      w.player := Heal(w.player);
    }
    if keys.space && w.player.arrowCooldown <= 0 {
      ShootArrow(w);
    }
  }

  /**
   * `updatePlayer` against `Act`: the player and the monsters become `Act`'s, and an arrow, when
   * shot, is pushed onto the projectile array if it has room.
   */
  method UpdatePlayer(w: GameState, keys: Keys)
    requires w.Shape()
    modifies w, w.monsters, w.projectiles
    ensures w.Shape()
    ensures unchanged(w`monsterCount, w`powerupCount, w`landmineCount, w`loadedChunkCount)
    ensures var r := Act(old(w.player), old(w.monsters[..w.monsterCount]), keys);
      && w.player == r.player && w.monsters[..w.monsterCount] == r.monsters
      && (if r.arrow.Some? && old(w.projectileCount) < MAX_PROJECTILES
          then w.projectiles[..w.projectileCount] == old(w.projectiles[..w.projectileCount]) + [r.arrow.value]
          else w.projectileCount == old(w.projectileCount) && w.projectiles[..w.projectileCount] == old(w.projectiles[..w.projectileCount]))
  {
    if w.player.stunTimer > 0 {
      w.player := w.player.(stunTimer := w.player.stunTimer - 1);
      return;
    }
    w.player := Tick(w.player);
    if w.player.movementCooldown > 0 {
      return;
    }
    w.player := Steer(w.player, keys);
    UseAbilities(w, keys);
  }
}

=== FILE: projectiles.dfy ===
/**
 * Projectiles of src/projectiles.c: launching one into the dense projectile array, and the
 * per-tick update that moves every live projectile, ends it at its maximum range, lets it hit
 * the player or the first monster it touches, despawns it beyond 50 cells of the player, and
 * compacts the array.
 *
 * Directions are integer vectors here (the source's are floats, see README); the distance a
 * projectile travels per tick is the truncated square root of its squared displacement, as in
 * the source.
 */
module Projectiles {
  import opened Types
  import opened Dense
  import opened State
  import opened Game

  /** Stun (lightning), damage over time (fireball), nothing (arrow). */
  const EFFECT_NONE: int := 0
  const EFFECT_STUN: int := 1
  const EFFECT_DOT: int := 2

  /** The effect a projectile kind carries: kind 0 stuns, kind 1 burns, every other kind has none. */
  function EffectOf(kind: int): int
  {
    if kind == 0 then EFFECT_STUN else if kind == 1 then EFFECT_DOT else EFFECT_NONE
  }

  /** The distance a projectile kind may travel: 200, 150, or 80 for any other kind. */
  function MaxRangeOf(kind: int): int
  {
    if kind == 0 then 200 else if kind == 1 then 150 else 80
  }

  /** A freshly launched projectile: alive, speed 2, nothing travelled yet. */
  function Launched(x: int, y: int, dx: int, dy: int, kind: int, damage: int): (p: Projectile)
    ensures p.alive && p.range == 0 && p.speed == 2
    ensures p.effect == EffectOf(kind) && p.maxRange == MaxRangeOf(kind)
    ensures p.x == x && p.y == y && p.dx == dx && p.dy == dy && p.kind == kind && p.damage == damage
  {
    Projectile(x, y, dx, dy, kind, true, damage, 2, EffectOf(kind), 0, MaxRangeOf(kind))
  }

  /**
   * `spawnProjectile`: with room, the projectile is pushed at the end of the live prefix;
   * with the array full, nothing happens.
   */
  method SpawnProjectile(w: GameState, x: int, y: int, dx: int, dy: int, kind: int, damage: int)
    requires w.Shape()
    modifies w, w.projectiles
    ensures w.Shape()
    ensures unchanged(w`player, w`monsterCount, w`powerupCount, w`landmineCount, w`loadedChunkCount)
    ensures old(w.projectileCount) >= MAX_PROJECTILES ==> w.projectileCount == old(w.projectileCount) && unchanged(w.projectiles)
    ensures old(w.projectileCount) < MAX_PROJECTILES ==>
      w.projectiles[..w.projectileCount] == old(w.projectiles[..w.projectileCount]) + [Launched(x, y, dx, dy, kind, damage)]
  {
    if w.projectileCount >= MAX_PROJECTILES {
      return;
    }
    w.projectiles[w.projectileCount] := Launched(x, y, dx, dy, kind, damage);
    w.projectileCount := w.projectileCount + 1;
  }

  // ----- One projectile -----

  /** The distance covered in one tick: `(int)sqrt(dx*dx*speed*speed + dy*dy*speed*speed)`. */
  function Step(p: Projectile): nat
  {
    IntSqrt(SqDist(p.dx * p.speed, p.dy * p.speed, 0, 0))
  }

  /** One tick of flight: moved by speed times its direction, range increased by the step. */
  function Fly(p: Projectile): (q: Projectile)
    ensures q == p.(x := q.x, y := q.y, range := q.range)
    ensures q.range == p.range + Step(p)
  {
    p.(x := p.x + p.dx * p.speed, y := p.y + p.dy * p.speed, range := p.range + Step(p))
  }

  /** Damage and the projectile's status effect applied to c. */
  function Afflict(c: Character, damage: int, effect: int): (r: Character)
    ensures r.health == c.health - damage && r.alive == c.alive && r.x == c.x && r.y == c.y
    ensures r.stunTimer == if effect == EFFECT_STUN then 60 else c.stunTimer
    ensures r.dotTimer == if effect == EFFECT_DOT then 180 else c.dotTimer
  {
    var h := c.(health := c.health - damage);
    if effect == EFFECT_STUN then h.(stunTimer := 60)
    else if effect == EFFECT_DOT then h.(dotTimer := 180, dotDamage := CDiv(damage, 3))
    else h
  }

  /** The player hit while vulnerable: damage and effect, then 60 ticks of invulnerability. */
  function Wound(p: Character, f: Projectile): Character
  {
    Afflict(p, f.damage, f.effect).(invulnerabilityTimer := 60)
  }

  /** A monster hit by f: damaged and affected, dead at or below zero health. */
  function Struck(m: Character, f: Projectile): (r: Character)
    ensures r.alive <==> m.alive && m.health - f.damage > 0
  {
    var a := Afflict(m, f.damage, f.effect);
    if a.health <= 0 then a.(alive := false) else a
  }

  /** The player credited with a monster's death, if the hit killed it. */
  function Credit(p: Character, struck: Character): Character
  {
    if struck.health <= 0 then AwardKill(p, struck.power) else p
  }

  /** An alive monster within one cell of (x, y) on both axes. */
  predicate Touches(m: Character, x: int, y: int)
  {
    m.alive && WithinBox(x, y, m.x, m.y, 1)
  }

  /** The first monster at or after index j that (x, y) touches, or -1. */
  function TargetFrom(ms: seq<Character>, x: int, y: int, j: nat): (r: int)
    requires j <= |ms|
    ensures r == -1 || (j <= r < |ms| && Touches(ms[r], x, y))
    ensures forall k :: j <= k < |ms| && (r == -1 || k < r) ==> !Touches(ms[k], x, y)
    decreases |ms| - j
  {
    if j == |ms| then -1
    else if Touches(ms[j], x, y) then j
    else TargetFrom(ms, x, y, j + 1)
  }

  /** The first monster a projectile at (x, y) touches, or -1. */
  function Target(ms: seq<Character>, x: int, y: int): (r: int)
    ensures r == -1 || (0 <= r < |ms| && Touches(ms[r], x, y))
    ensures forall k :: 0 <= k < |ms| && (r == -1 || k < r) ==> !Touches(ms[k], x, y)
  {
    TargetFrom(ms, x, y, 0)
  }

  /** The player, the monsters and the projectiles during `updateProjectiles`. */
  datatype Volley = Volley(player: Character, monsters: seq<Character>, projectiles: seq<Projectile>)

  /**
   * The update of projectile i: a dead one is skipped; a live one flies, then ends at its
   * maximum range, or hits the player (harmlessly while the player is invulnerable), or hits the
   * first monster it touches, and is despawned farther than 50 from the player.
   */
  function Process(s: Volley, i: nat): (r: Volley)
    requires i < |s.projectiles|
    ensures |r.projectiles| == |s.projectiles| && |r.monsters| == |s.monsters|
    ensures forall k :: 0 <= k < |s.projectiles| && k != i ==> r.projectiles[k] == s.projectiles[k]
    ensures r.player.x == s.player.x && r.player.y == s.player.y
  {
    var p := s.projectiles[i];
    if !p.alive then s
    else
      var f := Fly(p);
      if f.range >= f.maxRange then
        s.(projectiles := s.projectiles[i := f.(alive := false)])
      else if WithinBox(f.x, f.y, s.player.x, s.player.y, 1) then
        var pl := if s.player.invulnerabilityTimer == 0 then Wound(s.player, f) else s.player;
        Volley(pl, s.monsters, s.projectiles[i := f.(alive := false)])
      else
        var j := Target(s.monsters, f.x, f.y);
        var pl := if j < 0 then s.player else Credit(s.player, Struck(s.monsters[j], f));
        var ms := if j < 0 then s.monsters else s.monsters[j := Struck(s.monsters[j], f)];
        var g := if j < 0 then f else f.(alive := false);
        var h := if SqDist(g.x, g.y, s.player.x, s.player.y) > 50 * 50 then g.(alive := false) else g;
        Volley(pl, ms, s.projectiles[i := h])
  }

  /**
   * A projectile survives its update exactly when it was alive, has not reached its maximum
   * range, touches neither the player nor any monster, and is within 50 of the player.
   */
  lemma SurvivesIff(s: Volley, i: nat)
    requires i < |s.projectiles|
    ensures var f := Fly(s.projectiles[i]);
      Process(s, i).projectiles[i].alive <==>
        && s.projectiles[i].alive
        && f.range < f.maxRange
        && !WithinBox(f.x, f.y, s.player.x, s.player.y, 1)
        && Target(s.monsters, f.x, f.y) == -1
        && SqDist(f.x, f.y, s.player.x, s.player.y) <= 50 * 50
  {
  }

  /**
   * A projectile changes at most one monster: the first one it touches, and only when it missed
   * the player and was still in range.
   */
  lemma OneVictim(s: Volley, i: nat)
    requires i < |s.projectiles|
    ensures forall k :: 0 <= k < |s.monsters| && Process(s, i).monsters[k] != s.monsters[k] ==>
      && s.projectiles[i].alive
      && k == Target(s.monsters, Fly(s.projectiles[i]).x, Fly(s.projectiles[i]).y)
      && Process(s, i).monsters[k] == Struck(s.monsters[k], Fly(s.projectiles[i]))
  {
  }

  /** The update loop has visited projectiles j .. |projectiles|-1, from the last one down. */
  function FlightFrom(s: Volley, j: nat): (r: Volley)
    requires j <= |s.projectiles|
    ensures |r.projectiles| == |s.projectiles| && |r.monsters| == |s.monsters|
    ensures forall k :: 0 <= k < j ==> r.projectiles[k] == s.projectiles[k]
    ensures r.player.x == s.player.x && r.player.y == s.player.y
    decreases |s.projectiles| - j
  {
    if j == |s.projectiles| then s else Process(FlightFrom(s, j + 1), j)
  }

  /** After the update loop every projectile is dead or within 50 of the player. */
  lemma {:induction false} SurvivorsNear(s: Volley, j: nat)
    requires j <= |s.projectiles|
    ensures forall k :: j <= k < |s.projectiles| && FlightFrom(s, j).projectiles[k].alive ==>
      SqDist(FlightFrom(s, j).projectiles[k].x, FlightFrom(s, j).projectiles[k].y, s.player.x, s.player.y) <= 50 * 50
    decreases |s.projectiles| - j
  {
    if j < |s.projectiles| {
      SurvivorsNear(s, j + 1);
      SurvivesIff(FlightFrom(s, j + 1), j);
    }
  }

  /**
   * An invulnerable player is not wounded by projectiles: through the whole loop its health
   * stays what it was or is the full heal of a level-up earned by a projectile kill.
   */
  lemma {:induction false} InvulnerableUnhurt(s: Volley, j: nat)
    requires j <= |s.projectiles| && s.player.invulnerabilityTimer != 0
    ensures var p := FlightFrom(s, j).player;
      p.invulnerabilityTimer == s.player.invulnerabilityTimer && (p.health == s.player.health || p.health == p.maxHealth)
    decreases |s.projectiles| - j
  {
    if j < |s.projectiles| {
      InvulnerableUnhurt(s, j + 1);
    }
  }

  // ----- Coasting -----

  /** k ticks of flight with nothing hit. */
  function Coast(p: Projectile, k: nat): (q: Projectile)
  {
    if k == 0 then p else Fly(Coast(p, k - 1))
  }

  /** Coasting keeps the direction and speed and adds one step per tick to the range. */
  lemma {:induction false} CoastRange(p: Projectile, k: nat)
    ensures Coast(p, k).dx == p.dx && Coast(p, k).dy == p.dy && Coast(p, k).speed == p.speed
    ensures Coast(p, k).maxRange == p.maxRange
    ensures Coast(p, k).range == p.range + k * Step(p)
  {
    if k > 0 {
      CoastRange(p, k - 1);
      var q := Coast(p, k - 1);
      assert Step(q) == Step(p);
      assert Coast(p, k).range == q.range + Step(p);
      assert k * Step(p) == (k - 1) * Step(p) + Step(p);
    }
  }

  /**
   * Lifetime: a projectile launched along an axis covers exactly 2 per tick, so, unless it hits
   * something, its maximum range is reached on tick 100 for lightning, 75 for a fireball and 40
   * for an arrow.
   */
  lemma Lifetime(x: int, y: int, dx: int, dy: int, kind: int, damage: int, k: nat)
    requires (Abs(dx) == 1 && dy == 0) || (dx == 0 && Abs(dy) == 1)
    ensures var p := Launched(x, y, dx, dy, kind, damage);
      Coast(p, k).range >= p.maxRange <==> k >= (if kind == 0 then 100 else if kind == 1 then 75 else 40)
  {
    var p := Launched(x, y, dx, dy, kind, damage);
    assert SqDist(p.dx * p.speed, p.dy * p.speed, 0, 0) == 4;
    assert IntSqrt(4) == 2 by {
      assert IntSqrt(1) == 1 && IntSqrt(2) == 1 && IntSqrt(3) == 1;
    }
    assert Step(p) == 2;
    CoastRange(p, k);
  }

  // ----- The update loop -----

  /** The monster scan: the first alive monster touching (x, y), or -1. */
  method FindTarget(w: GameState, x: int, y: int) returns (j: int)
    requires w.Shape()
    ensures j == Target(w.monsters[..w.monsterCount], x, y)
  {
    ghost var ms := w.monsters[..w.monsterCount];
    var k := 0;
    while k < w.monsterCount
      invariant 0 <= k <= w.monsterCount
      invariant TargetFrom(ms, x, y, k) == Target(ms, x, y)
    {
      if w.monsters[k].alive && Abs(x - w.monsters[k].x) <= 1 && Abs(y - w.monsters[k].y) <= 1 {
        return k;
      }
      k := k + 1;
    }
    return -1;
  }

  /** The body of the update loop for projectile i. */
  method ProcessProjectile(w: GameState, i: nat)
    requires w.Shape() && i < w.projectileCount
    modifies w, w.monsters, w.projectiles
    ensures w.Shape()
    ensures unchanged(w`monsterCount, w`projectileCount, w`powerupCount, w`landmineCount, w`loadedChunkCount)
    ensures Volley(w.player, w.monsters[..w.monsterCount], w.projectiles[..w.projectileCount]) ==
      Process(old(Volley(w.player, w.monsters[..w.monsterCount], w.projectiles[..w.projectileCount])), i)
  {
    var p := w.projectiles[i];
    if !p.alive {
      return;
    }
    var f := Fly(p);
    if f.range >= f.maxRange {
      w.projectiles[i] := f.(alive := false);
      return;
    }
    if Abs(f.x - w.player.x) <= 1 && Abs(f.y - w.player.y) <= 1 {
      if w.player.invulnerabilityTimer == 0 {
        w.player := Wound(w.player, f);
      }
      w.projectiles[i] := f.(alive := false);
      return;
    }
    var j := FindTarget(w, f.x, f.y);
    if j >= 0 {
      var m := Struck(w.monsters[j], f);
      w.player := Credit(w.player, m);
      w.monsters[j] := m;
      f := f.(alive := false);
    }
    if SqDist(f.x, f.y, w.player.x, w.player.y) > 50 * 50 {
      f := f.(alive := false);
    }
    w.projectiles[i] := f;
  }

  /** The dead-projectile test of the compaction loop. */
  function Dead(): Projectile -> bool
  {
    (p: Projectile) => !p.alive
  }

  /** The update loop, from the last projectile down to the first. */
  method FlyAll(w: GameState)
    requires w.Shape()
    modifies w, w.monsters, w.projectiles
    ensures w.Shape()
    ensures unchanged(w`monsterCount, w`projectileCount, w`powerupCount, w`landmineCount, w`loadedChunkCount)
    ensures Volley(w.player, w.monsters[..w.monsterCount], w.projectiles[..w.projectileCount]) ==
      FlightFrom(old(Volley(w.player, w.monsters[..w.monsterCount], w.projectiles[..w.projectileCount])), 0)
  {
    ghost var s := Volley(w.player, w.monsters[..w.monsterCount], w.projectiles[..w.projectileCount]);
    var i := w.projectileCount;
    while i > 0
      invariant 0 <= i <= w.projectileCount
      invariant w.Shape()
      invariant unchanged(w`monsterCount, w`projectileCount, w`powerupCount, w`landmineCount, w`loadedChunkCount)
      invariant Volley(w.player, w.monsters[..w.monsterCount], w.projectiles[..w.projectileCount]) == FlightFrom(s, i)
    {
      i := i - 1;
      ProcessProjectile(w, i);
    }
  }

  /** What the compaction keeps of a flown array whose live projectiles are near (px, py) is alive and near. */
  lemma KeptNear(flown: seq<Projectile>, now: seq<Projectile>, px: int, py: int)
    requires forall k :: 0 <= k < |flown| && flown[k].alive ==> SqDist(flown[k].x, flown[k].y, px, py) <= 50 * 50
    requires KeptExactly(multiset(now), multiset(flown), Dead())
    ensures forall k :: 0 <= k < |now| ==> now[k].alive && SqDist(now[k].x, now[k].y, px, py) <= 50 * 50
  {
    forall k | 0 <= k < |now|
      ensures now[k].alive && SqDist(now[k].x, now[k].y, px, py) <= 50 * 50
    {
      var v := now[k];
      assert v in multiset(now);
      assert v in multiset(flown);
      var n :| 0 <= n < |flown| && flown[n] == v;
    }
  }

  /**
   * `updateProjectiles`: every projectile from the last to the first is updated, then the dead
   * ones are removed by a backward swap-remove. Every projectile left is alive and within 50 of
   * the player.
   */
  method UpdateProjectiles(w: GameState)
    requires w.Shape()
    modifies w, w.monsters, w.projectiles
    ensures w.Shape()
    ensures unchanged(w`monsterCount, w`powerupCount, w`landmineCount, w`loadedChunkCount)
    ensures var r := FlightFrom(old(Volley(w.player, w.monsters[..w.monsterCount], w.projectiles[..w.projectileCount])), 0);
      && w.player == r.player && w.monsters[..w.monsterCount] == r.monsters
      && KeptExactly(multiset(w.projectiles[..w.projectileCount]), multiset(r.projectiles), Dead())
    ensures forall k :: 0 <= k < w.projectileCount ==>
      w.projectiles[k].alive && SqDist(w.projectiles[k].x, w.projectiles[k].y, w.player.x, w.player.y) <= 50 * 50
  {
    ghost var s := Volley(w.player, w.monsters[..w.monsterCount], w.projectiles[..w.projectileCount]);
    FlyAll(w);
    ghost var flown := w.projectiles[..w.projectileCount];
    SurvivorsNear(s, 0);
    assert flown == FlightFrom(s, 0).projectiles && w.player.x == s.player.x && w.player.y == s.player.y;
    w.projectileCount := SwapRemoveBackward(w.projectiles, w.projectileCount, Dead());
    ghost var now := w.projectiles[..w.projectileCount];
    KeptNear(flown, now, w.player.x, w.player.y);
    assert forall k :: 0 <= k < w.projectileCount ==> w.projectiles[k] == now[k];
  }
}

=== FILE: state.dfy ===
/**
 * The global state of the simulation (src/globals.c): the player, the four fixed-capacity
 * entity arrays with their live counts, and the chunk table. The procedures of src/world.c,
 * src/game.c, src/projectiles.c, src/monsters.c and src/player.c are module-level methods
 * that take this object and update it in place.
 */
module State {
  import opened Types
  import opened Terrain

  /**
   * The chunk table's invariant: no two live slots hold the same chunk coordinates, and
   * every live slot is marked loaded.
   */
  ghost predicate DistinctChunks(s: seq<Chunk>)
  {
    && (forall i, j :: 0 <= i < j < |s| ==> (s[i].chunkX, s[i].chunkY) != (s[j].chunkX, s[j].chunkY))
    && (forall i :: 0 <= i < |s| ==> s[i].loaded)
  }

  /** Slot c holds the terrain the generator gives its coordinates. */
  ghost predicate TerrainReady(noise: Noise, c: Chunk)
  {
    c.terrain == TerrainGrid(noise, c.chunkX, c.chunkY)
  }

  class GameState {
    var player: Character
    const monsters: array<Character>
    var monsterCount: nat
    const powerups: array<Powerup>
    var powerupCount: nat
    const landmines: array<Landmine>
    var landmineCount: nat
    const projectiles: array<Projectile>
    var projectileCount: nat
    const loadedChunks: array<Chunk>
    var loadedChunkCount: nat
    /** The terrain generator's noise, fixed for the whole run. */
    const noise: Noise

    /** Array sizes and count bounds (src/globals.c:4-14 with src/types.h:10-18). */
    ghost predicate Shape()
      reads this
    {
      && monsters.Length == MAX_MONSTERS && monsterCount <= MAX_MONSTERS
      && powerups.Length == MAX_POWERUPS && powerupCount <= MAX_POWERUPS
      && landmines.Length == MAX_LANDMINES && landmineCount <= MAX_LANDMINES
      && projectiles.Length == MAX_PROJECTILES && projectileCount <= MAX_PROJECTILES
      && loadedChunks.Length == MAX_LOADED_CHUNKS && loadedChunkCount <= MAX_LOADED_CHUNKS
    }

    /** The live chunk slots. */
    ghost function Chunks(): seq<Chunk>
      reads this`loadedChunkCount, loadedChunks
      requires loadedChunkCount <= loadedChunks.Length
    {
      loadedChunks[..loadedChunkCount]
    }

    /** The chunk table is well formed, apart from terrain. */
    ghost predicate TableOk()
      reads this`loadedChunkCount, loadedChunks
    {
      && loadedChunks.Length == MAX_LOADED_CHUNKS && loadedChunkCount <= MAX_LOADED_CHUNKS
      && DistinctChunks(Chunks())
    }

    /** Every live slot holds the terrain of its coordinates. */
    ghost predicate TerrainOk()
      reads this`loadedChunkCount, loadedChunks
    {
      forall k :: 0 <= k < loadedChunkCount && k < loadedChunks.Length ==> TerrainReady(noise, loadedChunks[k])
    }

    /** The whole invariant: array shapes, a well-formed table, and terrain everywhere. */
    ghost predicate Valid()
      reads this, loadedChunks
    {
      Shape() && TableOk() && TerrainOk()
    }

    /** The program's start: every global zero, as C initialises them. */
    constructor (noise: Noise)
      ensures Valid()
      ensures this.noise == noise
      ensures monsterCount == 0 && powerupCount == 0 && landmineCount == 0
      ensures projectileCount == 0 && loadedChunkCount == 0
      ensures player == ZeroCharacter
    {
      player := ZeroCharacter;
      monsters := new Character[MAX_MONSTERS](_ => ZeroCharacter);
      powerups := new Powerup[MAX_POWERUPS](_ => ZeroPowerup);
      landmines := new Landmine[MAX_LANDMINES](_ => ZeroLandmine);
      projectiles := new Projectile[MAX_PROJECTILES](_ => ZeroProjectile);
      loadedChunks := new Chunk[MAX_LOADED_CHUNKS](_ => ZeroChunk);
      monsterCount := 0;
      powerupCount := 0;
      landmineCount := 0;
      projectileCount := 0;
      loadedChunkCount := 0;
      this.noise := noise;
    }
  }
}

=== FILE: terrain.dfy ===
/**
 * Terrain of a chunk (src/world.c, `generateChunkTerrain`). The source combines two sin/cos
 * layers over the world cell with a third layer drawn from `rand()` after reseeding the
 * generator with the chunk coordinates; all of that is one deterministic number per cell of
 * a chunk, given here as an uninterpreted `Noise` function. Only the threshold ladder that
 * turns that number into a terrain kind is modelled exactly.
 */
module Terrain {
  import opened Types

  const GRASS: int := 0
  const MOUNTAIN: int := 1
  const TREE: int := 2
  const LAKE: int := 3
  const SEA: int := 4

  /** The combined noise of local cell (x, y) of chunk (chunkX, chunkY). */
  type Noise = (int, int, int, int) -> real

  /** The threshold ladder: mountain above 0.8, tree above 0.3, grass above -0.2, lake above -0.8, else sea. */
  function Classify(n: real): (t: int)
    ensures GRASS <= t <= SEA
  {
    if n > 0.8 then MOUNTAIN
    else if n > 0.3 then TREE
    else if n > -0.2 then GRASS
    else if n > -0.8 then LAKE
    else SEA
  }

  /** Height order of the kinds: sea < lake < grass < tree < mountain. */
  function Height(t: int): int
  {
    if t == SEA then 0 else if t == LAKE then 1 else if t == GRASS then 2 else if t == TREE then 3 else 4
  }

  /** More noise never gives lower ground: the ladder is monotone in the height order. */
  lemma ClassifyMonotone(a: real, b: real)
    requires a <= b
    ensures Height(Classify(a)) <= Height(Classify(b))
  {
  }

  /** Each kind is exactly one band of the noise. */
  lemma ClassifyBands(n: real)
    ensures Classify(n) == MOUNTAIN <==> 0.8 < n
    ensures Classify(n) == TREE <==> 0.3 < n <= 0.8
    ensures Classify(n) == GRASS <==> -0.2 < n <= 0.3
    ensures Classify(n) == LAKE <==> -0.8 < n <= -0.2
    ensures Classify(n) == SEA <==> n <= -0.8
  {
  }

  /** The terrain kind of local cell (x, y) of a chunk. */
  function CellKind(noise: Noise, chunkX: int, chunkY: int, x: int, y: int): int
  {
    Classify(noise(chunkX, chunkY, x, y))
  }

  /** One column `terrain[x]` of a chunk: the kinds of cells (x, 0) ... (x, 31). */
  function TerrainColumn(noise: Noise, chunkX: int, chunkY: int, x: int): seq<int>
  {
    seq(CHUNK_SIZE, y => CellKind(noise, chunkX, chunkY, x, y))
  }

  /** The whole terrain of a chunk, indexed `[x][y]` as the source's array is. */
  function TerrainGrid(noise: Noise, chunkX: int, chunkY: int): seq<seq<int>>
  {
    seq(CHUNK_SIZE, x => TerrainColumn(noise, chunkX, chunkY, x))
  }

  /** Every cell of a generated chunk holds one of the five kinds. */
  lemma TerrainGridKinds(noise: Noise, chunkX: int, chunkY: int, x: int, y: int)
    requires 0 <= x < CHUNK_SIZE && 0 <= y < CHUNK_SIZE
    ensures GRASS <= TerrainGrid(noise, chunkX, chunkY)[x][y] <= SEA
  {
  }
}

=== FILE: types.dfy ===
/** Constants, records and C arithmetic shared by the whole simulation (src/types.h). */
module Types {

  // ----- Game constants -----

  const MAX_MONSTERS: nat := 2000
  const MAX_POWERUPS: nat := 50
  const MAX_LANDMINES: nat := 100
  const MAX_PROJECTILES: nat := 100

  // ----- Chunk system constants -----

  const CHUNK_SIZE: int := 32
  const MAX_LOADED_CHUNKS: nat := 625
  const CHUNK_LOAD_DISTANCE: int := 12

  /** The four cardinal directions, in the order of the C enum (UP = 0 ... RIGHT = 3). */
  datatype Direction = Up | Down | Left | Right

  function DirectionOf(k: nat): Direction
    requires k < 4
  {
    if k == 0 then Up else if k == 1 then Down else if k == 2 then Left else Right
  }

  /** POWERUP_DOUBLE_DAMAGE, POWERUP_DOUBLE_HEALTH, POWERUP_DOUBLE_SPEED. */
  datatype PowerupType = DoubleDamage | DoubleHealth | DoubleSpeed

  const POWERUP_COUNT: nat := 3

  function PowerupTypeOf(k: nat): PowerupType
    requires k < POWERUP_COUNT
  {
    if k == 0 then DoubleDamage else if k == 1 then DoubleHealth else DoubleSpeed
  }

  /**
   * A chunk-table slot. `terrain[x][y]` is the terrain kind of local cell (x, y):
   * 0 = grass, 1 = mountain, 2 = tree, 3 = lake, 4 = sea.
   */
  datatype Chunk = Chunk(chunkX: int, chunkY: int, loaded: bool, lastAccess: int,
                         terrain: seq<seq<int>>)

  /** A world cell together with its chunk and its offset inside that chunk. */
  datatype WorldPosition = WorldPosition(x: int, y: int, chunkX: int, chunkY: int,
                                         localX: int, localY: int)

  /**
   * The player and every monster. The C flags `alive` and `isInCombat` only ever hold 0 or 1
   * and are booleans here; the two float multipliers only ever hold 1.0 or 2.0 and are
   * integers here.
   */
  datatype Character = Character(
    x: int, y: int,
    health: int, maxHealth: int, power: int,
    textureIndex: int, alive: bool,
    speed: int, speedMultiplier: int, damageMultiplier: int,
    powerupTimer: int, activePowerup: PowerupType,
    movementCooldown: int,
    level: int, experience: int, experienceToNext: int,
    isInCombat: bool, invulnerabilityTimer: int,
    jumpSmashCooldown: int, rushCooldown: int, healCooldown: int, arrowCooldown: int,
    lastDirX: int, lastDirY: int, intendedDirX: int, intendedDirY: int,
    stunTimer: int, dotTimer: int, dotDamage: int, speedBoostTimer: int, deathTimer: int)

  datatype Powerup = Powerup(x: int, y: int, kind: PowerupType, active: bool)

  datatype Landmine = Landmine(x: int, y: int, damage: int, active: bool)

  /**
   * A projectile. `kind` is 0 = lightning, 1 = fireball, 2 = arrow; `effect` is
   * 0 = none, 1 = stun, 2 = damage over time. The direction (dx, dy) is an integer vector.
   */
  datatype Projectile = Projectile(x: int, y: int, dx: int, dy: int, kind: int, alive: bool,
                                   damage: int, speed: int, effect: int, range: int,
                                   maxRange: int)

  /** The all-zero records: C's zero-initialised globals and `memset(..., 0, ...)`. */
  const ZeroCharacter := Character(0, 0, 0, 0, 0, 0, false, 0, 0, 0, 0, DoubleDamage, 0, 0, 0, 0,
                                   false, 0, 0, 0, 0, 0, 0, 0, 0, 0, 0, 0, 0, 0, 0)
  const ZeroPowerup := Powerup(0, 0, DoubleDamage, false)
  const ZeroLandmine := Landmine(0, 0, 0, false)
  const ZeroProjectile := Projectile(0, 0, 0, 0, 0, false, 0, 0, 0, 0, 0)
  const ZeroChunk := Chunk(0, 0, false, 0, seq(CHUNK_SIZE, _ => seq(CHUNK_SIZE, _ => 0)))

  /**
   * A monster written into the array slot that held `slot` by the chunk spawner and the
   * top-up loop of src/world.c: the fields those writers set are set, every other field
   * (the ability cooldowns, directions, active power-up) keeps what the slot held.
   */
  function SpawnedMonster(slot: Character, x: int, y: int, health: int, power: int,
                          texture: int): Character
  {
    slot.(x := x, y := y, health := health, maxHealth := health, power := power,
          textureIndex := texture, alive := true,
          speed := 1, speedMultiplier := 1, damageMultiplier := 1,
          powerupTimer := 0, movementCooldown := 0,
          level := 1, experience := 0, experienceToNext := 100,
          isInCombat := false, invulnerabilityTimer := 0,
          stunTimer := 0, dotTimer := 0, dotDamage := 0, speedBoostTimer := 0, deathTimer := 0)
  }

  // ----- C integer arithmetic -----

  /** C's `/` on int: truncation toward zero (Dafny's `/` is Euclidean). */
  function CDiv(a: int, b: int): int
    requires b > 0
  {
    if a >= 0 then a / b else -((-a) / b)
  }

  /** C's `%` on int: the remainder takes the sign of the dividend. */
  function CMod(a: int, b: int): int
    requires b > 0
  {
    a - b * CDiv(a, b)
  }

  function Abs(a: int): nat
  {
    if a < 0 then -a else a
  }

  function Sign(a: int): int
  {
    if a > 0 then 1 else if a < 0 then -1 else 0
  }

  function Max(a: int, b: int): int
  {
    if a < b then b else a
  }

  /** 2^k, the value of `1 << k` without the C shift overflow. */
  function Pow2(k: nat): (r: nat)
    ensures r >= 1
  {
    if k == 0 then 1 else 2 * Pow2(k - 1)
  }

  // ----- Geometry on the integer grid -----

  /** Squared Euclidean distance: the source's `sqrt(d) > r` tests are `SqDist > r*r` here. */
  function SqDist(x1: int, y1: int, x2: int, y2: int): nat
  {
    (x1 - x2) * (x1 - x2) + (y1 - y2) * (y1 - y2)
  }

  /** True when both axis distances are at most r (`abs(dx) <= r && abs(dy) <= r`). */
  predicate WithinBox(x1: int, y1: int, x2: int, y2: int, r: int)
  {
    Abs(x1 - x2) <= r && Abs(y1 - y2) <= r
  }

  /** `(int)sqrt(n)` for a non-negative integer n. */
  function IntSqrt(n: nat): (r: nat)
    ensures r * r <= n < (r + 1) * (r + 1)
  {
    if n == 0 then 0
    else
      var s := IntSqrt(n - 1);
      if (s + 1) * (s + 1) <= n then s + 1 else s
  }

  // ----- The C library's rand() -----

  /**
   * `rand() % n`. The generator is not modelled: the draw is an arbitrary natural number,
   * so everything proved about a caller holds whatever numbers the generator produces.
   */
  method RandMod(n: nat) returns (r: nat)
    requires n > 0
    ensures r < n
  {
    var draw: nat := *;
    r := draw % n;
  }
}

=== FILE: world.dfy ===
/**
 * The chunk store of src/world.c: the world-to-chunk mapping, the linear chunk lookup, the
 * 625-slot chunk table with least-recently-used eviction, the removal of far-away entities
 * of an evicted chunk, terrain and content generation for a freshly loaded chunk, and the
 * per-tick refresh around the player.
 */
module World {
  import opened Types
  import opened Terrain
  import opened Dense
  import opened State

  // ----- World to chunk coordinates -----

  /**
   * One axis of `worldToChunk`: the branch for negative coordinates biases the numerator
   * before C's truncating division and folds the truncated remainder into 0..31.
   */
  function AxisToChunk(w: int): (r: (int, int))
    ensures r.0 * CHUNK_SIZE + r.1 == w
    ensures 0 <= r.1 < CHUNK_SIZE
  {
    if w < 0 then (CDiv(w - CHUNK_SIZE + 1, CHUNK_SIZE), CMod(CMod(w, CHUNK_SIZE) + CHUNK_SIZE, CHUNK_SIZE))
    else (CDiv(w, CHUNK_SIZE), CMod(w, CHUNK_SIZE))
  }

  /** `worldToChunk`: the chunk holding a world cell and the cell's offset inside it. */
  function WorldToChunk(worldX: int, worldY: int): (p: WorldPosition)
    ensures p.x == worldX && p.y == worldY
    ensures p.chunkX * CHUNK_SIZE + p.localX == worldX && 0 <= p.localX < CHUNK_SIZE
    ensures p.chunkY * CHUNK_SIZE + p.localY == worldY && 0 <= p.localY < CHUNK_SIZE
  {
    var (cx, lx) := AxisToChunk(worldX);
    var (cy, ly) := AxisToChunk(worldY);
    WorldPosition(worldX, worldY, cx, cy, lx, ly)
  }

  /** The chunk of a world coordinate is its floor division by the chunk size, for every sign. */
  lemma WorldToChunkIsFloor(worldX: int, worldY: int)
    ensures WorldToChunk(worldX, worldY).chunkX == worldX / CHUNK_SIZE
    ensures WorldToChunk(worldX, worldY).chunkY == worldY / CHUNK_SIZE
    ensures WorldToChunk(worldX, worldY).localX == worldX % CHUNK_SIZE
    ensures WorldToChunk(worldX, worldY).localY == worldY % CHUNK_SIZE
  {
    var p := WorldToChunk(worldX, worldY);
    FloorUnique(worldX, p.chunkX, p.localX);
    FloorUnique(worldY, p.chunkY, p.localY);
  }

  /** Euclidean division by the chunk size has exactly one quotient with a remainder in 0..31. */
  lemma FloorUnique(w: int, q: int, r: int)
    requires q * CHUNK_SIZE + r == w && 0 <= r < CHUNK_SIZE
    ensures q == w / CHUNK_SIZE && r == w % CHUNK_SIZE
  {
    assert w / 32 * 32 + w % 32 == w;
    assert (q - w / 32) * 32 == w % 32 - r;
  }

  /**
   * `player.x / CHUNK_SIZE` (src/world.c:287, 310, 319 and the other top-up loops) is C's
   * truncating division: it is the chunk of the coordinate exactly when the coordinate is
   * non-negative or a multiple of the chunk size.
   */
  lemma TruncatedChunk(w: int)
    ensures CDiv(w, CHUNK_SIZE) == AxisToChunk(w).0 <==> (w >= 0 || w % CHUNK_SIZE == 0)
  {
    var (q, r) := AxisToChunk(w);
    FloorUnique(w, q, r);
    if w < 0 {
      var t := (-w) / CHUNK_SIZE;
      var u := (-w) % CHUNK_SIZE;
      assert -w == t * CHUNK_SIZE + u;
      if u == 0 {
        FloorUnique(w, -t, 0);
      } else {
        FloorUnique(w, -t - 1, CHUNK_SIZE - u);
      }
    }
  }

  /** The smallest case: world x = -1 lies in chunk -1, but the truncating division says chunk 0. */
  lemma TruncatedChunkMinusOne()
    ensures WorldToChunk(-1, 0).chunkX == -1 && CDiv(-1, CHUNK_SIZE) == 0
  {
    WorldToChunkIsFloor(-1, 0);
  }

  // ----- Chunk lookup -----

  predicate At(c: Chunk, chunkX: int, chunkY: int)
  {
    c.chunkX == chunkX && c.chunkY == chunkY
  }

  /** The first slot of s holding chunk (chunkX, chunkY), or -1. */
  function FindChunk(s: seq<Chunk>, chunkX: int, chunkY: int): (r: int)
    ensures -1 <= r < |s|
    ensures r >= 0 ==> At(s[r], chunkX, chunkY) && forall k :: 0 <= k < r ==> !At(s[k], chunkX, chunkY)
    ensures r == -1 <==> forall k :: 0 <= k < |s| ==> !At(s[k], chunkX, chunkY)
  {
    if s == [] then -1
    else if At(s[0], chunkX, chunkY) then 0
    else
      var r := FindChunk(s[1..], chunkX, chunkY);
      assert forall k :: 1 <= k < |s| ==> s[k] == s[1..][k - 1];
      if r == -1 then -1 else r + 1
  }

  /** In a table without duplicates the chunk found is the only slot holding those coordinates. */
  lemma FindChunkOnly(s: seq<Chunk>, chunkX: int, chunkY: int, k: int)
    requires DistinctChunks(s)
    requires 0 <= k < |s| && At(s[k], chunkX, chunkY)
    ensures FindChunk(s, chunkX, chunkY) == k
  {
  }

  /** `getChunkIndex`: a linear scan of the live slots. */
  method GetChunkIndex(w: GameState, chunkX: int, chunkY: int) returns (index: int)
    requires w.Shape()
    ensures index == FindChunk(w.Chunks(), chunkX, chunkY)
  {
    var i := 0;
    while i < w.loadedChunkCount
      invariant i <= w.loadedChunkCount
      invariant forall k :: 0 <= k < i ==> !At(w.loadedChunks[k], chunkX, chunkY)
    {
      if w.loadedChunks[i].chunkX == chunkX && w.loadedChunks[i].chunkY == chunkY {
        return i;
      }
      i := i + 1;
    }
    return -1;
  }

  // ----- Eviction -----

  /** Slot k holds the least `lastAccess` of s, and every earlier slot a strictly greater one. */
  ghost predicate IsOldest(s: seq<Chunk>, k: int)
  {
    && 0 <= k < |s|
    && (forall j :: 0 <= j < |s| ==> s[k].lastAccess <= s[j].lastAccess)
    && (forall j :: 0 <= j < k ==> s[k].lastAccess < s[j].lastAccess)
  }

  /** The scan for the least recently used slot; the strict `<` keeps the first of equals. */
  method OldestSlot(w: GameState) returns (oldest: nat)
    requires w.Shape() && w.loadedChunkCount > 0
    ensures IsOldest(w.Chunks(), oldest)
  {
    oldest := 0;
    var oldestAccess := w.loadedChunks[0].lastAccess;
    var i := 1;
    while i < w.loadedChunkCount
      invariant 1 <= i <= w.loadedChunkCount && oldest < i
      invariant oldestAccess == w.loadedChunks[oldest].lastAccess
      invariant forall j :: 0 <= j < i ==> oldestAccess <= w.loadedChunks[j].lastAccess
      invariant forall j :: 0 <= j < oldest ==> oldestAccess < w.loadedChunks[j].lastAccess
    {
      if w.loadedChunks[i].lastAccess < oldestAccess {
        oldestAccess := w.loadedChunks[i].lastAccess;
        oldest := i;
      }
      i := i + 1;
    }
  }

  /** The oldest slot is unique: any two slots meeting `IsOldest` are the same slot. */
  lemma IsOldestUnique(s: seq<Chunk>, a: int, b: int)
    requires IsOldest(s, a) && IsOldest(s, b)
    ensures a == b
  {
    assert s[a].lastAccess == s[b].lastAccess;
  }

  /**
   * The test of `unloadChunkEntities` for an entity at (x, y): it lies in chunk
   * (chunkX, chunkY) and farther than 200 from the player at (px, py).
   */
  predicate FarInChunk(x: int, y: int, chunkX: int, chunkY: int, px: int, py: int)
  {
    var p := WorldToChunk(x, y);
    p.chunkX == chunkX && p.chunkY == chunkY && SqDist(x, y, px, py) > 200 * 200
  }

  function MonsterFarIn(chunkX: int, chunkY: int, px: int, py: int): Character -> bool
  {
    (m: Character) => FarInChunk(m.x, m.y, chunkX, chunkY, px, py)
  }

  function PowerupFarIn(chunkX: int, chunkY: int, px: int, py: int): Powerup -> bool
  {
    (u: Powerup) => FarInChunk(u.x, u.y, chunkX, chunkY, px, py)
  }

  function LandmineFarIn(chunkX: int, chunkY: int, px: int, py: int): Landmine -> bool
  {
    (l: Landmine) => FarInChunk(l.x, l.y, chunkX, chunkY, px, py)
  }

  /**
   * `unloadChunkEntities`: every monster, power-up and landmine that lies in the chunk of
   * slot `chunkIndex` and farther than 200 from the player is swap-removed; the rest stay.
   */
  method UnloadChunkEntities(w: GameState, chunkIndex: nat)
    requires w.Shape() && chunkIndex < w.loadedChunkCount
    modifies w, w.monsters, w.powerups, w.landmines
    ensures w.Shape()
    ensures w.player == old(w.player) && w.projectileCount == old(w.projectileCount)
    ensures w.loadedChunkCount == old(w.loadedChunkCount)
    ensures var c := w.loadedChunks[chunkIndex]; var drop := MonsterFarIn(c.chunkX, c.chunkY, w.player.x, w.player.y);
      && w.monsterCount <= old(w.monsterCount)
      && (forall k :: 0 <= k < w.monsterCount ==> !drop(w.monsters[k]))
      && KeptExactly(multiset(w.monsters[..w.monsterCount]), old(multiset(w.monsters[..w.monsterCount])), drop)
    ensures var c := w.loadedChunks[chunkIndex]; var drop := PowerupFarIn(c.chunkX, c.chunkY, w.player.x, w.player.y);
      && w.powerupCount <= old(w.powerupCount)
      && (forall k :: 0 <= k < w.powerupCount ==> !drop(w.powerups[k]))
      && KeptExactly(multiset(w.powerups[..w.powerupCount]), old(multiset(w.powerups[..w.powerupCount])), drop)
    ensures var c := w.loadedChunks[chunkIndex]; var drop := LandmineFarIn(c.chunkX, c.chunkY, w.player.x, w.player.y);
      && w.landmineCount <= old(w.landmineCount)
      && (forall k :: 0 <= k < w.landmineCount ==> !drop(w.landmines[k]))
      && KeptExactly(multiset(w.landmines[..w.landmineCount]), old(multiset(w.landmines[..w.landmineCount])), drop)
  {
    var chunkX := w.loadedChunks[chunkIndex].chunkX;
    var chunkY := w.loadedChunks[chunkIndex].chunkY;
    w.monsterCount := SwapRemoveForward(w.monsters, w.monsterCount,
                                        MonsterFarIn(chunkX, chunkY, w.player.x, w.player.y));
    w.powerupCount := SwapRemoveForward(w.powerups, w.powerupCount,
                                        PowerupFarIn(chunkX, chunkY, w.player.x, w.player.y));
    w.landmineCount := SwapRemoveForward(w.landmines, w.landmineCount,
                                         LandmineFarIn(chunkX, chunkY, w.player.x, w.player.y));
  }

  // ----- Terrain -----

  /** The inner loop of `generateChunkTerrain`: the kinds of cells (x, 0) ... (x, 31). */
  method GenerateColumn(noise: Noise, chunkX: int, chunkY: int, x: int) returns (column: seq<int>)
    ensures column == TerrainColumn(noise, chunkX, chunkY, x)
  {
    column := [];
    for y := 0 to CHUNK_SIZE
      invariant |column| == y
      invariant forall j :: 0 <= j < y ==> column[j] == CellKind(noise, chunkX, chunkY, x, j)
    {
      column := column + [Classify(noise(chunkX, chunkY, x, y))];
    }
  }

  /** Slots that agree on everything the chunk table is keyed on. */
  predicate SameKey(a: Chunk, b: Chunk)
  {
    a.chunkX == b.chunkX && a.chunkY == b.chunkY && a.loaded == b.loaded
  }

  /** Slots that agree on everything but the terrain. */
  predicate SameSlot(a: Chunk, b: Chunk)
  {
    SameKey(a, b) && a.lastAccess == b.lastAccess
  }

  /** The column loop of `generateChunkTerrain`: the chunk's whole grid, column by column. */
  method GenerateGrid(noise: Noise, chunkX: int, chunkY: int) returns (grid: seq<seq<int>>)
    ensures grid == TerrainGrid(noise, chunkX, chunkY)
  {
    grid := [];
    for x := 0 to CHUNK_SIZE
      invariant |grid| == x
      invariant forall i :: 0 <= i < x ==> grid[i] == TerrainColumn(noise, chunkX, chunkY, i)
    {
      var column := GenerateColumn(noise, chunkX, chunkY, x);
      grid := grid + [column];
    }
  }

  /** A table whose slots keep their keys stays free of duplicates. */
  lemma DistinctSameSlots(s: seq<Chunk>, s': seq<Chunk>)
    requires |s| == |s'| && DistinctChunks(s)
    requires forall k :: 0 <= k < |s| ==> SameKey(s'[k], s[k])
    ensures DistinctChunks(s')
  {
  }

  /** `generateChunkTerrain`: fills the terrain of the slot holding (chunkX, chunkY), if any. */
  method GenerateChunkTerrain(w: GameState, chunkX: int, chunkY: int)
    requires w.Shape() && w.TableOk()
    modifies w.loadedChunks
    ensures w.TableOk()
    ensures forall k :: 0 <= k < w.loadedChunks.Length ==> SameSlot(w.loadedChunks[k], old(w.loadedChunks[k]))
    ensures forall k :: 0 <= k < w.loadedChunks.Length && k != FindChunk(old(w.Chunks()), chunkX, chunkY) ==>
      w.loadedChunks[k] == old(w.loadedChunks[k])
    ensures FindChunk(old(w.Chunks()), chunkX, chunkY) >= 0 ==>
      TerrainReady(w.noise, w.loadedChunks[FindChunk(old(w.Chunks()), chunkX, chunkY)])
  {
    var chunkIndex := GetChunkIndex(w, chunkX, chunkY);
    if chunkIndex == -1 {
      return;
    }
    var grid := GenerateGrid(w.noise, chunkX, chunkY);
    ghost var before := w.Chunks();
    w.loadedChunks[chunkIndex] := w.loadedChunks[chunkIndex].(terrain := grid);
    DistinctSameSlots(before, w.Chunks());
  }

  // ----- Content -----

  /** The local cell of world cell (x, y) inside chunk (chunkX, chunkY), if it is in that chunk. */
  predicate InChunk(x: int, y: int, chunkX: int, chunkY: int)
  {
    0 <= x - chunkX * CHUNK_SIZE < CHUNK_SIZE && 0 <= y - chunkY * CHUNK_SIZE < CHUNK_SIZE
  }

  /** A monster as both spawners of this file leave it: alive, level 1, random stats in range. */
  predicate FreshMonster(m: Character)
  {
    && 20 <= m.health <= 49 && m.maxHealth == m.health
    && 3 <= m.power <= 7 && 1 <= m.textureIndex <= 5
    && m.alive && m.speed == 1 && m.speedMultiplier == 1 && m.damageMultiplier == 1 && m.powerupTimer == 0
    && m.level == 1 && m.experience == 0 && m.experienceToNext == 100
    && m.movementCooldown == 0 && m.invulnerabilityTimer == 0 && !m.isInCombat
    && m.stunTimer == 0 && m.dotTimer == 0 && m.dotDamage == 0 && m.speedBoostTimer == 0 && m.deathTimer == 0
  }

  /** A landmine as both spawners of this file leave it: active, damage 15..24. */
  predicate FreshLandmine(l: Landmine)
  {
    15 <= l.damage <= 24 && l.active
  }

  /** A monster as the chunk spawner leaves it: on grass or trees of the chunk. */
  predicate ChunkMonster(noise: Noise, chunkX: int, chunkY: int, m: Character)
  {
    && InChunk(m.x, m.y, chunkX, chunkY)
    && CellKind(noise, chunkX, chunkY, m.x - chunkX * CHUNK_SIZE, m.y - chunkY * CHUNK_SIZE) in {GRASS, TREE}
    && FreshMonster(m)
  }

  /** A power-up as the chunk spawner leaves it: active, on a mountain of the chunk. */
  predicate ChunkPowerup(noise: Noise, chunkX: int, chunkY: int, u: Powerup)
  {
    && InChunk(u.x, u.y, chunkX, chunkY)
    && CellKind(noise, chunkX, chunkY, u.x - chunkX * CHUNK_SIZE, u.y - chunkY * CHUNK_SIZE) == MOUNTAIN
    && u.active
  }

  /** A landmine as the chunk spawner leaves it: on a lake or the sea of the chunk. */
  predicate ChunkLandmine(noise: Noise, chunkX: int, chunkY: int, l: Landmine)
  {
    && InChunk(l.x, l.y, chunkX, chunkY)
    && CellKind(noise, chunkX, chunkY, l.x - chunkX * CHUNK_SIZE, l.y - chunkY * CHUNK_SIZE) in {LAKE, SEA}
    && FreshLandmine(l)
  }

  function ChunkMonsters(noise: Noise, chunkX: int, chunkY: int): Character -> bool
  {
    (m: Character) => ChunkMonster(noise, chunkX, chunkY, m)
  }

  function ChunkPowerups(noise: Noise, chunkX: int, chunkY: int): Powerup -> bool
  {
    (u: Powerup) => ChunkPowerup(noise, chunkX, chunkY, u)
  }

  function ChunkLandmines(noise: Noise, chunkX: int, chunkY: int): Landmine -> bool
  {
    (l: Landmine) => ChunkLandmine(noise, chunkX, chunkY, l)
  }

  /** Each of the three entity arrays went from the first prefix to the second by spawner pushes. */
  ghost predicate Spawned(ms: seq<Character>, us: seq<Powerup>, ls: seq<Landmine>,
                          ms': seq<Character>, us': seq<Powerup>, ls': seq<Landmine>,
                          noise: Noise, chunkX: int, chunkY: int)
  {
    && Appended(ms, ms', ChunkMonsters(noise, chunkX, chunkY))
    && Appended(us, us', ChunkPowerups(noise, chunkX, chunkY))
    && Appended(ls, ls', ChunkLandmines(noise, chunkX, chunkY))
  }

  lemma SpawnedTrans(ms: seq<Character>, us: seq<Powerup>, ls: seq<Landmine>,
                     ms1: seq<Character>, us1: seq<Powerup>, ls1: seq<Landmine>,
                     ms2: seq<Character>, us2: seq<Powerup>, ls2: seq<Landmine>,
                     noise: Noise, chunkX: int, chunkY: int)
    requires Spawned(ms, us, ls, ms1, us1, ls1, noise, chunkX, chunkY)
    requires Spawned(ms1, us1, ls1, ms2, us2, ls2, noise, chunkX, chunkY)
    ensures Spawned(ms, us, ls, ms2, us2, ls2, noise, chunkX, chunkY)
  {
    AppendedTrans(ms, ms1, ms2, ChunkMonsters(noise, chunkX, chunkY));
    AppendedTrans(us, us1, us2, ChunkPowerups(noise, chunkX, chunkY));
    AppendedTrans(ls, ls1, ls2, ChunkLandmines(noise, chunkX, chunkY));
  }

  /** The live prefixes of w's entity arrays, reached from ms, us, ls by spawner pushes. */
  ghost predicate SpawnedOnly(w: GameState, ms: seq<Character>, us: seq<Powerup>, ls: seq<Landmine>,
                              chunkX: int, chunkY: int)
    reads w, w.monsters, w.powerups, w.landmines
    requires w.Shape()
  {
    Spawned(ms, us, ls, w.monsters[..w.monsterCount], w.powerups[..w.powerupCount],
            w.landmines[..w.landmineCount], w.noise, chunkX, chunkY)
  }

  // ----- How many entities a chunk's generation adds -----

  /** One number per entity kind: live counts, or how many cells drew a spawn of each kind. */
  datatype Tally = Tally(monsters: nat, powerups: nat, landmines: nat)

  function Add(a: Tally, b: Tally): Tally
  {
    Tally(a.monsters + b.monsters, a.powerups + b.powerups, a.landmines + b.landmines)
  }

  /** Componentwise order on tallies. */
  predicate AtMost(a: Tally, b: Tally)
  {
    a.monsters <= b.monsters && a.powerups <= b.powerups && a.landmines <= b.landmines
  }

  /** The live counts of the three entity arrays. */
  function CountsOf(w: GameState): Tally
    reads w
  {
    Tally(w.monsterCount, w.powerupCount, w.landmineCount)
  }

  /**
   * A count after `added` pushes that each take a slot only while the array has room: it
   * reaches the capacity exactly when count + added does.
   */
  function Capped(count: nat, added: nat, capacity: nat): (r: nat)
    requires count <= capacity
    ensures count <= r <= capacity && r <= count + added
    ensures r == capacity <==> count + added >= capacity
    ensures r < capacity ==> r == count + added
  {
    if count + added < capacity then count + added else capacity
  }

  /** Pushing a then b capped is pushing a + b capped. */
  lemma CappedTrans(count: nat, a: nat, b: nat, capacity: nat)
    requires count <= capacity
    ensures Capped(Capped(count, a, capacity), b, capacity) == Capped(count, a + b, capacity)
  {
  }

  /** The counts went from `before` to `now` by `hits` capped pushes of each kind. */
  predicate Grew(now: Tally, before: Tally, hits: Tally)
  {
    && before.monsters <= MAX_MONSTERS && before.powerups <= MAX_POWERUPS && before.landmines <= MAX_LANDMINES
    && now.monsters == Capped(before.monsters, hits.monsters, MAX_MONSTERS)
    && now.powerups == Capped(before.powerups, hits.powerups, MAX_POWERUPS)
    && now.landmines == Capped(before.landmines, hits.landmines, MAX_LANDMINES)
  }

  lemma GrewTrans(c0: Tally, c1: Tally, c2: Tally, t1: Tally, t2: Tally)
    requires Grew(c1, c0, t1) && Grew(c2, c1, t2)
    ensures Grew(c2, c0, Add(t1, t2))
  {
    CappedTrans(c0.monsters, t1.monsters, t2.monsters, MAX_MONSTERS);
    CappedTrans(c0.powerups, t1.powerups, t2.powerups, MAX_POWERUPS);
    CappedTrans(c0.landmines, t1.landmines, t2.landmines, MAX_LANDMINES);
  }

  /**
   * What one cell asks for: with a draw below 2 out of 100, a monster on grass or trees, a
   * power-up on a mountain, a landmine on a lake or the sea; nothing otherwise.
   */
  function CellTally(kind: int, roll: nat): (t: Tally)
    ensures t.monsters + t.powerups + t.landmines <= 1
    ensures t.monsters == 1 <==> roll < 2 && kind in {GRASS, TREE}
    ensures t.powerups == 1 <==> roll < 2 && kind == MOUNTAIN
    ensures t.landmines == 1 <==> roll < 2 && kind in {LAKE, SEA}
  {
    if roll >= 2 then Tally(0, 0, 0)
    else if kind == GRASS || kind == TREE then Tally(1, 0, 0)
    else if kind == MOUNTAIN then Tally(0, 1, 0)
    else if kind == LAKE || kind == SEA then Tally(0, 0, 1)
    else Tally(0, 0, 0)
  }

  /** What cells (x, 0) ... (x, |rolls| - 1) of a chunk ask for, rolls[y] being cell y's draw. */
  function ColumnTally(noise: Noise, chunkX: int, chunkY: int, x: int, rolls: seq<nat>): Tally
  {
    if rolls == [] then Tally(0, 0, 0)
    else Add(ColumnTally(noise, chunkX, chunkY, x, rolls[..|rolls| - 1]),
             CellTally(CellKind(noise, chunkX, chunkY, x, |rolls| - 1), rolls[|rolls| - 1]))
  }

  /** What columns 0 ... |rolls| - 1 of a chunk ask for, rolls[x] being column x's draws. */
  function ChunkTally(noise: Noise, chunkX: int, chunkY: int, rolls: seq<seq<nat>>): Tally
  {
    if rolls == [] then Tally(0, 0, 0)
    else Add(ChunkTally(noise, chunkX, chunkY, rolls[..|rolls| - 1]),
             ColumnTally(noise, chunkX, chunkY, |rolls| - 1, rolls[|rolls| - 1]))
  }

  /** Each column of `rolls` holds 32 draws, each below 100: the draws of the cells of a generated chunk. */
  predicate Draws(rolls: seq<seq<nat>>)
  {
    forall x :: 0 <= x < |rolls| ==> |rolls[x]| == CHUNK_SIZE && forall y :: 0 <= y < CHUNK_SIZE ==> rolls[x][y] < 100
  }

  /** Every cell of a column is counted in the column's tally. */
  lemma {:induction false} ColumnTallyCountsCell(noise: Noise, chunkX: int, chunkY: int, x: int, rolls: seq<nat>, y: nat)
    requires y < |rolls|
    ensures AtMost(CellTally(CellKind(noise, chunkX, chunkY, x, y), rolls[y]), ColumnTally(noise, chunkX, chunkY, x, rolls))
  {
    if y < |rolls| - 1 {
      ColumnTallyCountsCell(noise, chunkX, chunkY, x, rolls[..|rolls| - 1], y);
    }
  }

  /** Every cell of a chunk is counted in the chunk's tally. */
  lemma {:induction false} ChunkTallyCountsCell(noise: Noise, chunkX: int, chunkY: int, rolls: seq<seq<nat>>, x: nat, y: nat)
    requires x < |rolls| && y < |rolls[x]|
    ensures AtMost(CellTally(CellKind(noise, chunkX, chunkY, x, y), rolls[x][y]), ChunkTally(noise, chunkX, chunkY, rolls))
  {
    if x < |rolls| - 1 {
      ChunkTallyCountsCell(noise, chunkX, chunkY, rolls[..|rolls| - 1], x, y);
    } else {
      ColumnTallyCountsCell(noise, chunkX, chunkY, x, rolls[x], y);
    }
  }

  /** Every entity of ms, us, ls past the counts `before` stands in world column wx. */
  ghost predicate InColumnPast(ms: seq<Character>, us: seq<Powerup>, ls: seq<Landmine>, before: Tally, wx: int)
  {
    && (forall k :: before.monsters <= k < |ms| ==> ms[k].x == wx)
    && (forall k :: before.powerups <= k < |us| ==> us[k].x == wx)
    && (forall k :: before.landmines <= k < |ls| ==> ls[k].x == wx)
  }

  /** Every entity of ms, us, ls past the counts `before` stands in world row wy. */
  ghost predicate InRowPast(ms: seq<Character>, us: seq<Powerup>, ls: seq<Landmine>, before: Tally, wy: int)
  {
    && (forall k :: before.monsters <= k < |ms| ==> ms[k].y == wy)
    && (forall k :: before.powerups <= k < |us| ==> us[k].y == wy)
    && (forall k :: before.landmines <= k < |ls| ==> ls[k].y == wy)
  }

  /** Extending the prefixes by pushes that all land in column wx keeps everything past `before` there. */
  lemma InColumnPastTrans(ms: seq<Character>, us: seq<Powerup>, ls: seq<Landmine>,
                          ms': seq<Character>, us': seq<Powerup>, ls': seq<Landmine>,
                          noise: Noise, chunkX: int, chunkY: int, before: Tally, wx: int)
    requires Spawned(ms, us, ls, ms', us', ls', noise, chunkX, chunkY)
    requires InColumnPast(ms, us, ls, before, wx)
    requires InColumnPast(ms', us', ls', Tally(|ms|, |us|, |ls|), wx)
    ensures InColumnPast(ms', us', ls', before, wx)
  {
    forall k | before.monsters <= k < |ms|
      ensures ms'[k].x == wx
    {
      assert ms'[k] == ms'[..|ms|][k];
    }
    forall k | before.powerups <= k < |us|
      ensures us'[k].x == wx
    {
      assert us'[k] == us'[..|us|][k];
    }
    forall k | before.landmines <= k < |ls|
      ensures ls'[k].x == wx
    {
      assert ls'[k] == ls'[..|ls|][k];
    }
  }

  /** Every entity past the counts `before` stands in world column wx. */
  ghost predicate AddedInColumn(w: GameState, before: Tally, wx: int)
    reads w, w.monsters, w.powerups, w.landmines
    requires w.Shape()
  {
    InColumnPast(w.monsters[..w.monsterCount], w.powerups[..w.powerupCount], w.landmines[..w.landmineCount], before, wx)
  }

  /** Every entity past the counts `before` stands on the world cell (wx, wy). */
  ghost predicate AddedOnCell(w: GameState, before: Tally, wx: int, wy: int)
    reads w, w.monsters, w.powerups, w.landmines
    requires w.Shape()
  {
    && AddedInColumn(w, before, wx)
    && InRowPast(w.monsters[..w.monsterCount], w.powerups[..w.powerupCount], w.landmines[..w.landmineCount], before, wy)
  }

  /** `monsters[monsterCount++] = ...` with the spawner's random stats, when there is room. */
  method PushChunkMonster(w: GameState, chunkX: int, chunkY: int, worldX: int, worldY: int)
    requires w.Shape() && InChunk(worldX, worldY, chunkX, chunkY)
    requires CellKind(w.noise, chunkX, chunkY, worldX - chunkX * CHUNK_SIZE, worldY - chunkY * CHUNK_SIZE) in {GRASS, TREE}
    modifies w, w.monsters
    ensures w.Shape()
    ensures w.player == old(w.player) && w.projectileCount == old(w.projectileCount)
    ensures w.loadedChunkCount == old(w.loadedChunkCount)
    ensures w.powerupCount == old(w.powerupCount) && w.landmineCount == old(w.landmineCount)
    ensures w.monsterCount == if old(w.monsterCount) < MAX_MONSTERS then old(w.monsterCount) + 1 else old(w.monsterCount)
    ensures Appended(old(w.monsters[..w.monsterCount]), w.monsters[..w.monsterCount], ChunkMonsters(w.noise, chunkX, chunkY))
    ensures w.monsterCount > old(w.monsterCount) ==> w.monsters[old(w.monsterCount)].x == worldX && w.monsters[old(w.monsterCount)].y == worldY
    ensures Grew(CountsOf(w), old(CountsOf(w)), Tally(1, 0, 0))
    ensures AddedOnCell(w, old(CountsOf(w)), worldX, worldY)
    ensures SpawnedOnly(w, old(w.monsters[..w.monsterCount]), old(w.powerups[..w.powerupCount]),
                        old(w.landmines[..w.landmineCount]), chunkX, chunkY)
  {
    if w.monsterCount < MAX_MONSTERS {
      var health := RandMod(30);
      var power := RandMod(5);
      var texture := RandMod(5);
      w.monsters[w.monsterCount] := SpawnedMonster(w.monsters[w.monsterCount], worldX, worldY,
                                                   20 + health, 3 + power, 1 + texture);
      w.monsterCount := w.monsterCount + 1;
    }
  }

  /** `powerups[powerupCount++] = ...` with a random type, when there is room. */
  method PushChunkPowerup(w: GameState, chunkX: int, chunkY: int, worldX: int, worldY: int)
    requires w.Shape() && InChunk(worldX, worldY, chunkX, chunkY)
    requires CellKind(w.noise, chunkX, chunkY, worldX - chunkX * CHUNK_SIZE, worldY - chunkY * CHUNK_SIZE) == MOUNTAIN
    modifies w, w.powerups
    ensures w.Shape()
    ensures w.player == old(w.player) && w.projectileCount == old(w.projectileCount)
    ensures w.loadedChunkCount == old(w.loadedChunkCount)
    ensures w.monsterCount == old(w.monsterCount) && w.landmineCount == old(w.landmineCount)
    ensures w.powerupCount == if old(w.powerupCount) < MAX_POWERUPS then old(w.powerupCount) + 1 else old(w.powerupCount)
    ensures Appended(old(w.powerups[..w.powerupCount]), w.powerups[..w.powerupCount], ChunkPowerups(w.noise, chunkX, chunkY))
    ensures w.powerupCount > old(w.powerupCount) ==> w.powerups[old(w.powerupCount)].x == worldX && w.powerups[old(w.powerupCount)].y == worldY
    ensures Grew(CountsOf(w), old(CountsOf(w)), Tally(0, 1, 0))
    ensures AddedOnCell(w, old(CountsOf(w)), worldX, worldY)
    ensures SpawnedOnly(w, old(w.monsters[..w.monsterCount]), old(w.powerups[..w.powerupCount]),
                        old(w.landmines[..w.landmineCount]), chunkX, chunkY)
  {
    if w.powerupCount < MAX_POWERUPS {
      var kind := RandMod(POWERUP_COUNT);
      w.powerups[w.powerupCount] := w.powerups[w.powerupCount].(x := worldX, y := worldY,
                                                                kind := PowerupTypeOf(kind), active := true);
      w.powerupCount := w.powerupCount + 1;
    }
  }

  /** `landmines[landmineCount++] = ...` with a random damage, when there is room. */
  method PushChunkLandmine(w: GameState, chunkX: int, chunkY: int, worldX: int, worldY: int)
    requires w.Shape() && InChunk(worldX, worldY, chunkX, chunkY)
    requires CellKind(w.noise, chunkX, chunkY, worldX - chunkX * CHUNK_SIZE, worldY - chunkY * CHUNK_SIZE) in {LAKE, SEA}
    modifies w, w.landmines
    ensures w.Shape()
    ensures w.player == old(w.player) && w.projectileCount == old(w.projectileCount)
    ensures w.loadedChunkCount == old(w.loadedChunkCount)
    ensures w.monsterCount == old(w.monsterCount) && w.powerupCount == old(w.powerupCount)
    ensures w.landmineCount == if old(w.landmineCount) < MAX_LANDMINES then old(w.landmineCount) + 1 else old(w.landmineCount)
    ensures Appended(old(w.landmines[..w.landmineCount]), w.landmines[..w.landmineCount], ChunkLandmines(w.noise, chunkX, chunkY))
    ensures w.landmineCount > old(w.landmineCount) ==> w.landmines[old(w.landmineCount)].x == worldX && w.landmines[old(w.landmineCount)].y == worldY
    ensures Grew(CountsOf(w), old(CountsOf(w)), Tally(0, 0, 1))
    ensures AddedOnCell(w, old(CountsOf(w)), worldX, worldY)
    ensures SpawnedOnly(w, old(w.monsters[..w.monsterCount]), old(w.powerups[..w.powerupCount]),
                        old(w.landmines[..w.landmineCount]), chunkX, chunkY)
  {
    if w.landmineCount < MAX_LANDMINES {
      var damage := RandMod(10);
      w.landmines[w.landmineCount] := w.landmines[w.landmineCount].(x := worldX, y := worldY,
                                                                    damage := 15 + damage, active := true);
      w.landmineCount := w.landmineCount + 1;
    }
  }

  /**
   * The body of the cell loop of `generateChunkContent`: a 2% draw, then one entity chosen by
   * the terrain kind, pushed only when its array has room.
   */
  method SpawnOnCell(w: GameState, chunkX: int, chunkY: int, x: int, y: int, terrainType: int)
    returns (ghost roll: nat)
    requires w.Shape() && 0 <= x < CHUNK_SIZE && 0 <= y < CHUNK_SIZE
    requires terrainType == CellKind(w.noise, chunkX, chunkY, x, y)
    modifies w, w.monsters, w.powerups, w.landmines
    ensures w.Shape()
    ensures w.player == old(w.player) && w.projectileCount == old(w.projectileCount)
    ensures w.loadedChunkCount == old(w.loadedChunkCount)
    ensures roll < 100
    ensures Grew(CountsOf(w), old(CountsOf(w)), CellTally(terrainType, roll))
    ensures AddedOnCell(w, old(CountsOf(w)), chunkX * CHUNK_SIZE + x, chunkY * CHUNK_SIZE + y)
    ensures SpawnedOnly(w, old(w.monsters[..w.monsterCount]), old(w.powerups[..w.powerupCount]),
                        old(w.landmines[..w.landmineCount]), chunkX, chunkY)
  {
    var worldX := chunkX * CHUNK_SIZE + x;
    var worldY := chunkY * CHUNK_SIZE + y;
    assert worldX - chunkX * CHUNK_SIZE == x && worldY - chunkY * CHUNK_SIZE == y;
    var draw := RandMod(100);
    roll := draw;
    if draw < 2 {
      if terrainType == GRASS || terrainType == TREE {
        PushChunkMonster(w, chunkX, chunkY, worldX, worldY);
      } else if terrainType == MOUNTAIN {
        PushChunkPowerup(w, chunkX, chunkY, worldX, worldY);
      } else if terrainType == LAKE || terrainType == SEA {
        PushChunkLandmine(w, chunkX, chunkY, worldX, worldY);
      }
    }
  }

  /** The inner loop of `generateChunkContent`: cells (x, 0) ... (x, 31) of the chunk in slot chunkIndex. */
  method SpawnOnColumn(w: GameState, chunkX: int, chunkY: int, chunkIndex: int, x: int)
    returns (ghost rolls: seq<nat>)
    requires w.Shape() && w.TableOk() && w.TerrainOk()
    requires 0 <= chunkIndex < w.loadedChunkCount && At(w.loadedChunks[chunkIndex], chunkX, chunkY)
    requires 0 <= x < CHUNK_SIZE
    modifies w, w.monsters, w.powerups, w.landmines
    ensures w.Shape()
    ensures w.player == old(w.player) && w.projectileCount == old(w.projectileCount)
    ensures w.loadedChunkCount == old(w.loadedChunkCount)
    ensures |rolls| == CHUNK_SIZE && forall y :: 0 <= y < CHUNK_SIZE ==> rolls[y] < 100
    ensures Grew(CountsOf(w), old(CountsOf(w)), ColumnTally(w.noise, chunkX, chunkY, x, rolls))
    ensures AddedInColumn(w, old(CountsOf(w)), chunkX * CHUNK_SIZE + x)
    ensures SpawnedOnly(w, old(w.monsters[..w.monsterCount]), old(w.powerups[..w.powerupCount]),
                        old(w.landmines[..w.landmineCount]), chunkX, chunkY)
  {
    ghost var ms, us, ls := w.monsters[..w.monsterCount], w.powerups[..w.powerupCount],
                            w.landmines[..w.landmineCount];
    ghost var start := CountsOf(w);
    assert w.loadedChunks[chunkIndex].terrain[x] == TerrainColumn(w.noise, chunkX, chunkY, x);
    rolls := [];
    for y := 0 to CHUNK_SIZE
      invariant w.Shape()
      invariant w.player == old(w.player) && w.projectileCount == old(w.projectileCount)
      invariant w.loadedChunkCount == old(w.loadedChunkCount)
      invariant |rolls| == y && forall j :: 0 <= j < y ==> rolls[j] < 100
      invariant Grew(CountsOf(w), start, ColumnTally(w.noise, chunkX, chunkY, x, rolls))
      invariant AddedInColumn(w, start, chunkX * CHUNK_SIZE + x)
      invariant SpawnedOnly(w, ms, us, ls, chunkX, chunkY)
      modifies w, w.monsters, w.powerups, w.landmines
    {
      var terrainType := w.loadedChunks[chunkIndex].terrain[x][y];
      ghost var ms1, us1, ls1 := w.monsters[..w.monsterCount], w.powerups[..w.powerupCount],
                                 w.landmines[..w.landmineCount];
      ghost var mid := CountsOf(w);
      ghost var roll := SpawnOnCell(w, chunkX, chunkY, x, y, terrainType);
      SpawnedTrans(ms, us, ls, ms1, us1, ls1, w.monsters[..w.monsterCount], w.powerups[..w.powerupCount],
                   w.landmines[..w.landmineCount], w.noise, chunkX, chunkY);
      InColumnPastTrans(ms1, us1, ls1, w.monsters[..w.monsterCount], w.powerups[..w.powerupCount],
                        w.landmines[..w.landmineCount], w.noise, chunkX, chunkY, start, chunkX * CHUNK_SIZE + x);
      GrewTrans(start, mid, CountsOf(w), ColumnTally(w.noise, chunkX, chunkY, x, rolls), CellTally(terrainType, roll));
      assert (rolls + [roll])[..y] == rolls;
      rolls := rolls + [roll];
    }
  }


  /** The outer loop of `generateChunkContent`: every column of the chunk in slot chunkIndex. */
  method SpawnOnChunk(w: GameState, chunkX: int, chunkY: int, chunkIndex: int)
    returns (ghost rolls: seq<seq<nat>>)
    requires w.Shape() && w.TableOk() && w.TerrainOk()
    requires 0 <= chunkIndex < w.loadedChunkCount && At(w.loadedChunks[chunkIndex], chunkX, chunkY)
    modifies w, w.monsters, w.powerups, w.landmines
    ensures w.Shape()
    ensures w.player == old(w.player) && w.projectileCount == old(w.projectileCount)
    ensures w.loadedChunkCount == old(w.loadedChunkCount)
    ensures |rolls| == CHUNK_SIZE && Draws(rolls)
    ensures Grew(CountsOf(w), old(CountsOf(w)), ChunkTally(w.noise, chunkX, chunkY, rolls))
    ensures SpawnedOnly(w, old(w.monsters[..w.monsterCount]), old(w.powerups[..w.powerupCount]),
                        old(w.landmines[..w.landmineCount]), chunkX, chunkY)
  {
    ghost var ms, us, ls := w.monsters[..w.monsterCount], w.powerups[..w.powerupCount],
                            w.landmines[..w.landmineCount];
    ghost var start := CountsOf(w);
    rolls := [];
    for x := 0 to CHUNK_SIZE
      invariant w.Shape() && w.TableOk() && w.TerrainOk()
      invariant w.player == old(w.player) && w.projectileCount == old(w.projectileCount)
      invariant w.loadedChunkCount == old(w.loadedChunkCount)
      invariant |rolls| == x && Draws(rolls)
      invariant Grew(CountsOf(w), start, ChunkTally(w.noise, chunkX, chunkY, rolls))
      invariant SpawnedOnly(w, ms, us, ls, chunkX, chunkY)
      modifies w, w.monsters, w.powerups, w.landmines
    {
      ghost var ms1, us1, ls1 := w.monsters[..w.monsterCount], w.powerups[..w.powerupCount],
                                 w.landmines[..w.landmineCount];
      ghost var mid := CountsOf(w);
      ghost var column := SpawnOnColumn(w, chunkX, chunkY, chunkIndex, x);
      SpawnedTrans(ms, us, ls, ms1, us1, ls1, w.monsters[..w.monsterCount], w.powerups[..w.powerupCount],
                   w.landmines[..w.landmineCount], w.noise, chunkX, chunkY);
      GrewTrans(start, mid, CountsOf(w), ChunkTally(w.noise, chunkX, chunkY, rolls),
                ColumnTally(w.noise, chunkX, chunkY, x, column));
      assert (rolls + [column])[..x] == rolls;
      rolls := rolls + [column];
    }
  }

  /** After the terrain fill every live slot holds its terrain: the filled slot is the only one at (chunkX, chunkY). */
  lemma FilledTerrainOk(w: GameState, before: seq<Chunk>, chunkX: int, chunkY: int)
    requires w.TableOk() && |before| == w.loadedChunkCount && DistinctChunks(before)
    requires forall k :: 0 <= k < |before| ==> At(before[k], chunkX, chunkY) || TerrainReady(w.noise, before[k])
    requires forall k :: 0 <= k < |before| && k != FindChunk(before, chunkX, chunkY) ==> w.loadedChunks[k] == before[k]
    requires FindChunk(before, chunkX, chunkY) >= 0 ==>
      TerrainReady(w.noise, w.loadedChunks[FindChunk(before, chunkX, chunkY)])
    ensures w.TerrainOk()
  {
    forall k | 0 <= k < w.loadedChunkCount
      ensures TerrainReady(w.noise, w.loadedChunks[k])
    {
      if At(before[k], chunkX, chunkY) {
        FindChunkOnly(before, chunkX, chunkY, k);
      }
    }
  }

  /**
   * `generateChunkContent`: generate the chunk's terrain, then visit its 32 x 32 cells and
   * spawn from the terrain. Apart from the terrain of that chunk's slot the table is kept.
   */
  method GenerateChunkContent(w: GameState, chunkX: int, chunkY: int)
    returns (ghost rolls: seq<seq<nat>>)
    requires w.Shape() && w.TableOk()
    requires forall k :: 0 <= k < w.loadedChunkCount ==>
      At(w.loadedChunks[k], chunkX, chunkY) || TerrainReady(w.noise, w.loadedChunks[k])
    modifies w, w.monsters, w.powerups, w.landmines, w.loadedChunks
    ensures w.Valid()
    ensures w.player == old(w.player) && w.projectileCount == old(w.projectileCount)
    ensures w.loadedChunkCount == old(w.loadedChunkCount)
    ensures forall k :: 0 <= k < w.loadedChunks.Length ==> SameSlot(w.loadedChunks[k], old(w.loadedChunks[k]))
    ensures FindChunk(w.Chunks(), chunkX, chunkY) >= 0 ==> |rolls| == CHUNK_SIZE
    ensures FindChunk(w.Chunks(), chunkX, chunkY) < 0 ==> rolls == []
    ensures Draws(rolls)
    ensures Grew(CountsOf(w), old(CountsOf(w)), ChunkTally(w.noise, chunkX, chunkY, rolls))
    ensures SpawnedOnly(w, old(w.monsters[..w.monsterCount]), old(w.powerups[..w.powerupCount]),
                        old(w.landmines[..w.landmineCount]), chunkX, chunkY)
  {
    ghost var before := w.Chunks();
    rolls := [];
    GenerateChunkTerrain(w, chunkX, chunkY);
    FilledTerrainOk(w, before, chunkX, chunkY);
    var chunkIndex := GetChunkIndex(w, chunkX, chunkY);
    if chunkIndex == -1 {
      return;
    }
    rolls := SpawnOnChunk(w, chunkX, chunkY, chunkIndex);
  }

  // ----- Loading -----

  /** A slot just (re)written by `loadChunk`: it holds (chunkX, chunkY), is loaded and stamped now. */
  predicate NewSlot(c: Chunk, chunkX: int, chunkY: int, now: int)
  {
    At(c, chunkX, chunkY) && c.loaded && c.lastAccess == now
  }

  /** Writing a chunk whose coordinates no other slot holds keeps the table free of duplicates. */
  lemma DistinctReplace(s: seq<Chunk>, i: nat, c: Chunk)
    requires DistinctChunks(s) && i < |s| && c.loaded
    requires forall k :: 0 <= k < |s| && k != i ==> !At(s[k], c.chunkX, c.chunkY)
    ensures DistinctChunks(s[i := c])
  {
  }

  /** Appending a chunk absent from the table keeps it free of duplicates. */
  lemma DistinctAppend(s: seq<Chunk>, c: Chunk)
    requires DistinctChunks(s) && c.loaded
    requires forall k :: 0 <= k < |s| ==> !At(s[k], c.chunkX, c.chunkY)
    ensures DistinctChunks(s + [c])
  {
  }

  /** The entity prefixes ms', us', ls' are what `unloadChunkEntities` keeps of ms, us, ls. */
  ghost predicate Unloaded(ms: seq<Character>, us: seq<Powerup>, ls: seq<Landmine>,
                           ms': seq<Character>, us': seq<Powerup>, ls': seq<Landmine>,
                           chunkX: int, chunkY: int, px: int, py: int)
  {
    && KeptExactly(multiset(ms'), multiset(ms), MonsterFarIn(chunkX, chunkY, px, py))
    && KeptExactly(multiset(us'), multiset(us), PowerupFarIn(chunkX, chunkY, px, py))
    && KeptExactly(multiset(ls'), multiset(ls), LandmineFarIn(chunkX, chunkY, px, py))
  }

  /** The branch of `loadChunk` below capacity: the chunk goes into the next free slot. */
  method AppendChunk(w: GameState, chunkX: int, chunkY: int, now: int)
    returns (ghost rolls: seq<seq<nat>>)
    requires w.Valid() && w.loadedChunkCount < MAX_LOADED_CHUNKS
    requires FindChunk(w.Chunks(), chunkX, chunkY) == -1
    modifies w, w.monsters, w.powerups, w.landmines, w.loadedChunks
    ensures w.Valid()
    ensures w.player == old(w.player) && w.projectileCount == old(w.projectileCount)
    ensures w.loadedChunkCount == old(w.loadedChunkCount) + 1
    ensures forall k :: 0 <= k < old(w.loadedChunkCount) ==> SameSlot(w.loadedChunks[k], old(w.loadedChunks[k]))
    ensures NewSlot(w.loadedChunks[old(w.loadedChunkCount)], chunkX, chunkY, now)
    ensures FindChunk(w.Chunks(), chunkX, chunkY) >= 0 ==> |rolls| == CHUNK_SIZE
    ensures Draws(rolls)
    ensures Grew(CountsOf(w), old(CountsOf(w)), ChunkTally(w.noise, chunkX, chunkY, rolls))
    ensures SpawnedOnly(w, old(w.monsters[..w.monsterCount]), old(w.powerups[..w.powerupCount]),
                        old(w.landmines[..w.landmineCount]), chunkX, chunkY)
  {
    ghost var before := w.Chunks();
    var slot := w.loadedChunkCount;
    var c := w.loadedChunks[slot].(chunkX := chunkX, chunkY := chunkY, loaded := true, lastAccess := now);
    w.loadedChunks[slot] := c;
    w.loadedChunkCount := slot + 1;
    assert w.Chunks() == before + [c];
    DistinctAppend(before, c);
    rolls := GenerateChunkContent(w, chunkX, chunkY);
  }

  /**
   * The branch of `loadChunk` at capacity: the least recently used slot is found, the far
   * entities of its chunk are removed, and the slot is overwritten with the new coordinates.
   * The ghost results name the evicted slot and the entity prefixes after the removal.
   */
  method EvictChunk(w: GameState, chunkX: int, chunkY: int, now: int)
    returns (ghost oldest: nat, ghost ms: seq<Character>, ghost us: seq<Powerup>, ghost ls: seq<Landmine>,
             ghost rolls: seq<seq<nat>>)
    requires w.Valid() && w.loadedChunkCount == MAX_LOADED_CHUNKS
    requires FindChunk(w.Chunks(), chunkX, chunkY) == -1
    modifies w, w.monsters, w.powerups, w.landmines, w.loadedChunks
    ensures w.Valid()
    ensures w.player == old(w.player) && w.projectileCount == old(w.projectileCount)
    ensures w.loadedChunkCount == old(w.loadedChunkCount)
    ensures IsOldest(old(w.Chunks()), oldest)
    ensures forall k :: 0 <= k < w.loadedChunks.Length && k != oldest ==> SameSlot(w.loadedChunks[k], old(w.loadedChunks[k]))
    ensures NewSlot(w.loadedChunks[oldest], chunkX, chunkY, now)
    ensures Unloaded(old(w.monsters[..w.monsterCount]), old(w.powerups[..w.powerupCount]),
                     old(w.landmines[..w.landmineCount]), ms, us, ls,
                     old(w.loadedChunks[oldest].chunkX), old(w.loadedChunks[oldest].chunkY),
                     w.player.x, w.player.y)
    ensures FindChunk(w.Chunks(), chunkX, chunkY) >= 0 ==> |rolls| == CHUNK_SIZE
    ensures Draws(rolls)
    ensures Grew(CountsOf(w), Tally(|ms|, |us|, |ls|), ChunkTally(w.noise, chunkX, chunkY, rolls))
    ensures SpawnedOnly(w, ms, us, ls, chunkX, chunkY)
  {
    var slot := OldestSlot(w);
    oldest := slot;
    UnloadChunkEntities(w, slot);
    ms, us, ls := w.monsters[..w.monsterCount], w.powerups[..w.powerupCount], w.landmines[..w.landmineCount];
    ghost var before := w.Chunks();
    var c := w.loadedChunks[slot].(chunkX := chunkX, chunkY := chunkY, loaded := true, lastAccess := now);
    w.loadedChunks[slot] := c;
    assert w.Chunks() == before[slot := c];
    DistinctReplace(before, slot, c);
    rolls := GenerateChunkContent(w, chunkX, chunkY);
  }

  /**
   * `loadChunk`: a present chunk changes nothing; otherwise the chunk takes the next free slot
   * or, at capacity, the least recently used one, and its content is generated. The ghost
   * results name the evicted slot (-1 when none) and the entity prefixes the spawns extend.
   */
  method LoadChunk(w: GameState, chunkX: int, chunkY: int, now: int)
    returns (ghost evicted: int, ghost ms: seq<Character>, ghost us: seq<Powerup>, ghost ls: seq<Landmine>,
             ghost rolls: seq<seq<nat>>)
    requires w.Valid()
    modifies w, w.monsters, w.powerups, w.landmines, w.loadedChunks
    ensures w.Valid()
    ensures w.player == old(w.player) && w.projectileCount == old(w.projectileCount)
    ensures FindChunk(w.Chunks(), chunkX, chunkY) >= 0
    ensures old(FindChunk(w.Chunks(), chunkX, chunkY)) >= 0 ==>
      && unchanged(w) && unchanged(w.loadedChunks)
      && unchanged(w.monsters) && unchanged(w.powerups) && unchanged(w.landmines)
    ensures w.loadedChunkCount ==
      if old(FindChunk(w.Chunks(), chunkX, chunkY)) < 0 && old(w.loadedChunkCount) < MAX_LOADED_CHUNKS
      then old(w.loadedChunkCount) + 1 else old(w.loadedChunkCount)
    ensures evicted >= 0 <==> old(FindChunk(w.Chunks(), chunkX, chunkY)) < 0 && old(w.loadedChunkCount) == MAX_LOADED_CHUNKS
    ensures evicted >= 0 ==> IsOldest(old(w.Chunks()), evicted)
    ensures forall k :: 0 <= k < old(w.loadedChunkCount) && k != evicted ==> SameSlot(w.loadedChunks[k], old(w.loadedChunks[k]))
    ensures old(FindChunk(w.Chunks(), chunkX, chunkY)) < 0 ==>
      NewSlot(w.loadedChunks[FindChunk(w.Chunks(), chunkX, chunkY)], chunkX, chunkY, now)
    ensures evicted < 0 ==>
      ms == old(w.monsters[..w.monsterCount]) && us == old(w.powerups[..w.powerupCount]) && ls == old(w.landmines[..w.landmineCount])
    ensures evicted >= 0 ==>
      Unloaded(old(w.monsters[..w.monsterCount]), old(w.powerups[..w.powerupCount]),
               old(w.landmines[..w.landmineCount]), ms, us, ls,
               old(w.loadedChunks[evicted].chunkX), old(w.loadedChunks[evicted].chunkY), w.player.x, w.player.y)
    ensures |rolls| == (if old(FindChunk(w.Chunks(), chunkX, chunkY)) < 0 then CHUNK_SIZE else 0) && Draws(rolls)
    ensures Grew(CountsOf(w), Tally(|ms|, |us|, |ls|), ChunkTally(w.noise, chunkX, chunkY, rolls))
    ensures SpawnedOnly(w, ms, us, ls, chunkX, chunkY)
  {
    evicted := -1;
    rolls := [];
    ms, us, ls := w.monsters[..w.monsterCount], w.powerups[..w.powerupCount], w.landmines[..w.landmineCount];
    var index := GetChunkIndex(w, chunkX, chunkY);
    if index != -1 {
      return;
    }
    if w.loadedChunkCount >= MAX_LOADED_CHUNKS {
      evicted, ms, us, ls, rolls := EvictChunk(w, chunkX, chunkY, now);
      FindChunkOnly(w.Chunks(), chunkX, chunkY, evicted);
    } else {
      ghost var slot := w.loadedChunkCount;
      rolls := AppendChunk(w, chunkX, chunkY, now);
      FindChunkOnly(w.Chunks(), chunkX, chunkY, slot);
    }
  }

  // ----- Refresh -----

  /** The inner loop of `updateChunks`: chunks (chunkX, pcy - 12) ... (chunkX, pcy + 12). */
  method LoadColumn(w: GameState, chunkX: int, pcy: int, now: int)
    requires w.Valid()
    modifies w, w.monsters, w.powerups, w.landmines, w.loadedChunks
    ensures w.Valid()
    ensures w.player == old(w.player) && w.projectileCount == old(w.projectileCount)
    ensures w.loadedChunkCount >= old(w.loadedChunkCount)
  {
    for dy := -CHUNK_LOAD_DISTANCE to CHUNK_LOAD_DISTANCE + 1
      invariant w.Valid()
      invariant w.player == old(w.player) && w.projectileCount == old(w.projectileCount)
      invariant w.loadedChunkCount >= old(w.loadedChunkCount)
      modifies w, w.monsters, w.powerups, w.landmines, w.loadedChunks
    {
      var _, _, _, _, _ := LoadChunk(w, chunkX, pcy + dy, now);
    }
  }

  /** The refresh loop of `updateChunks`: every loaded slot, wherever its chunk lies, is stamped now. */
  method StampChunks(w: GameState, now: int)
    requires w.Valid()
    modifies w.loadedChunks
    ensures w.Valid()
    ensures forall k :: 0 <= k < w.loadedChunks.Length ==>
      && SameKey(w.loadedChunks[k], old(w.loadedChunks[k]))
      && w.loadedChunks[k].terrain == old(w.loadedChunks[k].terrain)
    ensures forall k :: 0 <= k < w.loadedChunkCount ==> w.loadedChunks[k].lastAccess == now
    ensures forall k :: w.loadedChunkCount <= k < w.loadedChunks.Length ==> w.loadedChunks[k] == old(w.loadedChunks[k])
  {
    for i := 0 to w.loadedChunkCount
      invariant forall k :: 0 <= k < w.loadedChunks.Length ==>
        && SameKey(w.loadedChunks[k], old(w.loadedChunks[k]))
        && w.loadedChunks[k].terrain == old(w.loadedChunks[k].terrain)
      invariant forall k :: 0 <= k < i ==> w.loadedChunks[k].lastAccess == now
      invariant forall k :: i <= k < w.loadedChunks.Length ==> w.loadedChunks[k] == old(w.loadedChunks[k])
    {
      assert w.loadedChunks[..w.loadedChunkCount][i] == w.loadedChunks[i];
      if w.loadedChunks[i].loaded {
        w.loadedChunks[i] := w.loadedChunks[i].(lastAccess := now);
      }
    }
    DistinctSameSlots(old(w.Chunks()), w.Chunks());
  }

  /**
   * `updateChunks`: load the 25 x 25 chunks around the player's chunk, then stamp every loaded
   * slot. The player's chunk is found with C's truncating division, not with `WorldToChunk`.
   */
  method UpdateChunks(w: GameState, now: int)
    requires w.Valid()
    modifies w, w.monsters, w.powerups, w.landmines, w.loadedChunks
    ensures w.Valid()
    ensures w.player == old(w.player) && w.projectileCount == old(w.projectileCount)
    ensures w.loadedChunkCount >= old(w.loadedChunkCount)
    ensures forall k :: 0 <= k < w.loadedChunkCount ==> w.loadedChunks[k].lastAccess == now
  {
    var playerChunkX := CDiv(w.player.x, CHUNK_SIZE);
    var playerChunkY := CDiv(w.player.y, CHUNK_SIZE);
    for dx := -CHUNK_LOAD_DISTANCE to CHUNK_LOAD_DISTANCE + 1
      invariant w.Valid()
      invariant w.player == old(w.player) && w.projectileCount == old(w.projectileCount)
      invariant w.loadedChunkCount >= old(w.loadedChunkCount)
      modifies w, w.monsters, w.powerups, w.landmines, w.loadedChunks
    {
      LoadColumn(w, playerChunkX + dx, playerChunkY, now);
    }
    StampChunks(w, now);
  }
}
